=== FILE: README.md ===
# Appointment booking: a verified Dafny model

This project models the core of an appointment-booking system. The system has two parts: a Go backend over PostgreSQL, and an Angular web client.

**Backend**
- The booking engine (`ApptBookingService`) validates and writes five tables: services, staff, staff_services, schedules and appointments.
- A booking request is checked in a fixed order:
  1. the customer fields;
  2. that the staff member and the service exist;
  3. that the staff member offers the service;
  4. that the appointment lies inside one of the staff member's weekly working-hours windows;
  5. that it does not overlap a live appointment of the same staff member.
- Only after all five checks does the engine write a single confirmed appointment.
- The engine also does the following:
  - admits schedule windows, checking the HH:MM format and overlap with other windows on the same day;
  - guards the deletion of services and staff;
  - validates service and staff fields;
  - enforces the appointment status transitions (confirmed → cancelled, confirmed → completed → cancelled).
- The appointment repository is modelled as an in-memory table. It supplies the conflict query, the status updates and the ordered queries.
- Two helpers of the connection code are modelled: the password masking used when the database URL is logged, and the duplicate-key test.

**Client**
- From the API service: the 12-hour time rendering and the weekday names.
- From the booking wizard: slot generation, the schedule match and the selection state.
- From the dashboard: the revenue and per-staff statistics, and the local list updates.
- From the customer's appointment page: the upcoming and past filters, the e-mail suggestions and the search and cancel updates.

**Shared representation**
- Instants are whole minutes.
- The conversion to the staff member's wall clock (America/Los_Angeles in the source) is a parameter `toLocal: int -> LocalTime`. It gives the weekday (Sunday = 0) and the minute of the day.
- Objects whose fields the source updates are classes:
  - the engine, holding the four smaller tables and their SERIAL counters;
  - the appointment repository;
  - the three Angular components.
- Every mutating method is proved against a pure decision function (`EngineState.*Check`) or states its whole new state. The engine keeps an invariant `Valid()`:
  - every primary key is distinct and below its counter;
  - the CHECK, UNIQUE and REFERENCES constraints of the schema hold on services, staff, staff_services and schedules, and the two REFERENCES of appointments hold;
  - no two windows of one staff member on one day overlap;
  - no two live appointments of one staff member overlap;
  - every appointment has one of the three statuses and a positive duration. The schema checks neither of these; the engine keeps them because it only ever writes such rows.
- The engine is built over stored tables that already meet this invariant. `seed_data.dfy` proves that the tables SeedSampleData leaves meet it.

Files:
- `wrappers.dfy`: Option and Result.
- `seqs.dfy`: filters and searches.
- `sorting.dfy`: ORDER BY and Array.sort.
- `js_text.dfy`: JavaScript string and number helpers.
- `models.dfy`: records and key conventions.
- `appointment_repository.dfy`: the appointment table.
- `booking_rules.dfy`: the HH:MM check and the interval rules.
- `engine_state.dfy`: the engine's decisions.
- `engine_laws.dfy`: the proofs about those decisions.
- `seed_data.dfy`: the tables the sample data leaves, and their consistency.
- `appt_booking_service.dfy`: the engine class.
- `connection.dfy`: the two connection helpers.
- `client_api.dfy`: the Angular API service helpers.
- `booking_component.dfy`: the booking wizard.
- `dashboard_component.dfy`: the dashboard.
- `my_appointments_component.dfy`: the customer's appointment page.

## Model

| member | source | states |
|---|---|---|
| ApptBookingEngine.ApptBookingService.constructor | backend/go/service/appt_booking/appt_booking_service.go:20-34 | Over any stored tables whose ids lie below their counters and that meet the rules the engine keeps, the engine holds exactly those tables and counters and satisfies its invariant. |
| AppointmentStore.AppointmentRepository.constructor | backend/go/db/appt_booking/appointment_repository.go:13-16 | The repository holds exactly the stored appointment table and its counter. |
| ApptBookingEngine.NewSeededEngine | backend/go/dependency_container.go:62-81 | The engine the container builds after seeding holds exactly the seeded tables and satisfies its invariant. |
| SeedData.SeedDbConsistent | backend/go/db/appt_booking/connection.go:245-398 | The database the sample data leaves meets every rule the engine keeps, with the SERIAL counters 4, 4, 12 and 6 above all ids. |
| SeedData.SeedServicesValid | backend/go/db/appt_booking/connection.go:260-283 | The three seeded services have ids 1 to 3, positive durations and non-negative prices. |
| SeedData.SeedStaffValid | backend/go/db/appt_booking/connection.go:286-309 | The three seeded staff members have ids 1 to 3 and pairwise different e-mails. |
| SeedData.SeedPairsValid | backend/go/db/appt_booking/connection.go:314-336 | The four seeded pairs are distinct and name existing staff and services. |
| SeedData.SeedSchedulesValid | backend/go/db/appt_booking/connection.go:341-372 | The eleven seeded windows name existing staff, have days in 0 to 6, and no two of one staff member share a day, so neither UNIQUE nor the no-overlap rule is broken. |
| SeedData.SeedAppointmentsValid | backend/go/db/appt_booking/connection.go:376-394 | The five seeded appointments name existing rows, have known statuses and positive durations, and no two overlap. |
| ApptBookingEngine.ApptBookingService.CreateService | backend/go/service/appt_booking/appt_booking_service.go:39-52 | Fails exactly when the fields are invalid: empty name, then duration ≤ 0, then price < 0, the first failing check winning. A failure writes nothing. On success the table gains one row with the next id and exactly the given fields. The services counter rises by one on success only; the other three counters are unchanged. |
| ApptBookingEngine.ApptBookingService.UpdateService | backend/go/service/appt_booking/appt_booking_service.go:55-68 | Same validation as CreateService. On success every row with the id is replaced, and the result is present exactly when such a row existed. The four SERIAL counters are unchanged. |
| ApptBookingEngine.ApptBookingService.CheckDeleteService | backend/go/service/appt_booking/appt_booking_service.go:81-102 | The staff-list test and the scan over all appointments give exactly DeleteServiceCheck. |
| ApptBookingEngine.ApptBookingService.DeleteService | backend/go/service/appt_booking/appt_booking_service.go:81-105 | Refused while any staff member offers the service or any appointment of any status names it; a refusal changes nothing. Otherwise the service and its staff_services rows go (ON DELETE CASCADE), and the invariant holds. The four SERIAL counters are unchanged. |
| ApptBookingEngine.ApptBookingService.CheckCreateStaff | backend/go/service/appt_booking/appt_booking_service.go:110-133 | The field checks, the '@' scan and the e-mail lookup give exactly CreateStaffCheck, in the source's order. |
| ApptBookingEngine.ApptBookingService.CreateStaff | backend/go/service/appt_booking/appt_booking_service.go:110-136 | Fails exactly when CreateStaffCheck names an error, and then writes nothing. On success it adds one row with the next id; e-mails stay unique. The staff counter rises by one on success only; the other three counters are unchanged. |
| ApptBookingEngine.ApptBookingService.UpdateStaff | backend/go/service/appt_booking/appt_booking_service.go:139-161 | Fails exactly when UpdateStaffCheck names an error. There is no '@' check, and the member's own e-mail is allowed. On success every row with the id is replaced and e-mails stay unique. The four SERIAL counters are unchanged. |
| ApptBookingEngine.ApptBookingService.DeleteStaff | backend/go/service/appt_booking/appt_booking_service.go:174-187 | Refused while the staff member has any appointment. Otherwise the member, their schedules and their staff_services rows go. The four SERIAL counters are unchanged. |
| ApptBookingEngine.ApptBookingService.CheckAssign | backend/go/service/appt_booking/appt_booking_service.go:192-220 | Both lookups and the scan of the member's services give exactly AssignCheck. |
| ApptBookingEngine.ApptBookingService.AssignServiceToStaff | backend/go/service/appt_booking/appt_booking_service.go:192-223 | Refuses a missing staff member, a missing service or an existing pair, writing nothing. Otherwise it appends the pair, so the (staff_id, service_id) primary key holds. The four SERIAL counters are unchanged. |
| ApptBookingEngine.ApptBookingService.UnassignServiceFromStaff | backend/go/service/appt_booking/appt_booking_service.go:226-228 | Removes exactly the pair; other tables are unchanged. The four SERIAL counters are unchanged. |
| ApptBookingEngine.ApptBookingService.CheckCreateSchedule | backend/go/service/appt_booking/appt_booking_service.go:243-290 | Day range, presence, HH:MM format, staff lookup, the same-day overlap scan and then the UNIQUE constraint give exactly CreateScheduleCheck. |
| ApptBookingEngine.ApptBookingService.CreateSchedule | backend/go/service/appt_booking/appt_booking_service.go:243-290 | Fails exactly when CreateScheduleCheck names an error. On success both texts are valid HH:MM, and the new window has the next id and the parsed minutes. No two same-day windows of a staff member overlap afterwards. A failure on the UNIQUE constraint still uses up one id, as the SERIAL sequence does; every other failure leaves the counter alone. The services, staff and appointments counters are unchanged. |
| ApptBookingEngine.ApptBookingService.CheckUpdateSchedule | backend/go/service/appt_booking/appt_booking_service.go:293-338 | The checks of UpdateSchedule, whose overlap scan skips the window's own id, give exactly UpdateScheduleCheck. |
| ApptBookingEngine.ApptBookingService.UpdateSchedule | backend/go/service/appt_booking/appt_booking_service.go:293-338 | Only an existing window is edited. It keeps its id and staff member, and the no-overlap invariant is preserved. A failure changes nothing. The four SERIAL counters are unchanged. |
| ApptBookingEngine.ApptBookingService.DeleteSchedule | backend/go/service/appt_booking/appt_booking_service.go:356-358 | Removes exactly the rows with the id. The four SERIAL counters are unchanged. |
| ApptBookingEngine.ApptBookingService.OffersService | backend/go/service/appt_booking/appt_booking_service.go:405-418 | The serviceOffered flag loop ends true exactly when the member's service list holds the service. |
| ApptBookingEngine.ApptBookingService.IsWithinSchedule | backend/go/service/appt_booking/appt_booking_service.go:424-446 | The isWithinSchedule flag loop ends true exactly when some window of that staff member on the local weekday of the start has start ≤ local start minute and local end minute ≤ end. |
| ApptBookingEngine.ApptBookingService.CheckEligibility | backend/go/service/appt_booking/appt_booking_service.go:370-418 | The field, lookup and eligibility checks, in order, give exactly BookingEligibility. |
| ApptBookingEngine.ApptBookingService.CheckBooking | backend/go/service/appt_booking/appt_booking_service.go:370-455 | Eligibility, working hours and the conflict query, in order, give exactly BookingCheck. |
| ApptBookingEngine.ApptBookingService.BookAppointment | backend/go/service/appt_booking/appt_booking_service.go:363-469 | A failure returns the first failing check's error and writes nothing. A success writes exactly one appointment: the next id, the caller's customer fields, staff, service, datetime and notes, the service's duration and status confirmed. The no-double-booking invariant holds afterwards. The appointments counter rises by one on success only; the engine's three counters are unchanged. |
| ApptBookingEngine.ApptBookingService.GetUpcomingAppointments | backend/go/service/appt_booking/appt_booking_service.go:487-492 | A limit ≤ 0 becomes 50. The result is the earliest non-cancelled appointments at or after now, ascending, as many as the limit allows. |
| ApptBookingEngine.ApptBookingService.CancelAppointment | backend/go/service/appt_booking/appt_booking_service.go:495-510 | Refuses a missing or already cancelled appointment, writing nothing. Otherwise only that row's status becomes cancelled; a completed appointment may be cancelled. The four SERIAL counters are unchanged. |
| ApptBookingEngine.ApptBookingService.CompleteAppointment | backend/go/service/appt_booking/appt_booking_service.go:513-530 | Refuses a missing, completed or cancelled appointment. Otherwise only that row's status becomes completed. The four SERIAL counters are unchanged. |
| EngineState.ServicesForStaff | backend/go/service/appt_booking/appt_booking_service.go:231-233 | The list holds exactly the services paired with the staff member that exist. |
| EngineState.StaffForService | backend/go/service/appt_booking/appt_booking_service.go:236-238 | The list holds exactly the staff members paired with the service that exist. |
| EngineState.SchedulesOf | backend/go/service/appt_booking/appt_booking_service.go:351-353 | Exactly the windows of that staff member. |
| Tables.ReplaceById | backend/go/service/appt_booking/appt_booking_service.go:55-68 | The UPDATE ... WHERE id of UpdateService, UpdateStaff and UpdateSchedule, over any table and its key: same length; rows without the id are untouched and rows with it become the new value; every row of the result is the new value or an untouched row; when the new value carries the id, every id is kept. |
| Tables.ReplaceByIdKeepsKeys | backend/go/service/appt_booking/appt_booking_service.go:139-161 | An update in place under the row's own id keeps every id present, keeps the ids distinct and keeps them below the SERIAL counter. |
| Tables.RowsKeptKeepKeys | backend/go/service/appt_booking/appt_booking_service.go:39-52 | A table that keeps all its rows (an INSERT) keeps every id present, so references into it stay valid. |
| EngineLaws.AssignAllowedExactly | backend/go/service/appt_booking/appt_booking_service.go:192-222 | Assignment goes ahead if and only if the staff member and the service exist and the pair is not yet stored. |
| EngineLaws.DeleteServiceAllowedExactly | backend/go/service/appt_booking/appt_booking_service.go:81-105 | Deletion goes ahead if and only if no staff member offers the service and no appointment, of any status, names it. |
| EngineLaws.CancelAllowedExactly | backend/go/service/appt_booking/appt_booking_service.go:495-510 | Cancel goes ahead if and only if the appointment exists and is not cancelled. |
| EngineLaws.CompleteAllowedExactly | backend/go/service/appt_booking/appt_booking_service.go:513-530 | With known statuses, complete goes ahead if and only if the appointment exists and is confirmed. |
| EngineLaws.CancelIsFinal | backend/go/service/appt_booking/appt_booking_service.go:495-530 | After a cancel, a second cancel and a complete are both refused, with the source's errors. |
| EngineLaws.CompletedCanStillBeCancelled | backend/go/service/appt_booking/appt_booking_service.go:495-530 | After a complete, a second complete is refused but a cancel goes ahead. |
| EngineLaws.WithStatusFound | backend/go/db/appt_booking/appointment_repository.go:221-238 | After a status update the lookup by id finds the same row with the new status, and the keys stay distinct. |
| EngineLaws.EligibilityAccepted | backend/go/service/appt_booking/appt_booking_service.go:370-418 | The field and lookup checks pass if and only if both names are present, the e-mail holds an '@', both ids are positive, the staff member and the service exist and the staff member offers the service; the service given back is that row. |
| EngineLaws.BookingAccepted | backend/go/service/appt_booking/appt_booking_service.go:370-455 | An accepted booking names existing staff and service, the staff member offers the service, the slot lies inside a window of that staff member, and it conflicts with no live appointment. |
| EngineLaws.AddAppointmentKeeps | backend/go/service/appt_booking/appt_booking_service.go:449-468 | Adding a confirmed appointment that passed the conflict query keeps every table constraint and the no-double-booking rule. |
| EngineLaws.CancelKeeps | backend/go/service/appt_booking/appt_booking_service.go:495-510 | Cancelling keeps every table constraint. |
| EngineLaws.CompleteKeeps | backend/go/service/appt_booking/appt_booking_service.go:513-530 | Completing a confirmed appointment keeps it live in the same slot and keeps every constraint. |
| EngineLaws.CreateServiceKeeps | backend/go/service/appt_booking/appt_booking_service.go:39-52 | A validated new service keeps the tables consistent. |
| EngineLaws.UpdateServiceKeeps | backend/go/service/appt_booking/appt_booking_service.go:55-68 | A validated edit keeps the tables consistent. |
| EngineLaws.DeleteServiceKeeps | backend/go/service/appt_booking/appt_booking_service.go:81-105 | An allowed delete, with its cascade, leaves no dangling reference. |
| EngineLaws.CreateStaffKeeps | backend/go/service/appt_booking/appt_booking_service.go:110-136 | A new staff member accepted by CreateStaffCheck keeps e-mails unique. |
| EngineLaws.UpdateStaffKeeps | backend/go/service/appt_booking/appt_booking_service.go:139-161 | An edit accepted by UpdateStaffCheck keeps e-mails unique. |
| EngineLaws.DeleteStaffKeeps | backend/go/service/appt_booking/appt_booking_service.go:174-187 | An allowed delete, with its cascades, leaves no dangling reference. |
| EngineLaws.AssignKeeps | backend/go/service/appt_booking/appt_booking_service.go:192-223 | An accepted pair is not yet stored, so the primary key holds after the insert. |
| EngineLaws.UnassignKeeps | backend/go/service/appt_booking/appt_booking_service.go:226-228 | Removing a pair keeps the tables consistent. |
| EngineLaws.CreateScheduleAccepted | backend/go/service/appt_booking/appt_booking_service.go:243-290 | An accepted window has valid texts, an existing staff member and a day in 0..6. It clashes with no same-day window and takes no existing slot. |
| EngineLaws.UpdateScheduleAccepted | backend/go/service/appt_booking/appt_booking_service.go:293-338 | An accepted edit names an existing window and clashes with none of the staff member's other windows. |
| EngineLaws.AddScheduleKeeps | backend/go/service/appt_booking/appt_booking_service.go:243-290 | A non-clashing new window keeps the same-day no-overlap rule and UNIQUE. |
| EngineLaws.EditScheduleKeeps | backend/go/service/appt_booking/appt_booking_service.go:293-338 | A non-clashing edit keeps the same-day no-overlap rule and UNIQUE. |
| EngineLaws.DeleteScheduleKeeps | backend/go/service/appt_booking/appt_booking_service.go:356-358 | Deleting a window keeps the tables consistent. |
| EngineLaws.OfferedExactly | backend/go/service/appt_booking/appt_booking_service.go:405-418 | The service list of a staff member holds a service if and only if the pair is stored and the service exists. |
| EngineLaws.AppointmentFound | backend/go/db/appt_booking/appointment_repository.go:81-96 | Under the primary key, the lookup by id finds exactly the one row with that id. |
| EngineLaws.UpdateStaffAcceptsEmailWithoutAt | backend/go/service/appt_booking/appt_booking_service.go:110-161 | Example: CreateStaff refuses the e-mail "ann" for lack of '@', while UpdateStaff accepts it. |
| EngineLaws.TouchingWindowsAdmitted | backend/go/service/appt_booking/appt_booking_service.go:583-594 | Example: 12:00-17:00 is admitted next to 09:00-12:00 on the same day. |
| EngineLaws.InvertedWindowAdmitsNothing | backend/go/service/appt_booking/appt_booking_service.go:599-609 | Example: the window 17:00-09:00 is admitted, since start < end is not required, yet no appointment ever fits inside it. |
| EngineLaws.DuplicateEmptyWindowHitsUnique | backend/go/service/appt_booking/appt_booking_service.go:583-594 | Example: an empty window does not overlap its own copy, so the copy passes the overlap scan and is refused by the UNIQUE constraint. |
| EngineLaws.PastMidnightBookingAccepted | backend/go/service/appt_booking/appt_booking_service.go:424-446 | Example: a booking from 23:30 to 00:30 is checked with an end minute of 30 against a window of the start's weekday, since the end of day wraps. |
| BookingRules.IsValidTimeFormat | backend/go/service/appt_booking/appt_booking_service.go:555-579 | The two digit loops accept exactly ValidTimeFormat: length 5, ':' at index 2, four digits, hour ≤ 23, minute ≤ 59. |
| BookingRules.ValidTimeFormatExactly | backend/go/service/appt_booking/appt_booking_service.go:555-579 | The check accepts exactly the 1440 texts 00:00 … 23:59. |
| BookingRules.FormatThenParse | backend/go/service/appt_booking/appt_booking_service.go:555-579 | Every minute of the day has a text that passes the check and parses back to it. |
| BookingRules.ParseThenFormat | backend/go/service/appt_booking/appt_booking_service.go:555-579 | Every accepted text is the zero-padded rendering of the minute it parses to. |
| BookingRules.ParseHHMM | backend/go/service/appt_booking/appt_booking_service.go:266-273 | An accepted text parses to a minute of the day, 0 ≤ m < 1440. |
| BookingRules.OverlapMeansCommonMinute | backend/go/service/appt_booking/appt_booking_service.go:583-594 | For non-empty windows, timesOverlap holds if and only if the half-open windows share a minute. |
| BookingRules.OverlapSymmetric | backend/go/service/appt_booking/appt_booking_service.go:583-594 | The overlap test is symmetric. |
| BookingRules.TouchingNeverOverlap | backend/go/service/appt_booking/appt_booking_service.go:583-594 | Windows that only touch never overlap. |
| BookingRules.EmptyWindowMissesItsCopy | backend/go/service/appt_booking/appt_booking_service.go:583-594 | An empty or inverted window does not overlap itself. |
| BookingRules.WithinCoversEveryMinute | backend/go/service/appt_booking/appt_booking_service.go:599-609 | When isTimeWithin holds, every minute of the appointment lies in the window. |
| BookingRules.Contains | backend/go/service/appt_booking/appt_booking_service.go:612-619 | contains holds if and only if sub occurs at some index of s. |
| BookingRules.ContainsSubstring | backend/go/service/appt_booking/appt_booking_service.go:612-619 | The scanning loop returns exactly Contains. |
| BookingRules.ContainsEmpty | backend/go/service/appt_booking/appt_booking_service.go:612-619 | The empty string is found in every string. |
| BookingRules.ContainsChar | backend/go/service/appt_booking/appt_booking_service.go:612-619 | A one-character sub is found if and only if that character occurs. |
| AppointmentStore.AppointmentRepository.Create | backend/go/db/appt_booking/appointment_repository.go:19-32 | Appends one row with exactly the given fields and a fresh id, and returns it. Existing rows are unchanged. |
| AppointmentStore.AppointmentRepository.Update | backend/go/db/appt_booking/appointment_repository.go:35-52 | Replaces every field but the id of the matching row. It returns None exactly when no row has the id. |
| AppointmentStore.AppointmentRepository.Delete | backend/go/db/appt_booking/appointment_repository.go:215-218 | Removes exactly the rows with the id. |
| AppointmentStore.AppointmentRepository.Cancel | backend/go/db/appt_booking/appointment_repository.go:221-228 | Only that row's status becomes cancelled; a missing id is a no-op. |
| AppointmentStore.AppointmentRepository.Complete | backend/go/db/appt_booking/appointment_repository.go:231-238 | Only that row's status becomes completed; a missing id is a no-op. |
| AppointmentStore.AppointmentRepository.GetAll | backend/go/db/appt_booking/appointment_repository.go:55-78 | A permutation of the table, latest first. |
| AppointmentStore.AppointmentRepository.GetByID | backend/go/db/appt_booking/appointment_repository.go:81-96 | The row with the id, or None exactly when there is none. |
| AppointmentStore.AppointmentRepository.GetByStaff | backend/go/db/appt_booking/appointment_repository.go:99-124 | Exactly the staff member's rows, with multiplicity, latest first. |
| AppointmentStore.AppointmentRepository.GetByCustomerEmail | backend/go/db/appt_booking/appointment_repository.go:127-152 | Exactly the customer's rows, with multiplicity, latest first. |
| AppointmentStore.AppointmentRepository.GetUpcoming | backend/go/db/appt_booking/appointment_repository.go:155-181 | A negative limit is a query error. Otherwise the result is min(limit, n) non-cancelled rows at or after now, ascending, none later than any row left out. |
| AppointmentStore.AppointmentRepository.CheckConflict | backend/go/db/appt_booking/appointment_repository.go:184-212 | True if and only if some row has the staff id, is not cancelled, is not the excluded id, and starts before the new end while ending after the new start. |
| AppointmentStore.AppointmentRepository.GetAllWithServiceDetails | backend/go/db/appt_booking/appointment_repository.go:258-291 | The rows joined with their service price, latest first. |
| AppointmentStore.AppointmentRepository.GetByStaffWithServiceDetails | backend/go/db/appt_booking/appointment_repository.go:294-328 | The staff member's joined rows, latest first. |
| AppointmentStore.AppointmentRepository.GetByCustomerEmailWithServiceDetails | backend/go/db/appt_booking/appointment_repository.go:331-365 | The customer's joined rows, latest first. |
| AppointmentStore.AppointmentRepository.GetUpcomingWithServiceDetails | backend/go/db/appt_booking/appointment_repository.go:368-406 | A limit ≤ 0 becomes 50. Cancelled rows are not excluded. The result is the earliest joined rows at or after now, ascending. |
| AppointmentStore.JoinServices | backend/go/db/appt_booking/appointment_repository.go:258-291 | The inner join keeps exactly the rows whose service exists, each with that service's price. |
| AppointmentStore.JoinedFrom | backend/go/db/appt_booking/appointment_repository.go:258-291 | Every joined row comes from the table. |
| AppointmentStore.WithStatus | backend/go/db/appt_booking/appointment_repository.go:221-238 | Same length. Rows without the id are untouched, rows with it change only their status, and every row keeps its id. |
| AppointmentStore.NewestFirst | backend/go/db/appt_booking/appointment_repository.go:99-124 | ORDER BY appointment_datetime DESC: a permutation, latest first. |
| AppointmentStore.OldestFirst | backend/go/db/appt_booking/appointment_repository.go:155-181 | ORDER BY appointment_datetime ASC: a permutation, earliest first. |
| Connection.MaskPassword | backend/go/db/appt_booking/connection.go:98-113 | The nested loops with their early return compute exactly MaskedUrl. |
| Connection.MaskReplacesBetween | backend/go/db/appt_booking/connection.go:101-107 | At the first ':' that is followed by a character other than '/', with an '@' after it, the result is the URL up to that ':', then "****", then the rest from that '@'. |
| Connection.MaskUnchanged | backend/go/db/appt_booking/connection.go:101-112 | With no qualifying ':', or no '@' after it, the URL is returned unchanged. |
| Connection.MaskHidesPassword | backend/go/db/appt_booking/connection.go:74-76 | For a built URL with a ':'-free user and an '@'-free password that does not start with '/', only the password is replaced by "****". |
| Connection.MaskLeaksSlashPassword | backend/go/db/appt_booking/connection.go:101-112 | As written: a password starting with '/' is logged unmasked. |
| Connection.MaskLeaksExample | backend/go/db/appt_booking/connection.go:98-113 | The URL postgres://u:/secret@h:5432/d?sslmode=disable comes back unchanged. |
| Connection.MaskFixedHidesPassword | backend/go/db/appt_booking/connection.go:74-76 | Corrected masking: a ':'-free user and an '@'-free password suffice for only the password to be replaced. |
| Connection.FirstQualifyingColon | backend/go/db/appt_booking/connection.go:101-102 | The index found by the outer loop: the first ':' followed by a character other than '/'. |
| Connection.FirstChar | backend/go/db/appt_booking/connection.go:104-108 | The inner loop's '@' search: the first occurrence at or after the start. |
| Connection.IsDuplicateKeyError | backend/go/db/appt_booking/connection.go:401-413 | As written: a nil error gives false. A message shorter than 23 characters is excluded by the precondition, because it panics. |
| Connection.DuplicateKeyNeverDetected | backend/go/db/appt_booking/connection.go:409-412 | As written: no message is ever detected, since a 23-character slice is compared with a 26-character literal. |
| Connection.DuplicateKeyFixedExactly | backend/go/db/appt_booking/connection.go:409-412 | Corrected test: true if and only if the message starts with "ERROR: duplicate key value". Never panics, and nil gives false. |
| ClientApi.FormatTimeMeridiem | frontend/angular/src/app/appt-booking/core/services/appt-booking.service.ts:325-326 | The rendering ends in "PM" if and only if the parsed hour is at least 12, and in "AM" otherwise. |
| ClientApi.Hour12RoundTrip | frontend/angular/src/app/appt-booking/core/services/appt-booking.service.ts:327 | hour % 12 \|\| 12 maps 0..23 into 1..12, and with the AM/PM half the hour can be read back. |
| ClientApi.FormatTime | frontend/angular/src/app/appt-booking/core/services/appt-booking.service.ts:323-329 | The result ends in a space and a two-letter half. |
| ClientApi.FormatTimeOfValid | frontend/angular/src/app/appt-booking/core/services/appt-booking.service.ts:324-328 | For a valid HH:MM text the hour read is the hour of the time, and the result is the unpadded 12-hour hour, ':', the minute text verbatim, a space and AM/PM. |
| ClientApi.FormatTimeMidnightHour | frontend/angular/src/app/appt-booking/core/services/appt-booking.service.ts:323-329 | Every valid "00:MM" renders as "12:MM AM". |
| ClientApi.FormatTimeNoonHour | frontend/angular/src/app/appt-booking/core/services/appt-booking.service.ts:323-329 | Every valid "12:MM" renders as "12:MM PM". |
| ClientApi.FormatTimeAfternoonHour | frontend/angular/src/app/appt-booking/core/services/appt-booking.service.ts:323-329 | Every valid "13:MM" renders as "1:MM PM". |
| ClientApi.ParsedHourOfValid | frontend/angular/src/app/appt-booking/core/services/appt-booking.service.ts:324-325 | On a valid HH:MM text, parseInt of the part before ':' is the hour. |
| ClientApi.SplitOn | frontend/angular/src/app/appt-booking/core/services/appt-booking.service.ts:324 | split yields at least one piece, and no piece holds the separator. |
| ClientApi.SplitThenJoin | frontend/angular/src/app/appt-booking/core/services/appt-booking.service.ts:324 | Joining the pieces of a split with the separator gives the string back. |
| ClientApi.SplitAtOnlySeparator | frontend/angular/src/app/appt-booking/core/services/appt-booking.service.ts:324 | A string with one separator splits into the two texts around it. |
| ClientApi.DayOfWeekName | frontend/angular/src/app/appt-booking/core/services/appt-booking.service.ts:332-335 | 0..6 give Sunday..Saturday; any other index gives 'Unknown'. |
| ClientApi.DayOfWeekNameRoundTrip | frontend/angular/src/app/appt-booking/core/services/appt-booking.service.ts:333-334 | The seven names are distinct, none is 'Unknown', and looking a name up gives its index back. |
| BookingWizard.TimeSlots | frontend/angular/src/app/appt-booking/features/booking/booking.component.ts:78-103 | A missing schedule or a missing selected service gives no slots. |
| BookingWizard.SlotStartsShape | frontend/angular/src/app/appt-booking/features/booking/booking.component.ts:89-95 | Let n be the number of slots. An inverted window gives none. Otherwise n·d ≤ end − start < (n+1)·d, so n = max(0, ⌊(end − start)/d⌋). Slot k starts at start + k·d, and every slot ends by the window's end. |
| BookingWizard.SlotLabelIsHHMM | frontend/angular/src/app/appt-booking/features/booking/booking.component.ts:96-98 | A slot label is the zero-padded HH:MM text of its minute; it passes the HH:MM check and parses back. |
| BookingWizard.PaddedTwoDigits | frontend/angular/src/app/appt-booking/features/booking/booking.component.ts:98 | padStart(2, '0') of n < 100 is its two decimal digits. |
| BookingWizard.ClockMinutesOfValid | frontend/angular/src/app/appt-booking/features/booking/booking.component.ts:86-90 | split(':').map(Number) of a valid HH:MM text gives its minute of the day. |
| BookingWizard.TimeSlotsOfValidWindow | frontend/angular/src/app/appt-booking/features/booking/booking.component.ts:78-103 | For valid window texts and d > 0, the slots are the labels of start + k·d. Each fits in the window and parses back to its start. |
| BookingWizard.LabelsAt | frontend/angular/src/app/appt-booking/features/booking/booking.component.ts:96-99 | Label i is the label of start i. |
| BookingWizard.CollectSlots | frontend/angular/src/app/appt-booking/features/booking/booking.component.ts:94-100 | The for loop pushes exactly the labels of SlotStarts. |
| BookingWizard.StrLtOfValid | frontend/angular/src/app/appt-booking/features/booking/booking.component.ts:148-149 | On valid HH:MM texts, JavaScript string order is minute order. |
| BookingWizard.MatchesIsInWindow | frontend/angular/src/app/appt-booking/features/booking/booking.component.ts:146-150 | On valid texts, the string match holds if and only if the day agrees and the time's minute lies in the half-open window. |
| BookingWizard.BookingComponent.constructor | frontend/angular/src/app/appt-booking/features/booking/booking.component.ts:17-39 | The initial field values. |
| BookingWizard.BookingComponent.GetTimeSlots | frontend/angular/src/app/appt-booking/features/booking/booking.component.ts:78-103 | Exactly TimeSlots of the selected service and the schedule. |
| BookingWizard.BookingComponent.SelectService | frontend/angular/src/app/appt-booking/features/booking/booking.component.ts:105-113 | Sets the service, clears staff, schedule, date and time, goes to the staff step, and leaves the rest unchanged. |
| BookingWizard.BookingComponent.SelectStaff | frontend/angular/src/app/appt-booking/features/booking/booking.component.ts:115-122 | Sets the staff member, clears schedule, date and time, and goes to the schedule step. |
| BookingWizard.BookingComponent.SelectDate | frontend/angular/src/app/appt-booking/features/booking/booking.component.ts:124-128 | Sets the date and clears the time and the schedule. |
| BookingWizard.BookingComponent.FindOrCreateSchedule | frontend/angular/src/app/appt-booking/features/booking/booking.component.ts:135-160 | With every selection made, picks the first matching schedule, or clears it and sets the message; otherwise nothing changes. |
| BookingWizard.BookingComponent.SelectTime | frontend/angular/src/app/appt-booking/features/booking/booking.component.ts:130-133 | Records the time and then matches the schedules. |
| BookingWizard.BookingComponent.GetTotalPrice | frontend/angular/src/app/appt-booking/features/booking/booking.component.ts:182-184 | The selected service's price, or 0 without one. |
| BookingWizard.BookingComponent.GoToStep | frontend/angular/src/app/appt-booking/features/booking/booking.component.ts:226-229 | Sets the step and clears the error message only. |
| BookingWizard.BookingComponent.ResetBooking | frontend/angular/src/app/appt-booking/features/booking/booking.component.ts:231-243 | Back to the service step with every selection, every customer field and both messages cleared. |
| BookingWizard.ConfirmationNeedsScheduleAndCustomer | frontend/angular/src/app/appt-booking/features/booking/booking.component.ts:162-180 | canProceedToConfirmation holds if and only if canProceedFromSchedule holds and the name, e-mail and phone each hold a non-white-space character. |
| Dashboard.RevenueIsCompletedSum | frontend/angular/src/app/appt-booking/features/dashboard/dashboard.component.ts:65-73 | The revenue fold is the sum of prices over the completed appointments. |
| Dashboard.StaffCountsExactly | frontend/angular/src/app/appt-booking/features/dashboard/dashboard.component.ts:75-78 | A staff id has a count if and only if some appointment names it. The count is the number of its appointments, of any status. |
| Dashboard.StaffCountsSumToLength | frontend/angular/src/app/appt-booking/features/dashboard/dashboard.component.ts:75-78 | The per-staff counts sum to the length of the list. |
| Dashboard.StaffOrder | frontend/angular/src/app/appt-booking/features/dashboard/dashboard.component.ts:75-78 | The Map's keys in insertion order, each once, exactly its domain. |
| Dashboard.CompleteAddsRevenue | frontend/angular/src/app/appt-booking/features/dashboard/dashboard.component.ts:140-144 | Marking a non-completed entry completed raises the revenue by its price. Marking a completed entry again changes nothing. |
| Dashboard.CompleteKeepsCounts | frontend/angular/src/app/appt-booking/features/dashboard/dashboard.component.ts:140-144 | Marking an entry completed leaves the per-staff counts unchanged. |
| Dashboard.StatusBadgeClass | frontend/angular/src/app/appt-booking/features/dashboard/dashboard.component.ts:106-117 | The three statuses map to badge-&lt;status&gt;, and anything else to ''. |
| Dashboard.StatusBadgeDistinguishes | frontend/angular/src/app/appt-booking/features/dashboard/dashboard.component.ts:106-117 | A known status is the only status with its badge class. |
| Dashboard.DashboardComponent.constructor | frontend/angular/src/app/appt-booking/features/dashboard/dashboard.component.ts:15-25 | The initial field values. |
| Dashboard.DashboardComponent.CalculateStats | frontend/angular/src/app/appt-booking/features/dashboard/dashboard.component.ts:65-79 | Both stats are reset and refolded, giving Revenue and StaffCounts of the list. They depend on the list alone, so a second call gives the same result. |
| Dashboard.DashboardComponent.GetStaffName | frontend/angular/src/app/appt-booking/features/dashboard/dashboard.component.ts:81-84 | The first matching staff member's name, else 'Unknown'. |
| Dashboard.DashboardComponent.GetServiceName | frontend/angular/src/app/appt-booking/features/dashboard/dashboard.component.ts:86-89 | The first matching service's name, else 'Unknown'. |
| Dashboard.DashboardComponent.CancelAppointment | frontend/angular/src/app/appt-booking/features/dashboard/dashboard.component.ts:119-134 | When confirmed and successful, exactly the entries with the id leave the list and the stats are recomputed; otherwise nothing changes. |
| Dashboard.DashboardComponent.CompleteAppointment | frontend/angular/src/app/appt-booking/features/dashboard/dashboard.component.ts:136-151 | On success the first entry with the id becomes completed in place and the stats are recomputed; otherwise nothing changes. |
| MyAppointments.MyAppointmentsComponent.GetUpcomingAppointments | frontend/angular/src/app/appt-booking/features/my-appointments/my-appointments.component.ts:131-139 | The whole list when upcomingOnly is false. Otherwise exactly the confirmed entries later than now. |
| MyAppointments.MyAppointmentsComponent.GetPastAppointments | frontend/angular/src/app/appt-booking/features/my-appointments/my-appointments.component.ts:141-145 | Exactly the entries that are completed, cancelled, or not later than now. |
| MyAppointments.UpcomingPastPartition | frontend/angular/src/app/appt-booking/features/my-appointments/my-appointments.component.ts:136-144 | With the three statuses and one now, each entry is in exactly one of the two lists, and together they split the list. |
| MyAppointments.OtherStatusInNeither | frontend/angular/src/app/appt-booking/features/my-appointments/my-appointments.component.ts:136-144 | An entry with an unknown status later than now is in neither list. |
| MyAppointments.DistinctEmails | frontend/angular/src/app/appt-booking/features/my-appointments/my-appointments.component.ts:42-47 | The Set holds each non-empty customer e-mail of the list once, and nothing else. |
| MyAppointments.EmailSuggestionsExactly | frontend/angular/src/app/appt-booking/features/my-appointments/my-appointments.component.ts:42-48 | The suggestions are sorted and distinct, and are exactly the non-empty customer e-mails. |
| MyAppointments.MyAppointmentsComponent.constructor | frontend/angular/src/app/appt-booking/features/my-appointments/my-appointments.component.ts:16-28 | The initial field values. |
| MyAppointments.MyAppointmentsComponent.LoadEmailSuggestions | frontend/angular/src/app/appt-booking/features/my-appointments/my-appointments.component.ts:37-55 | The forEach over the list stores EmailSuggestions of the delivered list; no other field changes. |
| MyAppointments.MyAppointmentsComponent.SearchAppointments | frontend/angular/src/app/appt-booking/features/my-appointments/my-appointments.component.ts:57-79 | With an empty e-mail, only the error is set and no request is made. Otherwise the list is replaced on success, or the load error is set. |
| MyAppointments.MyAppointmentsComponent.CancelAppointment | frontend/angular/src/app/appt-booking/features/my-appointments/my-appointments.component.ts:81-100 | When confirmed and successful, exactly the entries with the id leave the list. On failure the error is set. Without confirmation nothing changes. |
| MyAppointments.CancelRemovesExactly | frontend/angular/src/app/appt-booking/features/my-appointments/my-appointments.component.ts:91 | The filtered list keeps every entry without the id and no entry with it; the removed entries are exactly those with the id. |
| Sorting.TakeLeastBy | backend/go/db/appt_booking/appointment_repository.go:155-181 | ORDER BY … LIMIT n: the n least elements, ascending, drawn from the input. |
| Sorting.SortStrings | frontend/angular/src/app/appt-booking/features/my-appointments/my-appointments.component.ts:48 | Array.sort() on strings: sorted, and a permutation of the input. |
| JsText.TrimEmpty | frontend/angular/src/app/appt-booking/features/booking/booking.component.ts:168-170 | trim() gives '' if and only if every character is white space. |
| JsText.NatToStringRoundTrip | frontend/angular/src/app/appt-booking/features/booking/booking.component.ts:98 | toString() of a natural number reads back as the number. |
| JsText.JsRem | frontend/angular/src/app/appt-booking/core/services/appt-booking.service.ts:327 | JavaScript % truncates: the remainder has the sign of the dividend, is smaller than the divisor in size, and the quotient rounded toward zero times the divisor plus the remainder gives the dividend, which fixes its value. |

## Left out

- Reads that only pass a stored table through are not modelled as engine members. These are GetAllServices, GetServiceByID, GetAllStaff, GetStaffByID, GetAllSchedules, GetScheduleByID, GetAppointment, GetAppointmentsByStaff/ByCustomer and the *WithDetails pass-throughs. The repository functions they call are modelled.
- The other repositories (service, staff, staff_service and schedule) are tables inside the engine. Their ORDER BY name and their SQL text are not modelled.
- The engine's SchedulesOf: the ORDER BY day_of_week, start_time of the schedule repository is not kept, because the scans that use it stop at the first match and their result does not depend on the order.
- Seconds and sub-minute precision: instants are whole minutes, and the working-hours check reads Hour() and Minute() only.
- The America/Los_Angeles conversion is the parameter `toLocal` rather than the tz database, so daylight-saving transitions are whatever that function says.
- The branches after time.Parse("15:04") that return a parse error are not modelled. Every text that reaches them has passed isValidTimeFormat, so they are unreachable.
- Concurrency: each engine call is atomic. The race between CheckConflict and Create under concurrent requests is not modelled.
- Database failures other than the UNIQUE violation of schedules and the LIMIT error are not modelled. These include lost connections and driver errors.
- created_at and updated_at, which come from the clock.
- Go strings are byte strings and JavaScript strings are UTF-16; here both are sequences of characters. Every character the code tests (':', '@', '/', digits) is ASCII, so the results agree for ASCII input. Lengths of non-ASCII text (the 23-byte slice of isDuplicateKeyError, for example) are counted in characters.
- BookingWizard.ClockMinutes: JavaScript Number() is modelled for digit strings only. Other texts give NaN here, including those with white space, a sign or a decimal point, which Number() would read as numbers. Only on valid HH:MM texts do the results agree with the source.
- JsText.ParseInt: parseInt(s, 10) is modelled with its leading white space, its optional '+' or '-' and the longest run of decimal digits after it, as an unbounded integer: the loss of precision of JavaScript numbers beyond 2^53 and the negative zero of "-0" are not modelled.
- BookingWizard.SlotStarts, BookingWizard.TimeSlots and BookingWizard.BookingComponent.GetTimeSlots require a positive service duration, because with a duration ≤ 0 the source's loop does not end.
- Connection.IsDuplicateKeyError: the slice err.Error()[0:23] panics on a message shorter than 23 bytes; the precondition stands for that panic.
- The getStatusBadgeClass of the customer page (my-appointments.component.ts:102-113) is a copy of the dashboard's and is modelled once, by Dashboard.StatusBadgeClass.
- The HTTP surface, RxJS subscriptions and alert() are not modelled. The outcome of each request and the answer to confirm() are parameters of the component methods, and the list an observable delivers is a field or a parameter.
- Date handling in the client is not modelled:
  - new Date(...) of appointment datetimes: an appointment's datetime is already an instant in minutes;
  - the current time: `now` is a parameter, one value for both filters, where the source calls new Date() separately;
  - the weekday of the selected date: `weekday` is a parameter;
  - the Date-based sorts of loadAllData;
  - convertLocalToUTC.
- Floating-point and locale formatting: formatPrice, toFixed, toLocaleString and the dollar/cent conversions.
- bookAppointment, getAppointmentDateTime, loadServices, loadStaff, loadSchedules and getSchedulesForDate of the booking wizard, and loadAllData of the dashboard, are request and Date plumbing around the modelled state and are not modelled.
- Connect, InitSchema, getEnv and the dependency container are startup I/O and are not modelled. The schema's constraints appear as the engine invariant, and ON DELETE CASCADE as part of DeleteService and DeleteStaff.
- SeedData.SeedDb: only the tables SeedSampleData leaves in an empty database are modelled, not its inserts. The skip when services already exist and the ignored insert errors are not modelled. The seeded instants are today's local midnight plus whole days, so a daylight-saving change inside those five days is not modelled.

## Findings

| source | as written | input that shows it | evidently intended | confidence | as-written member | corrected member |
|---|---|---|---|---|---|---|
| backend/go/db/appt_booking/connection.go:409-412 | `err.Error()[0:23] == "ERROR: duplicate key value"` compares a 23-character slice with a 26-character literal, so it is never true; a message shorter than 23 bytes panics | any error message, e.g. "ERROR: duplicate key value violates unique constraint" | true exactly when the message starts with "ERROR: duplicate key value", without panicking on short messages | not executed | Connection.DuplicateKeyNeverDetected | Connection.DuplicateKeyFixedExactly |
| backend/go/db/appt_booking/connection.go:101-112 | the first ':' counts only when the next character is not '/', so with a password starting with '/' the ':' after the user is skipped; the next ':' (before the port) has no '@' after it and the URL is logged unmasked | postgres://u:/secret@h:5432/d?sslmode=disable | the password of a postgres://user:password@… URL is replaced by "****" whatever its first character | not executed | Connection.MaskLeaksSlashPassword | Connection.MaskFixedHidesPassword |

=== FILE: appointment_repository.dfy ===
/**
 * The appointments table (backend/go/db/appt_booking/appointment_repository.go)
 * as an in-memory table. Its SQL statements become operations on a sequence
 * of rows: WHERE clauses are filters, ORDER BY is a sort on the datetime
 * column, LIMIT keeps a prefix and NOW() is a parameter.
 */
module AppointmentStore {
  import opened Wrappers
  import opened Models
  import opened Tables
  import opened Seqs
  import opened Sorting

  /**
   * The overlap test of CheckConflict for one row: the existing interval
   * [datetime, datetime + its duration) and the new [start, start + duration)
   * intersect (half-open: touching intervals do not).
   */
  predicate Overlaps(a: Appointment, start: int, duration: int)
  {
    a.appointmentDatetime < start + duration && a.appointmentDatetime + a.durationMinutes > start
  }

  /** The rows CheckConflict counts. */
  predicate ConflictRow(a: Appointment, staffId: int, start: int, duration: int, excludeId: Option<int>)
  {
    && a.staffId == staffId
    && a.status != Cancelled
    && Overlaps(a, start, duration)
    && (excludeId.Some? ==> a.id != excludeId.value)
  }

  /** The ORDER BY column. */
  function Start(a: Appointment): int
  {
    a.appointmentDatetime
  }

  function JoinedStart(x: AppointmentWithService): int
  {
    x.appointment.appointmentDatetime
  }

  function Min(a: int, b: int): int
  {
    if a < b then a else b
  }

  /** The rows ordered by appointment_datetime, latest first. */
  function NewestFirst(s: seq<Appointment>): (r: seq<Appointment>)
    ensures multiset(r) == multiset(s)
    ensures forall i, j :: 0 <= i < j < |r| ==> r[i].appointmentDatetime >= r[j].appointmentDatetime
  {
    var r := SortBy(s, (a: Appointment) => -a.appointmentDatetime);
    assert forall i, j :: 0 <= i < j < |r| ==> -r[i].appointmentDatetime <= -r[j].appointmentDatetime;
    r
  }

  /** The rows ordered by appointment_datetime, earliest first. */
  function OldestFirst(s: seq<Appointment>): (r: seq<Appointment>)
    ensures multiset(r) == multiset(s)
    ensures forall i, j :: 0 <= i < j < |r| ==> r[i].appointmentDatetime <= r[j].appointmentDatetime
  {
    SortBy(s, (a: Appointment) => a.appointmentDatetime)
  }

  /** Joined rows ordered by appointment_datetime, latest first. */
  function NewestFirstJoined(s: seq<AppointmentWithService>): (r: seq<AppointmentWithService>)
    ensures multiset(r) == multiset(s)
    ensures forall i, j :: 0 <= i < j < |r| ==>
      r[i].appointment.appointmentDatetime >= r[j].appointment.appointmentDatetime
  {
    var r := SortBy(s, (a: AppointmentWithService) => -a.appointment.appointmentDatetime);
    assert forall i, j :: 0 <= i < j < |r| ==>
      -r[i].appointment.appointmentDatetime <= -r[j].appointment.appointmentDatetime;
    r
  }

  /** Joined rows ordered by appointment_datetime, earliest first. */
  function OldestFirstJoined(s: seq<AppointmentWithService>): (r: seq<AppointmentWithService>)
    ensures multiset(r) == multiset(s)
    ensures forall i, j :: 0 <= i < j < |r| ==>
      r[i].appointment.appointmentDatetime <= r[j].appointment.appointmentDatetime
  {
    SortBy(s, (a: AppointmentWithService) => a.appointment.appointmentDatetime)
  }

  /**
   * FROM appointments a JOIN services s ON a.service_id = s.id: each row with
   * the price of its service; rows whose service is missing drop out. Service
   * ids are a primary key, so the first match is the only one.
   */
  function JoinServices(rows: seq<Appointment>, services: seq<Service>): (r: seq<AppointmentWithService>)
    ensures |r| <= |rows|
    ensures forall x :: x in r ==>
      && x.appointment in rows
      && exists s :: s in services && s.id == x.appointment.serviceId && s.priceCents == x.priceCents
    ensures forall a :: a in rows && (exists s :: s in services && s.id == a.serviceId) ==>
      exists price :: AppointmentWithService(a, price) in r
    decreases |rows|
  {
    if rows == [] then []
    else
      var rest := JoinServices(rows[1..], services);
      assert forall a :: a in rows ==> a == rows[0] || a in rows[1..];
      match Find(services, (s: Service) => s.id == rows[0].serviceId)
      case None => rest
      case Some(s) =>
        var r := [AppointmentWithService(rows[0], s.priceCents)] + rest;
        assert AppointmentWithService(rows[0], s.priceCents) in r;
        r
  }

  /** Every joined row comes from the rows joined. */
  lemma JoinedFrom(rows: seq<Appointment>, services: seq<Service>)
    ensures forall x :: x in JoinServices(rows, services) ==> x.appointment in rows
  {
  }

  /** The rows of one appointment id with their status set (UPDATE ... SET status WHERE id). */
  function WithStatus(rows: seq<Appointment>, id: int, status: string): (r: seq<Appointment>)
    ensures |r| == |rows|
    ensures forall i :: 0 <= i < |r| && rows[i].id != id ==> r[i] == rows[i]
    ensures forall i :: 0 <= i < |r| && rows[i].id == id ==> r[i] == rows[i].(status := status)
    ensures forall i :: 0 <= i < |r| ==> r[i].id == rows[i].id
  {
    seq(|rows|, i requires 0 <= i < |rows| => if rows[i].id == id then rows[i].(status := status) else rows[i])
  }

  class AppointmentRepository {
    var rows: seq<Appointment>
    var nextId: int

    ghost predicate Valid()
      reads this
    {
      KeysValid(rows, AppointmentKey, nextId)
    }

    predicate HasId(id: int)
      reads this
    {
      exists i :: 0 <= i < |rows| && rows[i].id == id
    }

    /** NewAppointmentRepository over the stored table and its SERIAL counter. */
    constructor (storedRows: seq<Appointment>, storedNextId: int)
      requires KeysValid(storedRows, AppointmentKey, storedNextId)
      ensures Valid() && rows == storedRows && nextId == storedNextId
    {
      rows := storedRows;
      nextId := storedNextId;
    }

    /** INSERT ... RETURNING: one new row with exactly the given fields and a fresh id. */
    method Create(customerName: string, customerEmail: string, customerPhone: string,
                  staffId: int, serviceId: int, durationMinutes: int,
                  appointmentDatetime: int, status: string, notes: string)
      returns (a: Appointment)
      requires Valid()
      modifies this
      ensures Valid()
      ensures a == Appointment(old(nextId), customerName, customerEmail, customerPhone, staffId,
                               serviceId, appointmentDatetime, durationMinutes, status, notes)
      ensures !old(HasId(a.id))
      ensures rows == old(rows) + [a]
      ensures nextId == old(nextId) + 1
    {
      a := Appointment(nextId, customerName, customerEmail, customerPhone, staffId,
                       serviceId, appointmentDatetime, durationMinutes, status, notes);
      AppendFresh(rows, AppointmentKey, nextId, a);
      rows := rows + [a];
      nextId := nextId + 1;
    }

    /** UPDATE ... WHERE id = $11 RETURNING: every field but the id replaced; None when no row has the id. */
    method Update(id: int, customerName: string, customerEmail: string, customerPhone: string,
                  staffId: int, serviceId: int, durationMinutes: int,
                  appointmentDatetime: int, status: string, notes: string)
      returns (r: Option<Appointment>)
      requires Valid()
      modifies this
      ensures Valid() && nextId == old(nextId)
      ensures r.Some? <==> old(HasId(id))
      ensures r.Some? ==> r.value == Appointment(id, customerName, customerEmail, customerPhone, staffId,
                                                 serviceId, appointmentDatetime, durationMinutes, status, notes)
      ensures |rows| == |old(rows)|
      ensures forall i :: 0 <= i < |rows| ==>
        rows[i] == if old(rows)[i].id == id
                   then Appointment(id, customerName, customerEmail, customerPhone, staffId,
                                    serviceId, appointmentDatetime, durationMinutes, status, notes)
                   else old(rows)[i]
    {
      var updated := Appointment(id, customerName, customerEmail, customerPhone, staffId,
                                 serviceId, appointmentDatetime, durationMinutes, status, notes);
      r := if HasId(id) then Some(updated) else None;
      rows := seq(|rows|, i requires 0 <= i < |rows| reads this => if rows[i].id == id then updated else rows[i]);
    }

    /** DELETE FROM appointments WHERE id = $1 (no error when the id is absent). */
    method Delete(id: int)
      requires Valid()
      modifies this
      ensures Valid() && nextId == old(nextId)
      ensures rows == Filter(old(rows), (a: Appointment) => a.id != id)
    {
      FilterKeepsKeys(rows, AppointmentKey, nextId, (a: Appointment) => a.id != id);
      rows := Filter(rows, (a: Appointment) => a.id != id);
    }

    /** UPDATE appointments SET status = 'cancelled' WHERE id = $2: only that row changes, and only its status. */
    method Cancel(id: int)
      requires Valid()
      modifies this
      ensures Valid() && nextId == old(nextId)
      ensures |rows| == |old(rows)|
      ensures forall i :: 0 <= i < |rows| ==>
        rows[i] == if old(rows)[i].id == id then old(rows)[i].(status := Cancelled) else old(rows)[i]
      ensures rows == WithStatus(old(rows), id, Cancelled)
      ensures !old(HasId(id)) ==> rows == old(rows)
    {
      rows := WithStatus(rows, id, Cancelled);
    }

    /** UPDATE appointments SET status = 'completed' WHERE id = $2: only that row changes, and only its status. */
    method Complete(id: int)
      requires Valid()
      modifies this
      ensures Valid() && nextId == old(nextId)
      ensures |rows| == |old(rows)|
      ensures forall i :: 0 <= i < |rows| ==>
        rows[i] == if old(rows)[i].id == id then old(rows)[i].(status := Completed) else old(rows)[i]
      ensures rows == WithStatus(old(rows), id, Completed)
      ensures !old(HasId(id)) ==> rows == old(rows)
    {
      rows := WithStatus(rows, id, Completed);
    }

    /** SELECT ... ORDER BY appointment_datetime DESC. */
    function GetAll(): (r: seq<Appointment>)
      reads this
      ensures multiset(r) == multiset(rows)
      ensures forall i, j :: 0 <= i < j < |r| ==> r[i].appointmentDatetime >= r[j].appointmentDatetime
    {
      NewestFirst(rows)
    }

    /** SELECT ... WHERE id = $1: the row with that id, or None (sql.ErrNoRows). */
    function GetByID(id: int): (r: Option<Appointment>)
      reads this
      ensures r.None? <==> !HasId(id)
      ensures r.Some? ==> r.value in rows && r.value.id == id
    {
      Find(rows, (a: Appointment) => a.id == id)
    }

    /** SELECT ... WHERE staff_id = $1 ORDER BY appointment_datetime DESC. */
    function GetByStaff(staffId: int): (r: seq<Appointment>)
      reads this
      ensures forall a :: a in r <==> a in rows && a.staffId == staffId
      ensures multiset(r) == multiset(Filter(rows, (a: Appointment) => a.staffId == staffId))
      ensures forall i, j :: 0 <= i < j < |r| ==> r[i].appointmentDatetime >= r[j].appointmentDatetime
    {
      var matching := Filter(rows, (a: Appointment) => a.staffId == staffId);
      var r := NewestFirst(matching);
      SameElements(r, matching);
      r
    }

    /** SELECT ... WHERE customer_email = $1 ORDER BY appointment_datetime DESC. */
    function GetByCustomerEmail(email: string): (r: seq<Appointment>)
      reads this
      ensures forall a :: a in r <==> a in rows && a.customerEmail == email
      ensures multiset(r) == multiset(Filter(rows, (a: Appointment) => a.customerEmail == email))
      ensures forall i, j :: 0 <= i < j < |r| ==> r[i].appointmentDatetime >= r[j].appointmentDatetime
    {
      var matching := Filter(rows, (a: Appointment) => a.customerEmail == email);
      var r := NewestFirst(matching);
      SameElements(r, matching);
      r
    }

    /** The rows GetUpcoming may return: at or after `now` and not cancelled. */
    function Upcoming(now: int): seq<Appointment>
      reads this
    {
      Filter(rows, (a: Appointment) => a.appointmentDatetime >= now && a.status != Cancelled)
    }

    /**
     * SELECT ... WHERE appointment_datetime >= NOW() AND status != 'cancelled'
     * ORDER BY appointment_datetime ASC LIMIT $1: the `limit` earliest upcoming
     * rows that are not cancelled. PostgreSQL rejects a negative LIMIT.
     */
    function GetUpcoming(limit: int, now: int): (r: Result<seq<Appointment>, StoreError>)
      reads this
      ensures r.Failure? <==> limit < 0
      ensures r.Success? ==> |r.value| == Min(limit, |Upcoming(now)|)
      ensures r.Success? ==> multiset(r.value) <= multiset(Upcoming(now))
      ensures r.Success? ==> SortedBy(r.value, Start)
      ensures r.Success? ==> forall a, b :: a in r.value && b in multiset(Upcoming(now)) - multiset(r.value) ==>
        Start(a) <= Start(b)
    {
      if limit < 0 then Failure(NegativeLimit)
      else Success(TakeLeastBy(Upcoming(now), Start, limit))
    }

    /**
     * SELECT COUNT(*) ... > 0: some row of that staff, not cancelled, overlaps
     * [start, start + duration), skipping the row excludeId names.
     */
    function CheckConflict(staffId: int, start: int, duration: int, excludeId: Option<int>): (r: bool)
      reads this
      ensures r <==> exists a :: a in rows && ConflictRow(a, staffId, start, duration, excludeId)
    {
      var hits := Filter(rows, (a: Appointment) => ConflictRow(a, staffId, start, duration, excludeId));
      assert |hits| > 0 ==> hits[0] in hits;
      |hits| > 0
    }

    /** GetAllWithServiceDetails: every row with its service price, latest first. */
    function GetAllWithServiceDetails(services: seq<Service>): (r: seq<AppointmentWithService>)
      reads this
      ensures multiset(r) == multiset(JoinServices(rows, services))
      ensures forall i, j :: 0 <= i < j < |r| ==>
        r[i].appointment.appointmentDatetime >= r[j].appointment.appointmentDatetime
    {
      NewestFirstJoined(JoinServices(rows, services))
    }

    /** GetByStaffWithServiceDetails: the staff's rows with their service prices, latest first. */
    function GetByStaffWithServiceDetails(services: seq<Service>, staffId: int): (r: seq<AppointmentWithService>)
      reads this
      ensures multiset(r) == multiset(JoinServices(Filter(rows, (a: Appointment) => a.staffId == staffId), services))
      ensures forall x :: x in r ==> x.appointment in rows && x.appointment.staffId == staffId
      ensures forall i, j :: 0 <= i < j < |r| ==>
        r[i].appointment.appointmentDatetime >= r[j].appointment.appointmentDatetime
    {
      var joined := JoinServices(Filter(rows, (a: Appointment) => a.staffId == staffId), services);
      var r := NewestFirstJoined(joined);
      SameElements(r, joined);
      r
    }

    /** GetByCustomerEmailWithServiceDetails: the customer's rows with their service prices, latest first. */
    function GetByCustomerEmailWithServiceDetails(services: seq<Service>, email: string): (r: seq<AppointmentWithService>)
      reads this
      ensures multiset(r) == multiset(JoinServices(Filter(rows, (a: Appointment) => a.customerEmail == email), services))
      ensures forall x :: x in r ==> x.appointment in rows && x.appointment.customerEmail == email
      ensures forall i, j :: 0 <= i < j < |r| ==>
        r[i].appointment.appointmentDatetime >= r[j].appointment.appointmentDatetime
    {
      var joined := JoinServices(Filter(rows, (a: Appointment) => a.customerEmail == email), services);
      var r := NewestFirstJoined(joined);
      SameElements(r, joined);
      r
    }

    /** The joined rows GetUpcomingWithServiceDetails draws from: at or after `now`, any status. */
    function UpcomingJoined(services: seq<Service>, now: int): seq<AppointmentWithService>
      reads this
    {
      JoinServices(Filter(rows, (a: Appointment) => a.appointmentDatetime >= now), services)
    }

    /**
     * GetUpcomingWithServiceDetails: a limit <= 0 becomes 50; the earliest
     * rows at or after NOW() of any status, cancelled ones included, at most
     * that many.
     */
    function GetUpcomingWithServiceDetails(services: seq<Service>, limit: int, now: int): (r: seq<AppointmentWithService>)
      reads this
      ensures |r| == Min(if limit <= 0 then 50 else limit, |UpcomingJoined(services, now)|)
      ensures multiset(r) <= multiset(UpcomingJoined(services, now))
      ensures forall x :: x in r ==> x.appointment in rows && x.appointment.appointmentDatetime >= now
      ensures SortedBy(r, JoinedStart)
      ensures forall a, b :: a in r && b in multiset(UpcomingJoined(services, now)) - multiset(r) ==>
        JoinedStart(a) <= JoinedStart(b)
    {
      var upcoming := UpcomingJoined(services, now);
      var r := TakeLeastBy(upcoming, JoinedStart, if limit <= 0 then 50 else limit);
      assert forall x :: x in r ==> x in upcoming by {
        forall x | x in r ensures x in upcoming {
          assert x in multiset(r);
        }
      }
      JoinedFrom(Filter(rows, (a: Appointment) => a.appointmentDatetime >= now), services);
      r
    }
  }
}

=== FILE: appt_booking_service.dfy ===
/**
 * ApptBookingService (backend/go/service/appt_booking/appt_booking_service.go):
 * the engine over the five tables. The services, staff, staff_services and
 * schedules tables are fields of the engine, each with its SERIAL counter;
 * appointments live in an AppointmentRepository. Every operation follows its
 * decision in EngineState and keeps Valid(): the primary keys, the
 * constraints of the schema and the two no-overlap rules.
 */
module ApptBookingEngine {
  import opened Wrappers
  import opened Models
  import opened Tables
  import opened Seqs
  import opened AppointmentStore
  import opened BookingRules
  import opened EngineState
  import opened EngineLaws
  import opened Sorting
  import opened SeedData

  class ApptBookingService {
    var services: seq<Service>
    var nextServiceId: int
    var staff: seq<Staff>
    var nextStaffId: int
    var staffServices: seq<StaffService>
    var schedules: seq<Schedule>
    var nextScheduleId: int
    const appointmentRepo: AppointmentRepository

    function State(): Db
      reads this, appointmentRepo
    {
      Db(services, staff, staffServices, schedules, appointmentRepo.rows)
    }

    /** The four SERIAL counters: services, staff, schedules and appointments. */
    function Counters(): (int, int, int, int)
      reads this, appointmentRepo
    {
      (nextServiceId, nextStaffId, nextScheduleId, appointmentRepo.nextId)
    }

    ghost predicate Valid()
      reads this, appointmentRepo
    {
      && appointmentRepo.Valid()
      && KeysValid(services, ServiceKey, nextServiceId)
      && KeysValid(staff, StaffKey, nextStaffId)
      && KeysValid(schedules, ScheduleKey, nextScheduleId)
      && Consistent(State())
    }

    /**
     * NewApptBookingService over the stored tables, each with its SERIAL
     * counter; the tables must already meet the rules the engine keeps.
     */
    constructor (storedServices: seq<Service>, storedNextServiceId: int,
                 storedStaff: seq<Staff>, storedNextStaffId: int,
                 storedStaffServices: seq<StaffService>,
                 storedSchedules: seq<Schedule>, storedNextScheduleId: int,
                 repo: AppointmentRepository)
      requires repo.Valid()
      requires KeysValid(storedServices, ServiceKey, storedNextServiceId)
      requires KeysValid(storedStaff, StaffKey, storedNextStaffId)
      requires KeysValid(storedSchedules, ScheduleKey, storedNextScheduleId)
      requires Consistent(Db(storedServices, storedStaff, storedStaffServices, storedSchedules, repo.rows))
      ensures Valid() && appointmentRepo == repo
      ensures State() == Db(storedServices, storedStaff, storedStaffServices, storedSchedules, repo.rows)
      ensures nextServiceId == storedNextServiceId && nextStaffId == storedNextStaffId
      ensures nextScheduleId == storedNextScheduleId
    {
      services := storedServices;
      nextServiceId := storedNextServiceId;
      staff := storedStaff;
      nextStaffId := storedNextStaffId;
      staffServices := storedStaffServices;
      schedules := storedSchedules;
      nextScheduleId := storedNextScheduleId;
      appointmentRepo := repo;
    }

    // ---------- Services ----------

    method CreateService(name: string, description: string, durationMinutes: int, priceCents: int)
      returns (r: Result<Service, Error>)
      requires Valid()
      modifies this
      ensures Valid()
      ensures Counters() == (old(nextServiceId) + (if r.Success? then 1 else 0), old(nextStaffId),
                             old(nextScheduleId), old(appointmentRepo.nextId))
      ensures r.Failure? <==> ServiceFieldsCheck(name, durationMinutes, priceCents).Some?
      ensures r.Failure? ==> r.error == ServiceFieldsCheck(name, durationMinutes, priceCents).value && State() == old(State())
      ensures r.Success? ==> r.value == Service(old(nextServiceId), name, description, durationMinutes, priceCents)
      ensures r.Success? ==> State() == old(State()).(services := old(services) + [r.value])
    {
      if name == [] {
        return Failure(ServiceNameRequired);
      }
      if durationMinutes <= 0 {
        return Failure(DurationNotPositive);
      }
      if priceCents < 0 {
        return Failure(PriceNegative);
      }
      var service := Service(nextServiceId, name, description, durationMinutes, priceCents);
      CreateServiceKeeps(State(), service);
      AppendFresh(services, ServiceKey, nextServiceId, service);
      services := services + [service];
      nextServiceId := nextServiceId + 1;
      return Success(service);
    }

    /** UpdateService: Success(None) when no row has the id (sql.ErrNoRows turned into nil, nil). */
    method UpdateService(id: int, name: string, description: string, durationMinutes: int, priceCents: int)
      returns (r: Result<Option<Service>, Error>)
      requires Valid()
      modifies this
      ensures Valid()
      ensures Counters() == old(Counters())
      ensures r.Failure? <==> ServiceFieldsCheck(name, durationMinutes, priceCents).Some?
      ensures r.Failure? ==> r.error == ServiceFieldsCheck(name, durationMinutes, priceCents).value && State() == old(State())
      ensures r.Success? ==> (r.value.Some? <==> HasService(old(services), id))
      ensures r.Success? ==> var x := Service(id, name, description, durationMinutes, priceCents);
        && (r.value.Some? ==> r.value.value == x)
        && State() == old(State()).(services := ReplaceById(old(services), ServiceKey, id, x))
    {
      if name == [] {
        return Failure(ServiceNameRequired);
      }
      if durationMinutes <= 0 {
        return Failure(DurationNotPositive);
      }
      if priceCents < 0 {
        return Failure(PriceNegative);
      }
      var x := Service(id, name, description, durationMinutes, priceCents);
      ServiceFound(services, id);
      var found := ServiceById(services, id).Some?;
      UpdateServiceKeeps(State(), id, x);
      ReplaceByIdKeepsKeys(services, ServiceKey, nextServiceId, id, x);
      services := ReplaceById(services, ServiceKey, id, x);
      return Success(if found then Some(x) else None);
    }

    /** The checks of DeleteService: the staff list of the service, then a scan of every appointment. */
    method CheckDeleteService(id: int) returns (r: Option<Error>)
      ensures r == DeleteServiceCheck(State(), id)
    {
      var staffList := StaffForService(staffServices, staff, id);
      if |staffList| > 0 {
        return Some(ServiceAssignedToStaff);
      }
      var appointments := appointmentRepo.GetAll();
      SameElements(appointments, appointmentRepo.rows);
      for i := 0 to |appointments|
        invariant forall k :: 0 <= k < i ==> appointments[k].serviceId != id
      {
        if appointments[i].serviceId == id {
          assert appointments[i] in appointmentRepo.rows;
          return Some(ServiceHasAppointments);
        }
      }
      assert forall a :: a in appointmentRepo.rows ==> a.serviceId != id by {
        forall a | a in appointmentRepo.rows ensures a.serviceId != id {
          var k :| 0 <= k < |appointments| && appointments[k] == a;
        }
      }
      return None;
    }

    /** DeleteService: refused while a staff member offers it or any appointment names it; the pairs cascade. */
    method DeleteService(id: int) returns (r: Option<Error>)
      requires Valid()
      modifies this
      ensures Valid()
      ensures Counters() == old(Counters())
      ensures r == DeleteServiceCheck(old(State()), id)
      ensures r.Some? ==> State() == old(State())
      ensures r.None? ==> State() == WithoutService(old(State()), id)
    {
      r := CheckDeleteService(id);
      if r.Some? {
        return;
      }
      var after := WithoutService(State(), id);
      DeleteServiceKeeps(State(), id);
      WithoutServiceKeys(State(), id, nextServiceId);
      services := after.services;
      staffServices := after.staffServices;
    }

    // ---------- Staff ----------

    /** The checks of CreateStaff, with the '@' scan and the lookup by email. */
    method CheckCreateStaff(name: string, email: string, role: string) returns (r: Option<Error>)
      ensures r == CreateStaffCheck(staff, name, email, role)
    {
      if name == [] {
        return Some(StaffNameRequired);
      }
      if email == [] {
        return Some(StaffEmailRequired);
      }
      if role == [] {
        return Some(StaffRoleRequired);
      }
      var hasAt := ContainsSubstring(email, "@");
      if !hasAt {
        return Some(InvalidEmailFormat);
      }
      var existing := StaffByEmail(staff, email);
      if existing.Some? {
        return Some(StaffEmailExists);
      }
      return None;
    }

    method CreateStaff(name: string, email: string, phone: string, role: string) returns (r: Result<Staff, Error>)
      requires Valid()
      modifies this
      ensures Valid()
      ensures Counters() == (old(nextServiceId), old(nextStaffId) + (if r.Success? then 1 else 0),
                             old(nextScheduleId), old(appointmentRepo.nextId))
      ensures r.Failure? <==> CreateStaffCheck(old(staff), name, email, role).Some?
      ensures r.Failure? ==> r.error == CreateStaffCheck(old(staff), name, email, role).value && State() == old(State())
      ensures r.Success? ==> r.value == Staff(old(nextStaffId), name, email, phone, role)
      ensures r.Success? ==> State() == old(State()).(staff := old(staff) + [r.value])
    {
      var check := CheckCreateStaff(name, email, role);
      if check.Some? {
        return Failure(check.value);
      }
      var member := Staff(nextStaffId, name, email, phone, role);
      CreateStaffKeeps(State(), member);
      AppendFresh(staff, StaffKey, nextStaffId, member);
      staff := staff + [member];
      nextStaffId := nextStaffId + 1;
      return Success(member);
    }

    /** UpdateStaff: no '@' check; Success(None) when no row has the id. */
    method UpdateStaff(id: int, name: string, email: string, phone: string, role: string)
      returns (r: Result<Option<Staff>, Error>)
      requires Valid()
      modifies this
      ensures Valid()
      ensures Counters() == old(Counters())
      ensures r.Failure? <==> UpdateStaffCheck(old(staff), id, name, email, role).Some?
      ensures r.Failure? ==> r.error == UpdateStaffCheck(old(staff), id, name, email, role).value && State() == old(State())
      ensures r.Success? ==> (r.value.Some? <==> HasStaff(old(staff), id))
      ensures r.Success? ==> var x := Staff(id, name, email, phone, role);
        && (r.value.Some? ==> r.value.value == x)
        && State() == old(State()).(staff := ReplaceById(old(staff), StaffKey, id, x))
    {
      var check := UpdateStaffCheck(staff, id, name, email, role);
      if check.Some? {
        return Failure(check.value);
      }
      var x := Staff(id, name, email, phone, role);
      StaffFound(staff, id);
      var found := StaffById(staff, id).Some?;
      UpdateStaffKeeps(State(), id, x);
      ReplaceByIdKeepsKeys(staff, StaffKey, nextStaffId, id, x);
      staff := ReplaceById(staff, StaffKey, id, x);
      return Success(if found then Some(x) else None);
    }

    /** DeleteStaff: refused while the staff member has any appointment; schedules and pairs cascade. */
    method DeleteStaff(id: int) returns (r: Option<Error>)
      requires Valid()
      modifies this
      ensures Valid()
      ensures Counters() == old(Counters())
      ensures r == DeleteStaffCheck(old(State()), id)
      ensures r.Some? ==> State() == old(State())
      ensures r.None? ==> State() == WithoutStaff(old(State()), id)
    {
      var appointments := appointmentRepo.GetByStaff(id);
      if |appointments| > 0 {
        assert appointments[0] in appointments;
        return Some(StaffHasAppointments);
      }
      var after := WithoutStaff(State(), id);
      DeleteStaffKeeps(State(), id);
      WithoutStaffKeys(State(), id, nextStaffId, nextScheduleId);
      staff := after.staff;
      staffServices := after.staffServices;
      schedules := after.schedules;
      return None;
    }

    // ---------- Staff-service assignments ----------

    /** The checks of AssignServiceToStaff: both lookups, then a scan of the staff member's services. */
    method CheckAssign(staffId: int, serviceId: int) returns (r: Option<Error>)
      ensures r == AssignCheck(State(), staffId, serviceId)
    {
      if StaffById(staff, staffId).None? {
        return Some(StaffNotFound);
      }
      if ServiceById(services, serviceId).None? {
        return Some(ServiceNotFound);
      }
      var existingServices := ServicesForStaff(staffServices, services, staffId);
      for i := 0 to |existingServices|
        invariant forall k :: 0 <= k < i ==> existingServices[k].id != serviceId
      {
        if existingServices[i].id == serviceId {
          assert existingServices[i] in existingServices;
          assert Offers(State(), staffId, serviceId);
          return Some(AlreadyAssigned);
        }
      }
      assert !Offers(State(), staffId, serviceId) by {
        forall s | s in existingServices ensures s.id != serviceId {
          var k :| 0 <= k < |existingServices| && existingServices[k] == s;
        }
      }
      return None;
    }

    method AssignServiceToStaff(staffId: int, serviceId: int) returns (r: Option<Error>)
      requires Valid()
      modifies this
      ensures Valid()
      ensures Counters() == old(Counters())
      ensures r == AssignCheck(old(State()), staffId, serviceId)
      ensures r.Some? ==> State() == old(State())
      ensures r.None? ==> State() == old(State()).(staffServices := old(staffServices) + [StaffService(staffId, serviceId)])
    {
      r := CheckAssign(staffId, serviceId);
      if r.Some? {
        return;
      }
      AssignKeeps(State(), staffId, serviceId);
      staffServices := staffServices + [StaffService(staffId, serviceId)];
    }

    /** UnassignServiceFromStaff: deletes the pair; nothing happens when it is not stored. */
    method UnassignServiceFromStaff(staffId: int, serviceId: int)
      requires Valid()
      modifies this
      ensures Valid()
      ensures Counters() == old(Counters())
      ensures State() == old(State()).(staffServices :=
        Filter(old(staffServices), (p: StaffService) => !(p.staffId == staffId && p.serviceId == serviceId)))
    {
      UnassignKeeps(State(), staffId, serviceId);
      staffServices := Filter(staffServices, (p: StaffService) => !(p.staffId == staffId && p.serviceId == serviceId));
    }

    // ---------- Schedules ----------

    /** The checks of CreateSchedule: fields, the staff lookup, the same-day scan, then the UNIQUE constraint. */
    method CheckCreateSchedule(staffId: int, dayOfWeek: int, startTime: string, endTime: string) returns (r: Option<Error>)
      ensures r == CreateScheduleCheck(State(), staffId, dayOfWeek, startTime, endTime)
    {
      if dayOfWeek < 0 || dayOfWeek > 6 {
        return Some(DayOutOfRange);
      }
      if startTime == [] || endTime == [] {
        return Some(TimesRequired);
      }
      var startOk := IsValidTimeFormat(startTime);
      var endOk := IsValidTimeFormat(endTime);
      if !startOk || !endOk {
        return Some(BadTimeFormat);
      }
      if StaffById(staff, staffId).None? {
        return Some(StaffNotFound);
      }
      var start := ParseHHMM(startTime);
      var end := ParseHHMM(endTime);
      var existing := SchedulesOf(schedules, staffId);
      for i := 0 to |existing|
        invariant forall k :: 0 <= k < i ==>
          !(existing[k].dayOfWeek == dayOfWeek && TimesOverlap(start, end, existing[k].startTime, existing[k].endTime))
      {
        if existing[i].dayOfWeek == dayOfWeek && TimesOverlap(start, end, existing[i].startTime, existing[i].endTime) {
          assert existing[i] in existing;
          return Some(ScheduleOverlap);
        }
      }
      assert !Clashes(schedules, staffId, dayOfWeek, start, end, None) by {
        forall s | s in schedules && s.staffId == staffId
          ensures !(s.dayOfWeek == dayOfWeek && TimesOverlap(start, end, s.startTime, s.endTime))
        {
          var k :| 0 <= k < |existing| && existing[k] == s;
        }
      }
      // the INSERT itself: UNIQUE (staff_id, day_of_week, start_time, end_time)
      if SlotTaken(schedules, staffId, dayOfWeek, start, end, None) {
        return Some(Storage(UniqueViolation));
      }
      return None;
    }

    method CreateSchedule(staffId: int, dayOfWeek: int, startTime: string, endTime: string)
      returns (r: Result<Schedule, Error>)
      requires Valid()
      modifies this
      ensures Valid()
      ensures nextServiceId == old(nextServiceId) && nextStaffId == old(nextStaffId)
      ensures appointmentRepo.nextId == old(appointmentRepo.nextId)
      ensures nextScheduleId == old(nextScheduleId) + (if r.Success? || r.error == Storage(UniqueViolation) then 1 else 0)
      ensures r.Failure? <==> CreateScheduleCheck(old(State()), staffId, dayOfWeek, startTime, endTime).Some?
      ensures r.Failure? ==>
        r.error == CreateScheduleCheck(old(State()), staffId, dayOfWeek, startTime, endTime).value && State() == old(State())
      ensures r.Success? ==> ValidTimeFormat(startTime) && ValidTimeFormat(endTime)
      ensures r.Success? ==>
        r.value == Schedule(old(nextScheduleId), staffId, dayOfWeek, ParseHHMM(startTime), ParseHHMM(endTime))
      ensures r.Success? ==> State() == old(State()).(schedules := old(schedules) + [r.value])
    {
      var check := CheckCreateSchedule(staffId, dayOfWeek, startTime, endTime);
      if check.Some? {
        if check.value == Storage(UniqueViolation) {
          // the failed INSERT has already drawn nextval('schedules_id_seq'), which is never given back
          nextScheduleId := nextScheduleId + 1;
        }
        return Failure(check.value);
      }
      CreateScheduleAccepted(State(), staffId, dayOfWeek, startTime, endTime);
      var x := Schedule(nextScheduleId, staffId, dayOfWeek, ParseHHMM(startTime), ParseHHMM(endTime));
      AddScheduleKeeps(State(), x);
      AppendFresh(schedules, ScheduleKey, nextScheduleId, x);
      schedules := schedules + [x];
      nextScheduleId := nextScheduleId + 1;
      return Success(x);
    }

    /** The checks of UpdateSchedule: fields, the lookup, the scan of the staff member's other windows, then UNIQUE. */
    method CheckUpdateSchedule(id: int, dayOfWeek: int, startTime: string, endTime: string) returns (r: Option<Error>)
      ensures r == UpdateScheduleCheck(State(), id, dayOfWeek, startTime, endTime)
    {
      if dayOfWeek < 0 || dayOfWeek > 6 {
        return Some(DayOutOfRange);
      }
      if startTime == [] || endTime == [] {
        return Some(TimesRequired);
      }
      var startOk := IsValidTimeFormat(startTime);
      var endOk := IsValidTimeFormat(endTime);
      if !startOk || !endOk {
        return Some(BadTimeFormat);
      }
      var existing := ScheduleById(schedules, id);
      if existing.None? {
        return Some(ScheduleNotFound);
      }
      var staffId := existing.value.staffId;
      var start := ParseHHMM(startTime);
      var end := ParseHHMM(endTime);
      var others := SchedulesOf(schedules, staffId);
      for i := 0 to |others|
        invariant forall k :: 0 <= k < i ==>
          !(others[k].id != id && others[k].dayOfWeek == dayOfWeek &&
            TimesOverlap(start, end, others[k].startTime, others[k].endTime))
      {
        if others[i].id != id && others[i].dayOfWeek == dayOfWeek &&
           TimesOverlap(start, end, others[i].startTime, others[i].endTime) {
          assert others[i] in others;
          return Some(ScheduleOverlap);
        }
      }
      assert !Clashes(schedules, staffId, dayOfWeek, start, end, Some(id)) by {
        forall s | s in schedules && s.staffId == staffId
          ensures !(s.id != id && s.dayOfWeek == dayOfWeek && TimesOverlap(start, end, s.startTime, s.endTime))
        {
          var k :| 0 <= k < |others| && others[k] == s;
        }
      }
      // the UPDATE itself: UNIQUE (staff_id, day_of_week, start_time, end_time)
      if SlotTaken(schedules, staffId, dayOfWeek, start, end, Some(id)) {
        return Some(Storage(UniqueViolation));
      }
      return None;
    }

    /** UpdateSchedule: the window keeps its id and its staff member; the overlap check skips the window itself. */
    method UpdateSchedule(id: int, dayOfWeek: int, startTime: string, endTime: string)
      returns (r: Result<Schedule, Error>)
      requires Valid()
      modifies this
      ensures Valid()
      ensures Counters() == old(Counters())
      ensures r.Failure? <==> UpdateScheduleCheck(old(State()), id, dayOfWeek, startTime, endTime).Some?
      ensures r.Failure? ==>
        r.error == UpdateScheduleCheck(old(State()), id, dayOfWeek, startTime, endTime).value && State() == old(State())
      ensures r.Success? ==> ValidTimeFormat(startTime) && ValidTimeFormat(endTime)
      ensures r.Success? ==> ScheduleById(old(schedules), id).Some?
      ensures r.Success? ==>
        r.value == Schedule(id, ScheduleById(old(schedules), id).value.staffId, dayOfWeek,
                            ParseHHMM(startTime), ParseHHMM(endTime))
      ensures r.Success? ==> State() == old(State()).(schedules := ReplaceById(old(schedules), ScheduleKey, id, r.value))
    {
      var check := CheckUpdateSchedule(id, dayOfWeek, startTime, endTime);
      if check.Some? {
        return Failure(check.value);
      }
      UpdateScheduleAccepted(State(), id, dayOfWeek, startTime, endTime);
      var current := ScheduleById(schedules, id).value;
      var x := Schedule(id, current.staffId, dayOfWeek, ParseHHMM(startTime), ParseHHMM(endTime));
      assert HasStaff(staff, current.staffId);
      EditScheduleKeeps(State(), id, x);
      ReplaceByIdKeepsKeys(schedules, ScheduleKey, nextScheduleId, id, x);
      schedules := ReplaceById(schedules, ScheduleKey, id, x);
      return Success(x);
    }

    method DeleteSchedule(id: int)
      requires Valid()
      modifies this
      ensures Valid()
      ensures Counters() == old(Counters())
      ensures State() == old(State()).(schedules := Filter(old(schedules), (s: Schedule) => s.id != id))
    {
      DeleteScheduleKeeps(State(), id);
      FilterKeepsKeys(schedules, ScheduleKey, nextScheduleId, (s: Schedule) => s.id != id);
      schedules := Filter(schedules, (s: Schedule) => s.id != id);
    }

    // ---------- Appointments ----------

    /** The serviceOffered scan of BookAppointment, stopping at the first match. */
    method OffersService(staffId: int, serviceId: int) returns (serviceOffered: bool)
      ensures serviceOffered == Offers(State(), staffId, serviceId)
    {
      var offered := ServicesForStaff(staffServices, services, staffId);
      serviceOffered := false;
      for i := 0 to |offered|
        invariant serviceOffered ==> exists s :: s in offered && s.id == serviceId
        invariant !serviceOffered ==> forall k :: 0 <= k < i ==> offered[k].id != serviceId
      {
        if offered[i].id == serviceId {
          assert offered[i] in offered;
          serviceOffered := true;
          break;
        }
      }
      if !serviceOffered {
        assert !exists s :: s in offered && s.id == serviceId by {
          forall s | s in offered ensures s.id != serviceId {
            var k :| 0 <= k < |offered| && offered[k] == s;
          }
        }
      }
    }

    /**
     * The isWithinSchedule scan of BookAppointment: a window of the staff
     * member on the local weekday of the start that holds both local times
     * of day, stopping at the first.
     */
    method IsWithinSchedule(staffId: int, appointmentLocal: LocalTime, appointmentEndLocal: LocalTime)
      returns (isWithinSchedule: bool)
      ensures isWithinSchedule == WithinWorkingHours(schedules, staffId, appointmentLocal, appointmentEndLocal)
    {
      var appointmentDay := appointmentLocal.weekday;
      var staffSchedules := SchedulesOf(schedules, staffId);
      isWithinSchedule := false;
      for i := 0 to |staffSchedules|
        invariant isWithinSchedule ==> WithinWorkingHours(schedules, staffId, appointmentLocal, appointmentEndLocal)
        invariant !isWithinSchedule ==> forall k :: 0 <= k < i ==>
          !Fits(staffSchedules[k], staffId, appointmentLocal, appointmentEndLocal)
      {
        var sch := staffSchedules[i];
        if sch.dayOfWeek == appointmentDay {
          if IsTimeWithin(sch.startTime, sch.endTime, appointmentLocal.minuteOfDay, appointmentEndLocal.minuteOfDay) {
            assert sch in staffSchedules && Fits(sch, staffId, appointmentLocal, appointmentEndLocal);
            isWithinSchedule := true;
            break;
          }
        }
      }
      if !isWithinSchedule {
        assert !WithinWorkingHours(schedules, staffId, appointmentLocal, appointmentEndLocal) by {
          forall s | s in schedules && s.staffId == staffId
            ensures !Fits(s, staffId, appointmentLocal, appointmentEndLocal)
          {
            var k :| 0 <= k < |staffSchedules| && staffSchedules[k] == s;
          }
        }
      }
    }

    /** The first checks of BookAppointment: the fields, both lookups and the serviceOffered scan. */
    method CheckEligibility(customerName: string, customerEmail: string, staffId: int, serviceId: int)
      returns (r: Result<Service, Error>)
      ensures r == BookingEligibility(State(), customerName, customerEmail, staffId, serviceId)
    {
      if customerName == [] {
        return Failure(CustomerNameRequired);
      }
      if customerEmail == [] {
        return Failure(CustomerEmailRequired);
      }
      var hasAt := ContainsSubstring(customerEmail, "@");
      if !hasAt {
        return Failure(InvalidEmailFormat);
      }
      if staffId <= 0 {
        return Failure(StaffIdRequired);
      }
      if serviceId <= 0 {
        return Failure(ServiceIdRequired);
      }
      if StaffById(staff, staffId).None? {
        return Failure(StaffNotFound);
      }
      var found := ServiceById(services, serviceId);
      if found.None? {
        return Failure(ServiceNotFound);
      }
      var serviceOffered := OffersService(staffId, serviceId);
      if !serviceOffered {
        return Failure(ServiceNotOffered);
      }
      return Success(found.value);
    }

    /**
     * The checks of BookAppointment, in order: eligibility, the scan of the
     * staff member's windows, then the conflict query. toLocal is the
     * conversion to the staff member's wall clock.
     */
    method CheckBooking(toLocal: int -> LocalTime, customerName: string, customerEmail: string,
                        staffId: int, serviceId: int, datetime: int) returns (r: Result<Service, Error>)
      ensures r == BookingCheck(State(), toLocal, customerName, customerEmail, staffId, serviceId, datetime)
    {
      r := CheckEligibility(customerName, customerEmail, staffId, serviceId);
      if r.Failure? {
        return;
      }
      var service := r.value;
      var isWithinSchedule := IsWithinSchedule(staffId, toLocal(datetime), toLocal(datetime + service.durationMin));
      if !isWithinSchedule {
        return Failure(OutsideWorkingHours);
      }
      var hasConflict := appointmentRepo.CheckConflict(staffId, datetime, service.durationMin, None);
      if hasConflict {
        return Failure(SchedulingConflict);
      }
    }

    /** BookAppointment: the checks of BookingCheck, then a confirmed appointment with the service's duration. */
    method BookAppointment(toLocal: int -> LocalTime, customerName: string, customerEmail: string,
                           customerPhone: string, staffId: int, serviceId: int, datetime: int, notes: string)
      returns (r: Result<Appointment, Error>)
      requires Valid()
      modifies appointmentRepo
      ensures Valid()
      ensures nextServiceId == old(nextServiceId) && nextStaffId == old(nextStaffId)
      ensures nextScheduleId == old(nextScheduleId)
      ensures appointmentRepo.nextId == old(appointmentRepo.nextId) + (if r.Success? then 1 else 0)
      ensures var c := BookingCheck(old(State()), toLocal, customerName, customerEmail, staffId, serviceId, datetime);
        && (r.Failure? <==> c.Failure?)
        && (r.Failure? ==> r.error == c.error && State() == old(State()))
        && (r.Success? ==> r.value == Appointment(old(appointmentRepo.nextId), customerName, customerEmail,
                                                  customerPhone, staffId, serviceId, datetime,
                                                  c.value.durationMin, Confirmed, notes))
        && (r.Success? ==> State() == old(State()).(appointments := old(appointmentRepo.rows) + [r.value]))
    {
      var check := CheckBooking(toLocal, customerName, customerEmail, staffId, serviceId, datetime);
      if check.Failure? {
        return Failure(check.error);
      }
      var service := check.value;
      ghost var before := State();
      BookingAccepted(before, toLocal, customerName, customerEmail, staffId, serviceId, datetime);
      var a := appointmentRepo.Create(customerName, customerEmail, customerPhone, staffId, serviceId,
                                      service.durationMin, datetime, Confirmed, notes);
      assert forall b :: b in before.appointments ==> b.id != a.id by {
        forall b | b in before.appointments ensures b.id != a.id {
          var k :| 0 <= k < |before.appointments| && before.appointments[k] == b;
          assert AppointmentKey(before.appointments[k]) < a.id;
        }
      }
      AddAppointmentKeeps(before, a, service);
      return Success(a);
    }

    /** GetUpcomingAppointments: a limit of zero or less means 50, so the call never fails. */
    function GetUpcomingAppointments(limit: int, now: int): (r: seq<Appointment>)
      reads this, appointmentRepo
      ensures var n := if limit <= 0 then 50 else limit;
        && |r| == Min(n, |appointmentRepo.Upcoming(now)|)
        && multiset(r) <= multiset(appointmentRepo.Upcoming(now))
        && SortedBy(r, Start)
        && forall a, b :: a in r && b in multiset(appointmentRepo.Upcoming(now)) - multiset(r) ==> Start(a) <= Start(b)
    {
      appointmentRepo.GetUpcoming(if limit <= 0 then 50 else limit, now).value
    }

    /** CancelAppointment: a missing or already cancelled appointment is refused; a completed one may be cancelled. */
    method CancelAppointment(id: int) returns (r: Option<Error>)
      requires Valid()
      modifies appointmentRepo
      ensures Valid()
      ensures Counters() == old(Counters())
      ensures r == CancelCheck(old(appointmentRepo.rows), id)
      ensures r.Some? ==> State() == old(State())
      ensures r.None? ==> State() == old(State()).(appointments := WithStatus(old(appointmentRepo.rows), id, Cancelled))
    {
      var appt := appointmentRepo.GetByID(id);
      AppointmentFound(appointmentRepo.rows, id);
      if appt.None? {
        return Some(AppointmentNotFound);
      }
      if appt.value.status == Cancelled {
        return Some(AlreadyCancelled);
      }
      CancelKeeps(State(), id);
      appointmentRepo.Cancel(id);
      return None;
    }

    /** CompleteAppointment: only a confirmed appointment can be completed. */
    method CompleteAppointment(id: int) returns (r: Option<Error>)
      requires Valid()
      modifies appointmentRepo
      ensures Valid()
      ensures Counters() == old(Counters())
      ensures r == CompleteCheck(old(appointmentRepo.rows), id)
      ensures r.Some? ==> State() == old(State())
      ensures r.None? ==> State() == old(State()).(appointments := WithStatus(old(appointmentRepo.rows), id, Completed))
    {
      var appt := appointmentRepo.GetByID(id);
      AppointmentFound(appointmentRepo.rows, id);
      if appt.None? {
        return Some(AppointmentNotFound);
      }
      if appt.value.status == Completed {
        return Some(AlreadyCompleted);
      }
      if appt.value.status == Cancelled {
        return Some(CannotCompleteCancelled);
      }
      CompleteKeeps(State(), id);
      appointmentRepo.Complete(id);
      return None;
    }
  }

  /**
   * The dependency container's start: the engine over the tables
   * SeedSampleData leaves, with the SERIAL counters just past the seeded ids.
   */
  method NewSeededEngine(today: int) returns (engine: ApptBookingService)
    ensures fresh(engine) && engine.Valid()
    ensures engine.State() == SeedDb(today)
  {
    SeedDbConsistent(today);
    var repo := new AppointmentRepository(SeedAppointments(today), 6);
    engine := new ApptBookingService(SeedServices, 4, SeedStaff, 4, SeedPairs, SeedSchedules, 12, repo);
  }
}

=== FILE: booking_component.dfy ===
/**
 * The booking wizard of the Angular client
 * (frontend/angular/src/app/appt-booking/features/booking/booking.component.ts):
 * its selection state, the time slots it offers inside a schedule window and
 * the schedule it matches a chosen time against. The observables the
 * component subscribes to are modelled by the list they last delivered.
 */
module BookingWizard {
  import opened Wrappers
  import opened Seqs
  import opened JsText
  import opened Models
  import opened BookingRules
  import opened ClientApi

  datatype BookingStep = ServiceStep | StaffStep | ScheduleStep | ConfirmationStep

  /**
   * `const [h, m] = text.split(':').map(Number)` followed by h * 60 + m.
   * None stands for NaN: a missing minute part or a part that is not a
   * digit string.
   */
  function ClockMinutes(text: string): (r: Option<nat>)
  {
    var parts := SplitOn(text, ':');
    if |parts| < 2 then None
    else
      match (JsNumber(parts[0]), JsNumber(parts[1]))
      case (Some(h), Some(m)) => Some(h * 60 + m)
      case _ => None
  }

  /** The starts of the slots of length d that fit in [start, end), one after another from start. */
  function SlotStarts(start: int, end: int, d: int): (r: seq<int>)
    requires d > 0
    ensures forall i :: 0 <= i < |r| ==> r[i] >= start
    decreases end - start
  {
    if start + d <= end then [start] + SlotStarts(start + d, end, d) else []
  }

  /** `${hh.padStart(2, '0')}:${mm.padStart(2, '0')}` for the hour and minute of a slot start. */
  function SlotLabel(current: nat): string
  {
    PadStart2(NatToString(current / 60)) + ":" + PadStart2(NatToString(current % 60))
  }

  function Labels(starts: seq<int>): (r: seq<string>)
    requires forall i :: 0 <= i < |starts| ==> starts[i] >= 0
    ensures |r| == |starts|
  {
    if starts == [] then [] else [SlotLabel(starts[0])] + Labels(starts[1..])
  }

  lemma {:induction false} LabelsAt(starts: seq<int>, i: nat)
    requires forall k :: 0 <= k < |starts| ==> starts[k] >= 0
    requires i < |starts|
    ensures Labels(starts)[i] == SlotLabel(starts[i])
    decreases i
  {
    if i > 0 {
      LabelsAt(starts[1..], i - 1);
    }
  }

  /**
   * What getTimeSlots returns: nothing without a schedule or a selected
   * service; otherwise the labels of the slots of the service's duration
   * inside the schedule window, none when either bound is NaN.
   */
  function TimeSlots(service: Option<Service>, schedule: Option<ScheduleView>): (r: seq<string>)
    requires service.Some? ==> service.value.durationMin > 0
    ensures service.None? || schedule.None? ==> r == []
  {
    if schedule.None? || service.None? then []
    else
      match (ClockMinutes(schedule.value.startTime), ClockMinutes(schedule.value.endTime))
      case (Some(start), Some(end)) => Labels(SlotStarts(start, end, service.value.durationMin))
      case _ => []
  }

  /**
   * Slot k starts at start + k * d and ends inside the window, and the
   * number of slots n is floor((end - start) / d) for a window that is not
   * inverted (n * d <= end - start < (n + 1) * d), and 0 for one that is.
   */
  lemma {:induction false} SlotStartsShape(start: int, end: int, d: int)
    requires d > 0
    ensures var r := SlotStarts(start, end, d);
      && (end - start >= 0 ==> |r| * d <= end - start < (|r| + 1) * d)
      && (end - start < 0 ==> |r| == 0)
      && (forall k :: 0 <= k < |r| ==> r[k] == start + k * d && r[k] + d <= end)
    decreases end - start
  {
    var r := SlotStarts(start, end, d);
    if start + d <= end {
      SlotStartsShape(start + d, end, d);
      var rest := SlotStarts(start + d, end, d);
      var n := |rest|;
      assert (n + 1) * d == n * d + d && (n + 2) * d == (n + 1) * d + d;
      forall k | 0 <= k < |r| ensures r[k] == start + k * d && r[k] + d <= end {
        if k > 0 {
          assert r[k] == rest[k - 1];
          assert (k - 1) * d + d == k * d;
        }
      }
    }
  }

  /** Two digits of n, zero-padded, for n below 100. */
  lemma PaddedTwoDigits(n: nat)
    requires n < 100
    ensures PadStart2(NatToString(n)) == [DigitChar(n / 10), DigitChar(n % 10)]
  {
    if n >= 10 {
      NatToStringTwoDigits(n);
    }
  }

  /**
   * Within a day a slot label is the zero-padded HH:MM text of its start,
   * which the engine's time check accepts and reads back as that start.
   */
  lemma SlotLabelIsHHMM(m: nat)
    requires m < 24 * 60
    ensures SlotLabel(m) == FormatHHMM(m)
    ensures ValidTimeFormat(SlotLabel(m)) && ParseHHMM(SlotLabel(m)) == m
  {
    PaddedTwoDigits(m / 60);
    PaddedTwoDigits(m % 60);
    FormatThenParse(m);
  }

  /** The client reads a valid HH:MM text as the same minute of the day as the engine does. */
  lemma ClockMinutesOfValid(t: string)
    requires ValidTimeFormat(t)
    ensures ClockMinutes(t) == Some(ParseHHMM(t))
  {
    SplitOfValid(t);
    var h := t[..2];
    var m := t[3..];
    assert DigitsValue(h) == DigitValue(t[0]) * 10 + DigitValue(t[1]) by {
      assert h[..1] == [t[0]] && h[1] == t[1];
      assert DigitsValue([t[0]]) == DigitValue(t[0]) by { assert [t[0]][..0] == []; }
    }
    assert DigitsValue(m) == DigitValue(t[3]) * 10 + DigitValue(t[4]) by {
      assert m[..1] == [t[3]] && m[1] == t[4];
      assert DigitsValue([t[3]]) == DigitValue(t[3]) by { assert [t[3]][..0] == []; }
    }
  }

  /**
   * For a schedule with valid HH:MM bounds, slot k is labelled with the
   * HH:MM text of start + k * d, and it ends by the end of the window.
   */
  lemma TimeSlotsOfValidWindow(service: Service, schedule: ScheduleView)
    requires service.durationMin > 0
    requires ValidTimeFormat(schedule.startTime) && ValidTimeFormat(schedule.endTime)
    ensures var start := ParseHHMM(schedule.startTime);
      var end := ParseHHMM(schedule.endTime);
      var d := service.durationMin;
      var r := TimeSlots(Some(service), Some(schedule));
      && (end - start >= 0 ==> |r| * d <= end - start < (|r| + 1) * d)
      && (end - start < 0 ==> |r| == 0)
      && forall k :: 0 <= k < |r| ==>
           && start + k * d + d <= end
           && ValidTimeFormat(r[k])
           && ParseHHMM(r[k]) == start + k * d
  {
    var start := ParseHHMM(schedule.startTime);
    var end := ParseHHMM(schedule.endTime);
    var d := service.durationMin;
    ClockMinutesOfValid(schedule.startTime);
    ClockMinutesOfValid(schedule.endTime);
    var starts := SlotStarts(start, end, d);
    SlotStartsShape(start, end, d);
    var r := TimeSlots(Some(service), Some(schedule));
    assert r == Labels(starts);
    forall k | 0 <= k < |r|
      ensures start + k * d + d <= end && ValidTimeFormat(r[k]) && ParseHHMM(r[k]) == start + k * d
    {
      assert starts[k] == start + k * d;
      LabelsAt(starts, k);
      SlotLabelIsHHMM(starts[k]);
    }
  }

  /** JavaScript's string order on valid HH:MM texts is the order of the times they denote. */
  lemma StrLtOfValid(a: string, b: string)
    requires ValidTimeFormat(a) && ValidTimeFormat(b)
    ensures StrLt(a, b) <==> ParseHHMM(a) < ParseHHMM(b)
  {
    var a1, b1 := a[1..], b[1..];
    var a2, b2 := a1[1..], b1[1..];
    var a3, b3 := a2[1..], b2[1..];
    var a4, b4 := a3[1..], b3[1..];
    assert a2[0] == ':' == b2[0];
    assert a3[0] == a[3] && b3[0] == b[3] && a4[0] == a[4] && b4[0] == b[4];
    assert a4[1..] == [] && b4[1..] == [];
    assert StrLt(a4, b4) <==> a[4] < b[4];
    var da := DigitValue(a[0]) * 10 + DigitValue(a[1]);
    var db := DigitValue(b[0]) * 10 + DigitValue(b[1]);
    var ma := DigitValue(a[3]) * 10 + DigitValue(a[4]);
    var mb := DigitValue(b[3]) * 10 + DigitValue(b[4]);
    assert ParseHHMM(a) == da * 60 + ma && ParseHHMM(b) == db * 60 + mb;
    assert StrLt(a3, b3) <==> ma < mb;
    assert StrLt(a2, b2) <==> ma < mb;
    assert StrLt(a1, b1) <==> (a[1] < b[1] || (a[1] == b[1] && ma < mb));
    assert StrLt(a, b) <==> (da < db || (da == db && ma < mb));
  }

  /** The schedule-match predicate of findOrCreateSchedule: same weekday, start_time <= time < end_time as strings. */
  predicate Matches(s: ScheduleView, weekday: int, time: string)
  {
    s.dayOfWeek == weekday && !StrLt(time, s.startTime) && StrLt(time, s.endTime)
  }

  function MatchesAt(weekday: int, time: string): ScheduleView -> bool
  {
    s => Matches(s, weekday, time)
  }

  /** For valid HH:MM texts the string test is the minute test of the engine's working-hours window. */
  lemma MatchesIsInWindow(s: ScheduleView, weekday: int, time: string)
    requires ValidTimeFormat(time) && ValidTimeFormat(s.startTime) && ValidTimeFormat(s.endTime)
    ensures Matches(s, weekday, time)
        <==> s.dayOfWeek == weekday && InWindow(ParseHHMM(time), ParseHHMM(s.startTime), ParseHHMM(s.endTime))
  {
    StrLtOfValid(time, s.startTime);
    StrLtOfValid(time, s.endTime);
  }

  /** The loop of getTimeSlots: `for (current = start; current + duration <= end; current += duration)`. */
  method CollectSlots(start: nat, end: int, duration: int) returns (timeSlots: seq<string>)
    requires duration > 0
    ensures timeSlots == Labels(SlotStarts(start, end, duration))
  {
    timeSlots := [];
    var current: int := start;
    while current + duration <= end
      invariant current >= start
      invariant timeSlots + Labels(SlotStarts(current, end, duration)) == Labels(SlotStarts(start, end, duration))
      decreases end - current
    {
      var timeString := SlotLabel(current);
      ghost var rest := SlotStarts(current + duration, end, duration);
      assert SlotStarts(current, end, duration) == [current] + rest;
      assert Labels([current] + rest) == [timeString] + Labels(rest);
      assert (timeSlots + [timeString]) + Labels(rest) == timeSlots + ([timeString] + Labels(rest));
      timeSlots := timeSlots + [timeString];
      current := current + duration;
    }
    assert SlotStarts(current, end, duration) == [];
  }

  const NoScheduleMessage: string := "No schedule available for this time. Please select a different time."

  class BookingComponent {
    var currentStep: BookingStep
    var selectedService: Option<Service>
    var selectedStaff: Option<Staff>
    var selectedDate: string
    var selectedTime: string
    var selectedSchedule: Option<ScheduleView>
    var customerName: string
    var customerEmail: string
    var customerPhone: string
    var isLoading: bool
    var errorMessage: Option<string>
    var successMessage: Option<string>
    /** What schedules$ last delivered: the schedules of the selected staff member. */
    var schedules: seq<ScheduleView>

    constructor()
      ensures currentStep == ServiceStep
      ensures selectedService.None? && selectedStaff.None? && selectedSchedule.None?
      ensures selectedDate == "" && selectedTime == ""
      ensures customerName == "" && customerEmail == "" && customerPhone == ""
      ensures !isLoading && errorMessage.None? && successMessage.None?
      ensures schedules == []
    {
      currentStep := ServiceStep;
      selectedService := None;
      selectedStaff := None;
      selectedDate := "";
      selectedTime := "";
      selectedSchedule := None;
      customerName := "";
      customerEmail := "";
      customerPhone := "";
      isLoading := false;
      errorMessage := None;
      successMessage := None;
      schedules := [];
    }

    /** getTimeSlots: walks the window in steps of the service duration. */
    method GetTimeSlots(schedule: Option<ScheduleView>) returns (timeSlots: seq<string>)
      requires selectedService.Some? ==> selectedService.value.durationMin > 0
      ensures timeSlots == TimeSlots(selectedService, schedule)
    {
      if schedule.None? || selectedService.None? {
        return [];
      }
      var startMinutes := ClockMinutes(schedule.value.startTime);
      var endMinutes := ClockMinutes(schedule.value.endTime);
      if startMinutes.None? || endMinutes.None? {
        // NaN bounds: the loop condition is false at once.
        return [];
      }
      timeSlots := CollectSlots(startMinutes.value, endMinutes.value, selectedService.value.durationMin);
    }

    method SelectService(service: Service)
      modifies this
      ensures selectedService == Some(service)
      ensures selectedStaff.None? && selectedSchedule.None? && selectedDate == "" && selectedTime == ""
      ensures currentStep == StaffStep
      ensures customerName == old(customerName) && customerEmail == old(customerEmail) && customerPhone == old(customerPhone)
      ensures isLoading == old(isLoading) && errorMessage == old(errorMessage) && successMessage == old(successMessage)
      ensures schedules == old(schedules)
      ensures !CanProceedFromSchedule()
    {
      selectedService := Some(service);
      selectedStaff := None;
      selectedSchedule := None;
      selectedDate := "";
      selectedTime := "";
      currentStep := StaffStep;
    }

    /** selectStaff; staffSchedules is what the schedule request for that staff member delivers. */
    method SelectStaff(staff: Staff, staffSchedules: seq<ScheduleView>)
      modifies this
      ensures selectedStaff == Some(staff)
      ensures selectedSchedule.None? && selectedDate == "" && selectedTime == ""
      ensures currentStep == ScheduleStep
      ensures schedules == staffSchedules
      ensures selectedService == old(selectedService)
      ensures customerName == old(customerName) && customerEmail == old(customerEmail) && customerPhone == old(customerPhone)
      ensures isLoading == old(isLoading) && errorMessage == old(errorMessage) && successMessage == old(successMessage)
      ensures !CanProceedFromSchedule()
    {
      selectedStaff := Some(staff);
      selectedSchedule := None;
      selectedDate := "";
      selectedTime := "";
      schedules := staffSchedules;
      currentStep := ScheduleStep;
    }

    method SelectDate(date: string)
      modifies this
      ensures selectedDate == date && selectedTime == "" && selectedSchedule.None?
      ensures currentStep == old(currentStep) && selectedService == old(selectedService) && selectedStaff == old(selectedStaff)
      ensures customerName == old(customerName) && customerEmail == old(customerEmail) && customerPhone == old(customerPhone)
      ensures isLoading == old(isLoading) && errorMessage == old(errorMessage) && successMessage == old(successMessage)
      ensures schedules == old(schedules)
      ensures !CanProceedFromSchedule()
    {
      selectedDate := date;
      selectedTime := "";
      selectedSchedule := None;
    }

    /**
     * findOrCreateSchedule; weekday is the day of the week of selectedDate
     * (new Date(selectedDate + 'T00:00:00').getDay()).
     */
    method FindOrCreateSchedule(weekday: int)
      modifies this
      ensures var ready := old(selectedDate) != "" && old(selectedTime) != ""
                           && old(selectedStaff).Some? && old(selectedService).Some?;
        var found := Find(old(schedules), MatchesAt(weekday, old(selectedTime)));
        && selectedSchedule == (if ready then found else old(selectedSchedule))
        && errorMessage == (if ready && found.None? then Some(NoScheduleMessage) else old(errorMessage))
      ensures currentStep == old(currentStep) && selectedService == old(selectedService) && selectedStaff == old(selectedStaff)
      ensures selectedDate == old(selectedDate) && selectedTime == old(selectedTime)
      ensures customerName == old(customerName) && customerEmail == old(customerEmail) && customerPhone == old(customerPhone)
      ensures isLoading == old(isLoading) && successMessage == old(successMessage) && schedules == old(schedules)
    {
      if selectedDate == "" || selectedTime == "" || selectedStaff.None? || selectedService.None? {
        return;
      }
      var matchingSchedule := Find(schedules, MatchesAt(weekday, selectedTime));
      if matchingSchedule.Some? {
        selectedSchedule := matchingSchedule;
      } else {
        selectedSchedule := None;
        errorMessage := Some(NoScheduleMessage);
      }
    }

    /** selectTime: records the time and matches it against the staff member's schedules. */
    method SelectTime(time: string, weekday: int)
      modifies this
      ensures selectedTime == time
      ensures var ready := old(selectedDate) != "" && time != "" && old(selectedStaff).Some? && old(selectedService).Some?;
        var found := Find(old(schedules), MatchesAt(weekday, time));
        && selectedSchedule == (if ready then found else old(selectedSchedule))
        && errorMessage == (if ready && found.None? then Some(NoScheduleMessage) else old(errorMessage))
      ensures currentStep == old(currentStep) && selectedService == old(selectedService) && selectedStaff == old(selectedStaff)
      ensures selectedDate == old(selectedDate)
      ensures customerName == old(customerName) && customerEmail == old(customerEmail) && customerPhone == old(customerPhone)
      ensures isLoading == old(isLoading) && successMessage == old(successMessage) && schedules == old(schedules)
    {
      selectedTime := time;
      FindOrCreateSchedule(weekday);
    }

    /** canProceedFromSchedule: every selection is made. */
    predicate CanProceedFromSchedule()
      reads this
    {
      && selectedService.Some?
      && selectedStaff.Some?
      && selectedSchedule.Some?
      && selectedDate != ""
      && selectedTime != ""
    }

    /** canProceedToConfirmation: every selection is made and no customer field is blank once trimmed. */
    predicate CanProceedToConfirmation()
      reads this
    {
      && CanProceedFromSchedule()
      && Trim(customerName) != ""
      && Trim(customerEmail) != ""
      && Trim(customerPhone) != ""
    }

    /** getTotalPrice: the selected service's price, 0 without one. */
    function GetTotalPrice(): (r: int)
      reads this
      ensures selectedService.None? ==> r == 0
      ensures selectedService.Some? ==> r == selectedService.value.priceCents
    {
      if selectedService.Some? then selectedService.value.priceCents else 0
    }

    method GoToStep(step: BookingStep)
      modifies this
      ensures currentStep == step && errorMessage.None?
      ensures selectedService == old(selectedService) && selectedStaff == old(selectedStaff)
      ensures selectedSchedule == old(selectedSchedule) && selectedDate == old(selectedDate) && selectedTime == old(selectedTime)
      ensures customerName == old(customerName) && customerEmail == old(customerEmail) && customerPhone == old(customerPhone)
      ensures isLoading == old(isLoading) && successMessage == old(successMessage) && schedules == old(schedules)
    {
      currentStep := step;
      errorMessage := None;
    }

    method ResetBooking()
      modifies this
      ensures currentStep == ServiceStep
      ensures selectedService.None? && selectedStaff.None? && selectedSchedule.None?
      ensures selectedDate == "" && selectedTime == ""
      ensures customerName == "" && customerEmail == "" && customerPhone == ""
      ensures errorMessage.None? && successMessage.None?
      ensures isLoading == old(isLoading) && schedules == old(schedules)
      ensures !CanProceedFromSchedule() && GetTotalPrice() == 0
    {
      currentStep := ServiceStep;
      selectedService := None;
      selectedStaff := None;
      selectedSchedule := None;
      selectedDate := "";
      selectedTime := "";
      customerName := "";
      customerEmail := "";
      customerPhone := "";
      errorMessage := None;
      successMessage := None;
    }
  }

  /**
   * The confirmation gate is the schedule gate plus the three customer
   * fields, each holding a character other than white space.
   */
  lemma ConfirmationNeedsScheduleAndCustomer(c: BookingComponent)
    ensures c.CanProceedToConfirmation()
        <==> && c.CanProceedFromSchedule()
             && (exists i :: 0 <= i < |c.customerName| && !IsWhitespace(c.customerName[i]))
             && (exists i :: 0 <= i < |c.customerEmail| && !IsWhitespace(c.customerEmail[i]))
             && (exists i :: 0 <= i < |c.customerPhone| && !IsWhitespace(c.customerPhone[i]))
  {
    TrimEmpty(c.customerName);
    TrimEmpty(c.customerEmail);
    TrimEmpty(c.customerPhone);
  }
}

=== FILE: booking_rules.dfy ===
/**
 * The helper functions of the booking engine
 * (backend/go/service/appt_booking/appt_booking_service.go): the HH:MM check,
 * the two interval tests on minutes since midnight, and the substring scan.
 * A time of day is an int: hour * 60 + minute, seconds dropped, as the
 * engine's toMinutes closures compute it.
 */
module BookingRules {
  import opened JsText

  /**
   * isValidTimeFormat: exactly five characters, a ':' in the middle, four
   * decimal digits around it, hour at most 23 and minute at most 59.
   */
  predicate ValidTimeFormat(t: string)
  {
    && |t| == 5
    && t[2] == ':'
    && IsDigit(t[0]) && IsDigit(t[1]) && IsDigit(t[3]) && IsDigit(t[4])
    && DigitValue(t[0]) * 10 + DigitValue(t[1]) <= 23
    && DigitValue(t[3]) * 10 + DigitValue(t[4]) <= 59
  }

  /** time.Parse("15:04", t) followed by Hour()*60 + Minute(), on a string that passed the check. */
  function ParseHHMM(t: string): (m: int)
    requires ValidTimeFormat(t)
    ensures 0 <= m < 24 * 60
  {
    (DigitValue(t[0]) * 10 + DigitValue(t[1])) * 60 + DigitValue(t[3]) * 10 + DigitValue(t[4])
  }

  /** The HH:MM text of a time of day, zero-padded. */
  function FormatHHMM(m: int): (t: string)
    requires 0 <= m < 24 * 60
    ensures |t| == 5 && t[2] == ':'
  {
    var h := m / 60;
    var mm := m % 60;
    [DigitChar(h / 10), DigitChar(h % 10), ':', DigitChar(mm / 10), DigitChar(mm % 10)]
  }

  /** isValidTimeFormat, with its two digit loops over the hour and the minute. */
  method IsValidTimeFormat(t: string) returns (ok: bool)
    ensures ok == ValidTimeFormat(t)
  {
    if |t| != 5 {
      return false;
    }
    if t[2] != ':' {
      return false;
    }
    var hour := t[0..2];
    var minute := t[3..5];
    for i := 0 to 2
      invariant forall k :: 0 <= k < i ==> IsDigit(hour[k])
    {
      if !IsDigit(hour[i]) {
        return false;
      }
    }
    for i := 0 to 2
      invariant forall k :: 0 <= k < i ==> IsDigit(minute[k])
    {
      if !IsDigit(minute[i]) {
        return false;
      }
    }
    var h := DigitValue(hour[0]) * 10 + DigitValue(hour[1]);
    var m := DigitValue(minute[0]) * 10 + DigitValue(minute[1]);
    ok := 0 <= h <= 23 && 0 <= m <= 59;
  }

  /** Every time of day has an HH:MM text that passes the check and reads back as itself. */
  lemma FormatThenParse(m: int)
    requires 0 <= m < 24 * 60
    ensures ValidTimeFormat(FormatHHMM(m))
    ensures ParseHHMM(FormatHHMM(m)) == m
  {
    var t := FormatHHMM(m);
    var h := m / 60;
    var mm := m % 60;
    assert DigitValue(t[0]) * 10 + DigitValue(t[1]) == h;
    assert DigitValue(t[3]) * 10 + DigitValue(t[4]) == mm;
  }

  /** Every string that passes the check is the HH:MM text of the time it parses to. */
  lemma ParseThenFormat(t: string)
    requires ValidTimeFormat(t)
    ensures FormatHHMM(ParseHHMM(t)) == t
  {
    var h := DigitValue(t[0]) * 10 + DigitValue(t[1]);
    var mm := DigitValue(t[3]) * 10 + DigitValue(t[4]);
    var m := ParseHHMM(t);
    assert m / 60 == h && m % 60 == mm;
    var r := FormatHHMM(m);
    assert h / 10 == DigitValue(t[0]) && h % 10 == DigitValue(t[1]);
    assert mm / 10 == DigitValue(t[3]) && mm % 10 == DigitValue(t[4]);
    DigitRoundTrip(t[0]);
    DigitRoundTrip(t[1]);
    DigitRoundTrip(t[3]);
    DigitRoundTrip(t[4]);
    assert r[0] == t[0] && r[1] == t[1] && r[2] == t[2] && r[3] == t[3] && r[4] == t[4];
  }

  lemma DigitRoundTrip(c: char)
    requires IsDigit(c)
    ensures DigitChar(DigitValue(c)) == c
  {
  }

  /** The check accepts exactly the 24 * 60 texts 00:00 .. 23:59. */
  lemma ValidTimeFormatExactly(t: string)
    ensures ValidTimeFormat(t) <==> exists m :: 0 <= m < 24 * 60 && t == FormatHHMM(m)
  {
    if ValidTimeFormat(t) {
      ParseThenFormat(t);
    }
    if exists m :: 0 <= m < 24 * 60 && t == FormatHHMM(m) {
      var m :| 0 <= m < 24 * 60 && t == FormatHHMM(m);
      FormatThenParse(m);
    }
  }

  /** timesOverlap: the windows [s1, e1) and [s2, e2) intersect. */
  predicate TimesOverlap(s1: int, e1: int, s2: int, e2: int)
  {
    s1 < e2 && s2 < e1
  }

  /** Minute m lies in the window [start, end). */
  predicate InWindow(m: int, start: int, end: int)
  {
    start <= m < end
  }

  /** For windows that are not empty, overlapping means sharing a minute. */
  lemma OverlapMeansCommonMinute(s1: int, e1: int, s2: int, e2: int)
    requires s1 < e1 && s2 < e2
    ensures TimesOverlap(s1, e1, s2, e2) <==> exists m :: InWindow(m, s1, e1) && InWindow(m, s2, e2)
  {
    if TimesOverlap(s1, e1, s2, e2) {
      var m := if s1 < s2 then s2 else s1;
      assert InWindow(m, s1, e1) && InWindow(m, s2, e2);
    }
  }

  /** The test does not depend on which window is the new one. */
  lemma OverlapSymmetric(s1: int, e1: int, s2: int, e2: int)
    ensures TimesOverlap(s1, e1, s2, e2) <==> TimesOverlap(s2, e2, s1, e1)
  {
  }

  /** Windows that only touch do not overlap. */
  lemma TouchingNeverOverlap(s1: int, e1: int, s2: int, e2: int)
    requires s1 <= e1 && s2 <= e2
    requires e1 == s2 || e2 == s1
    ensures !TimesOverlap(s1, e1, s2, e2)
  {
  }

  /**
   * An empty or inverted window does not overlap an identical copy of
   * itself, so the same-day check lets a duplicate of it through.
   */
  lemma EmptyWindowMissesItsCopy(s1: int, e1: int)
    requires e1 <= s1
    ensures !TimesOverlap(s1, e1, s1, e1)
  {
  }

  /** isTimeWithin: the appointment's start is no earlier than the window's and its end no later. */
  predicate IsTimeWithin(scheduleStart: int, scheduleEnd: int, apptStart: int, apptEnd: int)
  {
    apptStart >= scheduleStart && apptEnd <= scheduleEnd
  }

  /** An appointment within a window is inside it: every minute it covers is covered by the window. */
  lemma WithinCoversEveryMinute(ss: int, se: int, as_: int, ae: int)
    requires IsTimeWithin(ss, se, as_, ae)
    ensures forall m :: InWindow(m, as_, ae) ==> InWindow(m, ss, se)
  {
  }

  /** sub occurs in s starting at position k. */
  predicate OccursAt(s: string, sub: string, k: int)
  {
    0 <= k <= |s| - |sub| && s[k..k + |sub|] == sub
  }

  /** The scan of contains from position i on. */
  function ScanFrom(s: string, sub: string, i: nat): (r: bool)
    ensures r <==> exists k :: i <= k && OccursAt(s, sub, k)
    decreases |s| - i
  {
    if i + |sub| > |s| then false
    else if s[i..i + |sub|] == sub then
      assert OccursAt(s, sub, i);
      true
    else
      var r := ScanFrom(s, sub, i + 1);
      assert forall k :: i <= k && OccursAt(s, sub, k) ==> k == i || i + 1 <= k;
      r
  }

  /** contains: sub occurs in s at some position (the loop over i from 0 to len(s) - len(sub)). */
  function Contains(s: string, sub: string): (r: bool)
    ensures r <==> exists k :: OccursAt(s, sub, k)
  {
    ScanFrom(s, sub, 0)
  }

  /** contains: the loop over the start positions, stopping at the first match. */
  method ContainsSubstring(s: string, sub: string) returns (found: bool)
    ensures found == Contains(s, sub)
  {
    var i := 0;
    while i <= |s| - |sub|
      invariant 0 <= i
      invariant forall k :: 0 <= k < i ==> !OccursAt(s, sub, k)
      decreases |s| - |sub| - i
    {
      if s[i..i + |sub|] == sub {
        assert OccursAt(s, sub, i);
        return true;
      }
      i := i + 1;
    }
    return false;
  }

  /** The empty string is found in every string, the empty one included. */
  lemma ContainsEmpty(s: string)
    ensures Contains(s, [])
  {
    assert OccursAt(s, [], 0);
  }

  /** A one-character substring is found exactly when that character occurs. */
  lemma ContainsChar(s: string, c: char)
    ensures Contains(s, [c]) <==> c in s
  {
    if c in s {
      var k :| 0 <= k < |s| && s[k] == c;
      assert s[k..k + 1] == [c];
      assert OccursAt(s, [c], k);
    }
    if Contains(s, [c]) {
      var k :| OccursAt(s, [c], k);
      assert s[k..k + 1][0] == s[k];
    }
  }
}

=== FILE: client_api.dfy ===
/**
 * The record shapes the Angular client receives and the two display helpers
 * of its API service
 * (frontend/angular/src/app/appt-booking/core/services/appt-booking.service.ts):
 * the 12-hour rendering of an HH:MM time and the weekday name of an index.
 */
module ClientApi {
  import opened Wrappers
  import opened Seqs
  import opened JsText
  import opened Models
  import opened BookingRules

  /** A schedule as the client sees it: the window bounds are HH:MM texts. */
  datatype ScheduleView = ScheduleView(id: int, staffId: int, dayOfWeek: int, startTime: string, endTime: string)

  /**
   * An appointment joined with its service name, staff name and price. The
   * datetime is the instant that new Date(appointment_datetime) denotes, in
   * whole minutes.
   */
  datatype AppointmentView = AppointmentView(appointment: Appointment, serviceName: string, staffName: string, priceCents: int)

  function HasId(id: int): AppointmentView -> bool { (a: AppointmentView) => a.appointment.id == id }

  function NotId(id: int): AppointmentView -> bool { (a: AppointmentView) => a.appointment.id != id }

  /** String.prototype.split with a one-character separator. */
  function SplitOn(s: string, sep: char): (parts: seq<string>)
    ensures |parts| >= 1
    ensures forall i :: 0 <= i < |parts| ==> sep !in parts[i]
    decreases |s|
  {
    if s == [] then [""]
    else
      var rest := SplitOn(s[1..], sep);
      if s[0] == sep then [""] + rest
      else [[s[0]] + rest[0]] + rest[1..]
  }

  /** Array.prototype.join with a one-character separator. */
  function JoinOn(parts: seq<string>, sep: char): string
    requires |parts| >= 1
    decreases |parts|
  {
    if |parts| == 1 then parts[0] else parts[0] + [sep] + JoinOn(parts[1..], sep)
  }

  /** Joining the pieces of a split with the separator gives the string back. */
  lemma {:induction false} SplitThenJoin(s: string, sep: char)
    ensures JoinOn(SplitOn(s, sep), sep) == s
    decreases |s|
  {
    if s != [] {
      var rest := SplitOn(s[1..], sep);
      SplitThenJoin(s[1..], sep);
      if s[0] == sep {
        assert SplitOn(s, sep)[1..] == rest;
      } else {
        var parts := SplitOn(s, sep);
        if |rest| == 1 {
          assert parts == [[s[0]] + rest[0]];
        } else {
          assert parts[1..] == rest[1..];
          assert JoinOn(rest, sep) == rest[0] + [sep] + JoinOn(rest[1..], sep);
        }
      }
    }
  }

  /** A string with exactly one separator splits into the texts on either side of it. */
  lemma {:induction false} SplitAtOnlySeparator(a: string, b: string, sep: char)
    requires sep !in a && sep !in b
    ensures SplitOn(a + [sep] + b, sep) == [a, b]
    decreases |a|
  {
    if a == [] {
      assert [sep] + b == [sep] + b;
      assert ([sep] + b)[1..] == b;
      SplitWithoutSeparator(b, sep);
    } else {
      assert (a + [sep] + b)[1..] == a[1..] + [sep] + b;
      SplitAtOnlySeparator(a[1..], b, sep);
      assert [a[0]] + a[1..] == a;
    }
  }

  /** A string without the separator is one piece. */
  lemma {:induction false} SplitWithoutSeparator(s: string, sep: char)
    requires sep !in s
    ensures SplitOn(s, sep) == [s]
    decreases |s|
  {
    if s != [] {
      SplitWithoutSeparator(s[1..], sep);
      assert [s[0]] + s[1..] == s;
    }
  }

  /** hour % 12 || 12: the hour on a 12-hour clock. */
  function Hour12(hour: int): int
  {
    var r := JsRem(hour, 12);
    if r == 0 then 12 else r
  }

  /** The 24-hour hour given back by a 12-hour hour and its AM/PM half. */
  function Hour24(hour12: int, pm: bool): int
  {
    hour12 % 12 + (if pm then 12 else 0)
  }

  /** Hours 0..23 go to 1..12, and with the AM/PM half they can be read back. */
  lemma Hour12RoundTrip(hour: int)
    requires 0 <= hour <= 23
    ensures 1 <= Hour12(hour) <= 12
    ensures Hour24(Hour12(hour), hour >= 12) == hour
  {
  }

  /** The hour formatTime reads: parseInt of the text before the first ':'; None stands for NaN. */
  function ParsedHour(time24: string): Option<int>
  {
    ParseInt(SplitOn(time24, ':')[0])
  }

  /**
   * formatTime: `${hour12}:${minutes} ${ampm}`. The minutes are the text
   * between the first and the second ':', "undefined" when there is no ':';
   * a NaN hour renders as 12 and counts as AM.
   */
  function FormatTime(time24: string): (r: string)
    ensures |r| >= 5 && r[|r| - 3] == ' '
  {
    var parts := SplitOn(time24, ':');
    var minutes := if |parts| >= 2 then parts[1] else "undefined";
    var hour := ParsedHour(time24);
    var hourText := if hour.None? then "12" else IntToString(Hour12(hour.value));
    var ampm := if hour.Some? && hour.value >= 12 then "PM" else "AM";
    assert |IntToString(if hour.None? then 0 else Hour12(hour.value))| >= 1;
    hourText + ":" + minutes + " " + ampm
  }

  /** The rendering ends in "PM" exactly when the parsed hour is at least 12, and in "AM" otherwise. */
  lemma FormatTimeMeridiem(time24: string)
    ensures var r := FormatTime(time24);
      && (r[|r| - 2..] == "PM" <==> ParsedHour(time24).Some? && ParsedHour(time24).value >= 12)
      && (r[|r| - 2..] == "AM" <==> !(ParsedHour(time24).Some? && ParsedHour(time24).value >= 12))
  {
    var r := FormatTime(time24);
    var ampm := if ParsedHour(time24).Some? && ParsedHour(time24).value >= 12 then "PM" else "AM";
    assert r[|r| - 2..] == ampm;
  }

  /** The white-space characters are no digits. */
  lemma DigitIsNotWhitespace(c: char)
    requires IsDigit(c)
    ensures !IsWhitespace(c)
  {
  }

  /** parseInt of a non-empty digit string is its value. */
  lemma ParseIntOfDigits(s: string)
    requires s != [] && AllDigits(s)
    ensures ParseInt(s) == Some(DigitsValue(s) as int)
  {
    DigitIsNotWhitespace(s[0]);
    assert TrimStart(s) == s;
    DigitPrefixOfDigits(s);
  }

  lemma {:induction false} DigitPrefixOfDigits(s: string)
    requires AllDigits(s)
    ensures DigitPrefix(s) == s
    decreases |s|
  {
    if s != [] {
      DigitPrefixOfDigits(s[1..]);
      assert [s[0]] + s[1..] == s;
    }
  }

  /** A valid HH:MM text splits at its ':' into the two hour digits and the two minute digits. */
  lemma SplitOfValid(t: string)
    requires ValidTimeFormat(t)
    ensures SplitOn(t, ':') == [t[..2], t[3..]]
  {
    assert t == t[..2] + [':'] + t[3..];
    assert ':' !in t[..2] && ':' !in t[3..];
    SplitAtOnlySeparator(t[..2], t[3..], ':');
  }

  /** The hour written in the first two digits of an HH:MM text. */
  function HourDigits(t: string): int
    requires ValidTimeFormat(t)
  {
    DigitValue(t[0]) * 10 + DigitValue(t[1])
  }

  /** On a valid HH:MM text, the hour formatTime reads is the hour of the time. */
  lemma ParsedHourOfValid(t: string)
    requires ValidTimeFormat(t)
    ensures ParsedHour(t) == Some(HourDigits(t))
    ensures ParseHHMM(t) / 60 == HourDigits(t)
  {
    SplitOfValid(t);
    var h := t[..2];
    var hv := HourDigits(t);
    var mv := DigitValue(t[3]) * 10 + DigitValue(t[4]);
    assert DigitsValue(h) == hv by {
      assert h[..1] == [t[0]] && h[1] == t[1];
      assert [t[0]][..0] == [];
      assert DigitsValue([t[0]]) == DigitValue(t[0]);
    }
    ParseIntOfDigits(h);
    assert ParseHHMM(t) == hv * 60 + mv;
    HourOfMinutes(hv, mv);
  }

  lemma HourOfMinutes(h: int, m: int)
    requires 0 <= m < 60
    ensures (h * 60 + m) / 60 == h
  {
  }

  /**
   * On a valid HH:MM text, formatTime gives the 12-hour hour without
   * padding, the two minute digits as they are, and the AM/PM half.
   */
  lemma FormatTimeOfValid(t: string)
    requires ValidTimeFormat(t)
    ensures HourDigits(t) == ParseHHMM(t) / 60
    ensures var hour := HourDigits(t);
      FormatTime(t) == NatToString(Hour12(hour)) + ":" + t[3..] + " " + (if hour >= 12 then "PM" else "AM")
  {
    SplitOfValid(t);
    ParsedHourOfValid(t);
    Hour12RoundTrip(HourDigits(t));
  }

  /** Any time in the midnight hour, "00:MM", renders as "12:MM AM". */
  lemma FormatTimeMidnightHour(t: string)
    requires ValidTimeFormat(t) && t[0] == '0' && t[1] == '0'
    ensures FormatTime(t) == "12:" + t[3..] + " AM"
  {
    assert HourDigits(t) == 0;
    FormatTimeOfValid(t);
    RenderedText(0, t[3..], "12:" + t[3..] + " AM");
  }

  /** Any time in the noon hour, "12:MM", renders as "12:MM PM". */
  lemma FormatTimeNoonHour(t: string)
    requires ValidTimeFormat(t) && t[0] == '1' && t[1] == '2'
    ensures FormatTime(t) == "12:" + t[3..] + " PM"
  {
    assert HourDigits(t) == 12;
    FormatTimeOfValid(t);
    RenderedText(12, t[3..], "12:" + t[3..] + " PM");
  }

  /** Any time in the hour after noon, "13:MM", renders as "1:MM PM". */
  lemma FormatTimeAfternoonHour(t: string)
    requires ValidTimeFormat(t) && t[0] == '1' && t[1] == '3'
    ensures FormatTime(t) == "1:" + t[3..] + " PM"
  {
    assert HourDigits(t) == 13;
    FormatTimeOfValid(t);
    RenderedText(13, t[3..], "1:" + t[3..] + " PM");
  }

  /** The three renderings above, written out without formatTime. */
  lemma RenderedText(hour: int, minutes: string, text: string)
    requires || (hour == 0 && text == "12:" + minutes + " AM")
             || (hour == 12 && text == "12:" + minutes + " PM")
             || (hour == 13 && text == "1:" + minutes + " PM")
    ensures NatToString(Hour12(hour)) + ":" + minutes + " " + (if hour >= 12 then "PM" else "AM") == text
  {
    assert NatToString(12) == "12" by {
      assert NatToString(12) == NatToString(1) + [DigitChar(2)];
    }
  }

  const DayNames: seq<string> := ["Sunday", "Monday", "Tuesday", "Wednesday", "Thursday", "Friday", "Saturday"]

  /** getDayOfWeekName: the name of day 0 (Sunday) .. 6 (Saturday); 'Unknown' for any other index. */
  function DayOfWeekName(day: int): (r: string)
    ensures 0 <= day < 7 ==> r == DayNames[day]
    ensures !(0 <= day < 7) ==> r == "Unknown"
  {
    if 0 <= day < |DayNames| then DayNames[day] else "Unknown"
  }

  function IsName(name: string): string -> bool
  {
    x => x == name
  }

  /** The index of a weekday name, the inverse of DayOfWeekName. */
  function DayIndex(name: string): Option<nat>
  {
    FirstIndex(DayNames, IsName(name))
  }

  /** Each of the seven indices has its own name, and no name of an index is 'Unknown'. */
  lemma DayOfWeekNameRoundTrip(day: int)
    ensures DayIndex(DayOfWeekName(day)) == if 0 <= day < 7 then Some(day as nat) else None
  {
    var r := DayOfWeekName(day);
    var names := DayNames;
    assert forall i, j :: 0 <= i < j < 7 ==> names[i] != names[j] by {
      assert names[0][0] == 'S' && names[0][1] == 'u';
      assert names[1][0] == 'M';
      assert names[2][0] == 'T' && names[2][1] == 'u';
      assert names[3][0] == 'W';
      assert names[4][0] == 'T' && names[4][1] == 'h';
      assert names[5][0] == 'F';
      assert names[6][0] == 'S' && names[6][1] == 'a';
    }
    assert forall i :: 0 <= i < 7 ==> names[i] != "Unknown" by {
      assert "Unknown"[0] == 'U';
      assert forall i :: 0 <= i < 7 ==> names[i][0] != 'U';
    }
    if 0 <= day < 7 {
      assert IsName(r)(names[day]);
      var i := DayIndex(r).value;
      assert names[i] == r;
    } else {
      assert forall j :: 0 <= j < 7 ==> !IsName(r)(names[j]);
    }
  }
}

=== FILE: connection.dfy ===
/**
 * Two helpers of the database connection code
 * (backend/go/db/appt_booking/connection.go). The first is the password
 * masking applied to the connection URL before it is logged. The second is
 * the duplicate-key test used while seeding. Go strings are modelled as
 * sequences of characters; every character the URL builder writes is ASCII.
 */
module Connection {
  import opened Wrappers

  /** The connection URL, laid out as the target database URL is formatted. */
  function BuildUrl(user: string, password: string, host: string, port: string, db: string, sslMode: string): string
  {
    "postgres://" + user + ":" + password + "@" + UrlTail(host, port, db, sslMode)
  }

  /** Everything after the '@' of the connection URL. */
  function UrlTail(host: string, port: string, db: string, sslMode: string): string
  {
    host + ":" + port + "/" + db + "?sslmode=" + sslMode
  }

  /** The first index at or after `from` that holds c. */
  function FirstChar(s: string, from: nat, c: char): (r: Option<nat>)
    ensures r.Some? ==> from <= r.value < |s| && s[r.value] == c
    ensures r.Some? ==> forall k :: from <= k < r.value ==> s[k] != c
    ensures r.None? <==> forall k :: from <= k < |s| ==> s[k] != c
    decreases |s| - from
  {
    if from >= |s| then None
    else if s[from] == c then Some(from)
    else FirstChar(s, from + 1, c)
  }

  /** FirstChar finds k when k holds c and nothing between `from` and k does. */
  lemma FirstCharAt(s: string, from: nat, c: char, k: nat)
    requires from <= k < |s| && s[k] == c
    requires forall m :: from <= m < k ==> s[m] != c
    ensures FirstChar(s, from, c) == Some(k)
  {
  }

  /** Index i is a ':' that is followed by a character other than '/'. */
  predicate QualifyingColon(s: string, i: nat)
  {
    i + 1 < |s| && s[i] == ':' && s[i + 1] != '/'
  }

  /** The first qualifying ':' at or after `from`. */
  function FirstQualifyingColon(s: string, from: nat): (r: Option<nat>)
    ensures r.Some? ==> from <= r.value < |s| && QualifyingColon(s, r.value)
    ensures r.Some? ==> forall k :: from <= k < r.value ==> !QualifyingColon(s, k)
    ensures r.None? <==> forall k :: from <= k < |s| ==> !QualifyingColon(s, k)
    decreases |s| - from
  {
    if from >= |s| then None
    else if QualifyingColon(s, from) then Some(from)
    else FirstQualifyingColon(s, from + 1)
  }

  /**
   * What maskPassword returns: the text between the first qualifying ':'
   * and the first '@' after it becomes "****"; without such a ':' or '@'
   * the URL is returned as it is.
   */
  function MaskedUrl(url: string): string
  {
    match FirstQualifyingColon(url, 0)
    case None => url
    case Some(i) =>
      match FirstChar(url, i + 1, '@')
      case None => url
      case Some(j) => url[..i + 1] + "****" + url[j..]
  }

  /** maskPassword: the scan for the ':' and, inside it, the scan for the '@'. */
  method MaskPassword(url: string) returns (masked: string)
    ensures masked == MaskedUrl(url)
  {
    var i := 0;
    while i < |url|
      invariant 0 <= i <= |url|
      invariant forall k :: 0 <= k < i ==> !QualifyingColon(url, k)
    {
      if url[i] == ':' && i + 1 < |url| && url[i + 1] != '/' {
        assert QualifyingColon(url, i);
        assert FirstQualifyingColon(url, 0) == Some(i);
        var j := i + 1;
        while j < |url|
          invariant i + 1 <= j <= |url|
          invariant forall k :: i + 1 <= k < j ==> url[k] != '@'
        {
          if url[j] == '@' {
            assert FirstChar(url, i + 1, '@') == Some(j);
            return url[..i + 1] + "****" + url[j..];
          }
          j := j + 1;
        }
        return url;
      }
      i := i + 1;
    }
    return url;
  }

  /** The masking replaces exactly the text between the ':' and the '@'. */
  lemma MaskReplacesBetween(url: string, i: nat, j: nat)
    requires FirstQualifyingColon(url, 0) == Some(i)
    requires FirstChar(url, i + 1, '@') == Some(j)
    ensures MaskedUrl(url) == url[..i + 1] + "****" + url[j..]
    ensures |MaskedUrl(url)| == |url| - (j - i - 1) + 4
    ensures MaskedUrl(url)[i + 5] == '@'
  {
  }

  /** Without a qualifying ':', or without an '@' after it, nothing is masked. */
  lemma MaskUnchanged(url: string)
    requires FirstQualifyingColon(url, 0).None?
          || FirstChar(url, FirstQualifyingColon(url, 0).value + 1, '@').None?
    ensures MaskedUrl(url) == url
  {
  }

  /** The positions of the fixed characters of a connection URL. */
  lemma UrlLayout(user: string, password: string, host: string, port: string, db: string, sslMode: string)
    ensures var url := BuildUrl(user, password, host, port, db, sslMode);
      && var c := 11 + |user|;
      && var at := c + 1 + |password|;
      && |url| == at + 1 + |UrlTail(host, port, db, sslMode)|
      && url[..11] == "postgres://"
      && url[11..c] == user
      && url[c] == ':'
      && url[c + 1..at] == password
      && url[at] == '@'
      && url[at + 1..] == UrlTail(host, port, db, sslMode)
  {
    var url := BuildUrl(user, password, host, port, db, sslMode);
    var tail := UrlTail(host, port, db, sslMode);
    var c := 11 + |user|;
    var at := c + 1 + |password|;
    assert url == "postgres://" + user + ":" + password + "@" + tail;
    assert url[..11] == "postgres://";
    assert url[11..c] == user;
    assert url[c + 1..at] == password;
    assert url[at + 1..] == tail;
  }

  /** The first '@' after the colon of "user:password" is the one that ends an '@'-free password. */
  lemma PasswordEndsAtAt(user: string, password: string, host: string, port: string, db: string, sslMode: string)
    requires '@' !in password
    ensures FirstChar(BuildUrl(user, password, host, port, db, sslMode), 12 + |user|, '@')
         == Some(12 + |user| + |password|)
  {
    var url := BuildUrl(user, password, host, port, db, sslMode);
    var c := 11 + |user|;
    var at := c + 1 + |password|;
    UrlLayout(user, password, host, port, db, sslMode);
    assert url[c + 1..at] == password;
    assert forall k :: c + 1 <= k < at ==> url[k] != '@' by {
      forall k | c + 1 <= k < at ensures url[k] != '@' {
        assert url[k] == url[c + 1..at][k - c - 1] == password[k - c - 1];
      }
    }
    assert url[at] == '@';
    FirstCharAt(url, c + 1, '@', at);
  }

  /** Cutting out the password and putting "****" in its place gives the URL built with "****". */
  lemma SplicedUrl(user: string, password: string, host: string, port: string, db: string, sslMode: string)
    ensures var url := BuildUrl(user, password, host, port, db, sslMode);
      url[..12 + |user|] + "****" + url[12 + |user| + |password|..]
      == BuildUrl(user, "****", host, port, db, sslMode)
  {
    var url := BuildUrl(user, password, host, port, db, sslMode);
    var c := 11 + |user|;
    var at := c + 1 + |password|;
    var tail := UrlTail(host, port, db, sslMode);
    UrlLayout(user, password, host, port, db, sslMode);
    assert url[..c + 1] == url[..11] + url[11..c] + [url[c]];
    assert url[at..] == [url[at]] + url[at + 1..];
  }

  /**
   * The colon of "user:password" is the first qualifying one when the user
   * name holds no ':' and the password does not start with '/'.
   */
  lemma UserColonQualifies(user: string, password: string, host: string, port: string, db: string, sslMode: string)
    requires ':' !in user
    requires password == [] || password[0] != '/'
    ensures FirstQualifyingColon(BuildUrl(user, password, host, port, db, sslMode), 0) == Some(11 + |user|)
  {
    var url := BuildUrl(user, password, host, port, db, sslMode);
    var c := 11 + |user|;
    UrlLayout(user, password, host, port, db, sslMode);
    assert QualifyingColon(url, c) by {
      if password == [] {
        assert url[c + 1] == '@';
      } else {
        assert url[c + 1] == url[c + 1..c + 1 + |password|][0] == password[0];
      }
    }
    forall k | 0 <= k < c ensures !QualifyingColon(url, k) {
      if k < 11 {
        assert url[k] == url[..11][k] == "postgres://"[k];
        if k == 8 {
          assert url[9] == url[..11][9] == '/';
        }
      } else {
        assert url[k] == url[11..c][k - 11] == user[k - 11];
      }
    }
  }

  /**
   * For a connection URL with a ':'-free user name and an '@'-free password
   * that does not start with '/', only the password becomes "****".
   */
  lemma MaskHidesPassword(user: string, password: string, host: string, port: string, db: string, sslMode: string)
    requires ':' !in user && '@' !in password
    requires password == [] || password[0] != '/'
    ensures MaskedUrl(BuildUrl(user, password, host, port, db, sslMode))
         == BuildUrl(user, "****", host, port, db, sslMode)
  {
    var url := BuildUrl(user, password, host, port, db, sslMode);
    UserColonQualifies(user, password, host, port, db, sslMode);
    PasswordEndsAtAt(user, password, host, port, db, sslMode);
    MaskedBetween(url, 11 + |user|, 12 + |user| + |password|);
    SplicedUrl(user, password, host, port, db, sslMode);
  }

  /** With the ':' at i and the first '@' after it at j, the text between them becomes "****". */
  lemma MaskedBetween(url: string, i: nat, j: nat)
    requires FirstQualifyingColon(url, 0) == Some(i) && FirstChar(url, i + 1, '@') == Some(j)
    ensures i < j <= |url| && MaskedUrl(url) == url[..i + 1] + "****" + url[j..]
  {
  }

  /**
   * A password that starts with '/' is logged in clear: the ':' in front of
   * it does not qualify, the next qualifying ':' lies after the '@', and no
   * '@' follows it.
   */
  lemma MaskLeaksSlashPassword(user: string, password: string, host: string, port: string, db: string, sslMode: string)
    requires ':' !in user && ':' !in password
    requires password != [] && password[0] == '/'
    requires '@' !in host && '@' !in port && '@' !in db && '@' !in sslMode
    ensures MaskedUrl(BuildUrl(user, password, host, port, db, sslMode))
         == BuildUrl(user, password, host, port, db, sslMode)
  {
    var url := BuildUrl(user, password, host, port, db, sslMode);
    var c := 11 + |user|;
    var at := c + 1 + |password|;
    var tail := UrlTail(host, port, db, sslMode);
    assert '@' !in tail;
    UrlLayout(user, password, host, port, db, sslMode);
    forall k | 0 <= k <= at ensures !QualifyingColon(url, k) {
      if k < 11 {
        assert url[k] == url[..11][k] == "postgres://"[k];
        if k == 8 {
          assert url[9] == url[..11][9] == '/';
        }
      } else if k < c {
        assert url[k] == url[11..c][k - 11] == user[k - 11];
      } else if k == c {
        assert url[c + 1] == url[c + 1..at][0] == password[0];
      } else if k < at {
        assert url[k] == url[c + 1..at][k - c - 1] == password[k - c - 1];
      }
    }
    match FirstQualifyingColon(url, 0)
    case None =>
    case Some(i) =>
      assert i > at;
      forall k | i + 1 <= k < |url| ensures url[k] != '@' {
        assert url[k] == url[at + 1..][k - at - 1] == tail[k - at - 1];
      }
  }

  /** One such URL: "postgres://u:/secret@h:5432/d?sslmode=disable" is logged unmasked. */
  lemma MaskLeaksExample()
    ensures MaskedUrl(BuildUrl("u", "/secret", "h", "5432", "d", "disable"))
         == BuildUrl("u", "/secret", "h", "5432", "d", "disable")
  {
    MaskLeaksSlashPassword("u", "/secret", "h", "5432", "d", "disable");
  }

  /**
   * The evidently intended masking: the user information starts after the
   * "//" that ends the scheme, and the password runs from the first ':'
   * there to the first '@' after it, whatever its first character.
   */
  function AuthorityStart(url: string): nat
  {
    match FirstChar(url, 0, '/')
    case None => 0
    case Some(k) => k + 2
  }

  function MaskedUrlFixed(url: string): string
  {
    match FirstChar(url, AuthorityStart(url), ':')
    case None => url
    case Some(i) =>
      match FirstChar(url, i + 1, '@')
      case None => url
      case Some(j) => url[..i + 1] + "****" + url[j..]
  }

  /** With the corrected masking every '@'-free password is hidden, including one that starts with '/'. */
  lemma MaskFixedHidesPassword(user: string, password: string, host: string, port: string, db: string, sslMode: string)
    requires ':' !in user && '@' !in password
    ensures MaskedUrlFixed(BuildUrl(user, password, host, port, db, sslMode))
         == BuildUrl(user, "****", host, port, db, sslMode)
  {
    SchemeEndsAtSlashes(user, password, host, port, db, sslMode);
    PasswordEndsAtAt(user, password, host, port, db, sslMode);
    SplicedUrl(user, password, host, port, db, sslMode);
  }

  /** In a connection URL the authority starts at index 11 and its first ':' ends a ':'-free user name. */
  lemma SchemeEndsAtSlashes(user: string, password: string, host: string, port: string, db: string, sslMode: string)
    requires ':' !in user
    ensures var url := BuildUrl(user, password, host, port, db, sslMode);
      AuthorityStart(url) == 11 && FirstChar(url, 11, ':') == Some(11 + |user|)
  {
    var url := BuildUrl(user, password, host, port, db, sslMode);
    var c := 11 + |user|;
    UrlLayout(user, password, host, port, db, sslMode);
    assert FirstChar(url, 0, '/') == Some(9) by {
      assert url[9] == url[..11][9] == '/';
      forall k | 0 <= k < 9 ensures url[k] != '/' {
        assert url[k] == url[..11][k] == "postgres://"[k];
      }
    }
    forall k | 11 <= k < c ensures url[k] != ':' {
      assert url[k] == url[11..c][k - 11] == user[k - 11];
    }
  }

  /** The prefix isDuplicateKeyError looks for. */
  const DuplicateKeyPrefix: string := "ERROR: duplicate key value"

  /**
   * isDuplicateKeyError as written: None stands for a nil error. The
   * message is sliced to 23 characters, which panics on a shorter one.
   */
  function IsDuplicateKeyError(err: Option<string>): (r: bool)
    requires err.Some? ==> |err.value| >= 23
    ensures err.None? ==> !r
  {
    if err.None? then false
    else err.value[0..23] == DuplicateKeyPrefix
  }

  /** A 23-character slice never equals the 26-character prefix, so no error is ever reported as a duplicate. */
  lemma DuplicateKeyNeverDetected(msg: string)
    requires |msg| >= 23
    ensures !IsDuplicateKeyError(Some(msg))
  {
    assert |msg[0..23]| == 23 != |DuplicateKeyPrefix|;
  }

  /** The evidently intended test: the message starts with the whole prefix; a shorter message is no match. */
  function IsDuplicateKeyErrorFixed(err: Option<string>): (r: bool)
  {
    match err
    case None => false
    case Some(msg) => |msg| >= |DuplicateKeyPrefix| && msg[..|DuplicateKeyPrefix|] == DuplicateKeyPrefix
  }

  /** The corrected test holds exactly for the errors whose message extends the prefix. */
  lemma DuplicateKeyFixedExactly(err: Option<string>)
    ensures IsDuplicateKeyErrorFixed(err)
        <==> exists rest: string :: err == Some(DuplicateKeyPrefix + rest)
  {
    if IsDuplicateKeyErrorFixed(err) {
      var msg := err.value;
      var rest := msg[|DuplicateKeyPrefix|..];
      assert msg == DuplicateKeyPrefix + rest;
    }
    if exists rest: string :: err == Some(DuplicateKeyPrefix + rest) {
      var rest: string :| err == Some(DuplicateKeyPrefix + rest);
      assert err.value[..|DuplicateKeyPrefix|] == DuplicateKeyPrefix;
    }
  }
}

=== FILE: dashboard_component.dfy ===
/**
 * The admin dashboard of the Angular client
 * (frontend/angular/src/app/appt-booking/features/dashboard/dashboard.component.ts):
 * the revenue and per-staff counts it folds over the appointment list, the
 * name lookups and status badges of its table, and the local list updates
 * after a cancel or a complete.
 */
module Dashboard {
  import opened Wrappers
  import opened Seqs
  import opened Models
  import opened ClientApi

  predicate IsCompleted(a: AppointmentView) { a.appointment.status == Completed }

  function OfStaff(staffId: int): AppointmentView -> bool
  {
    (a: AppointmentView) => a.appointment.staffId == staffId
  }

  /** The revenue fold: the prices of the completed appointments, added in list order. */
  function Revenue(appts: seq<AppointmentView>): int
    decreases |appts|
  {
    if appts == [] then 0
    else
      var last := appts[|appts| - 1];
      Revenue(appts[..|appts| - 1]) + (if IsCompleted(last) then last.priceCents else 0)
  }

  function SumPrices(appts: seq<AppointmentView>): int
    decreases |appts|
  {
    if appts == [] then 0 else SumPrices(appts[..|appts| - 1]) + appts[|appts| - 1].priceCents
  }

  /** The count fold: appointmentsByStaff after the loop, one more for each appointment of a staff member. */
  function StaffCounts(appts: seq<AppointmentView>): map<int, int>
    decreases |appts|
  {
    if appts == [] then map[]
    else
      var counts := StaffCounts(appts[..|appts| - 1]);
      var id := appts[|appts| - 1].appointment.staffId;
      counts[id := (if id in counts then counts[id] else 0) + 1]
  }

  /** The revenue is the sum of the prices of exactly the completed appointments. */
  lemma {:induction false} RevenueIsCompletedSum(appts: seq<AppointmentView>)
    ensures Revenue(appts) == SumPrices(Filter(appts, IsCompleted))
    decreases |appts|
  {
    if appts != [] {
      var init := appts[..|appts| - 1];
      var last := appts[|appts| - 1];
      RevenueIsCompletedSum(init);
      assert appts == init + [last];
      FilterSnoc(init, last, IsCompleted);
      var f := Filter(init, IsCompleted);
      if IsCompleted(last) {
        assert (f + [last])[..|f + [last]| - 1] == f;
      } else {
        assert Filter(appts, IsCompleted) == f;
      }
    }
  }

  /**
   * A staff member has a count exactly when some appointment is theirs, and
   * the count is the number of their appointments, whatever the status.
   */
  lemma {:induction false} StaffCountsExactly(appts: seq<AppointmentView>, staffId: int)
    ensures staffId in StaffCounts(appts) <==> exists a :: a in appts && a.appointment.staffId == staffId
    ensures staffId in StaffCounts(appts) ==> StaffCounts(appts)[staffId] == |Filter(appts, OfStaff(staffId))|
    decreases |appts|
  {
    if appts != [] {
      var init := appts[..|appts| - 1];
      var last := appts[|appts| - 1];
      StaffCountsExactly(init, staffId);
      assert appts == init + [last];
      FilterSnoc(init, last, OfStaff(staffId));
      if last.appointment.staffId != staffId {
        assert forall a :: a in appts && a.appointment.staffId == staffId ==> a in init;
      }
      if staffId !in StaffCounts(init) {
        FilterNone(init, OfStaff(staffId));
      }
    }
  }

  /** The distinct staff ids of the list, in order of first appearance. */
  function StaffOrder(appts: seq<AppointmentView>): (r: seq<int>)
    ensures forall i, j :: 0 <= i < j < |r| ==> r[i] != r[j]
    ensures forall id :: id in r <==> id in StaffCounts(appts)
    decreases |appts|
  {
    if appts == [] then []
    else
      var order := StaffOrder(appts[..|appts| - 1]);
      var id := appts[|appts| - 1].appointment.staffId;
      if id in order then order else order + [id]
  }

  function SumOver(keys: seq<int>, m: map<int, int>): int
    requires forall i :: 0 <= i < |keys| ==> keys[i] in m
    decreases |keys|
  {
    if keys == [] then 0
    else m[keys[0]] + SumOver(keys[1..], m)
  }

  lemma {:induction false} SumOverSnoc(keys: seq<int>, k: int, m: map<int, int>)
    requires forall i :: 0 <= i < |keys| ==> keys[i] in m
    requires k in m
    ensures SumOver(keys + [k], m) == SumOver(keys, m) + m[k]
    decreases |keys|
  {
    if keys == [] {
      assert [k][1..] == [];
    } else {
      assert (keys + [k])[1..] == keys[1..] + [k];
      SumOverSnoc(keys[1..], k, m);
    }
  }

  lemma {:induction false} SumOverAgree(keys: seq<int>, m1: map<int, int>, m2: map<int, int>)
    requires forall i :: 0 <= i < |keys| ==> keys[i] in m1 && keys[i] in m2 && m1[keys[i]] == m2[keys[i]]
    ensures SumOver(keys, m1) == SumOver(keys, m2)
    decreases |keys|
  {
    if keys != [] {
      SumOverAgree(keys[1..], m1, m2);
    }
  }

  /** Adding one to a key that occurs once among distinct keys adds one to the sum. */
  lemma {:induction false} SumOverBump(keys: seq<int>, m: map<int, int>, id: int)
    requires forall i :: 0 <= i < |keys| ==> keys[i] in m
    requires forall i, j :: 0 <= i < j < |keys| ==> keys[i] != keys[j]
    requires id in keys
    ensures SumOver(keys, m[id := m[id] + 1]) == SumOver(keys, m) + 1
    decreases |keys|
  {
    var m2 := m[id := m[id] + 1];
    var rest := keys[1..];
    if keys[0] == id {
      assert id !in rest by {
        forall j | 0 <= j < |rest| ensures rest[j] != id {
          assert rest[j] == keys[j + 1];
        }
      }
      SumOverAgree(rest, m2, m);
    } else {
      assert id in rest;
      assert forall i, j :: 0 <= i < j < |rest| ==> rest[i] != rest[j] by {
        forall i, j | 0 <= i < j < |rest| ensures rest[i] != rest[j] {
          assert rest[i] == keys[i + 1] && rest[j] == keys[j + 1];
        }
      }
      SumOverBump(rest, m, id);
    }
  }

  /** The per-staff counts add up to the length of the list. */
  lemma {:induction false} StaffCountsSumToLength(appts: seq<AppointmentView>)
    ensures SumOver(StaffOrder(appts), StaffCounts(appts)) == |appts|
    decreases |appts|
  {
    if appts != [] {
      var init := appts[..|appts| - 1];
      var id := appts[|appts| - 1].appointment.staffId;
      var order := StaffOrder(init);
      var counts := StaffCounts(init);
      StaffCountsSumToLength(init);
      if id in order {
        SumOverBump(order, counts, id);
      } else {
        var counts2 := StaffCounts(appts);
        SumOverAgree(order, counts2, counts);
        SumOverSnoc(order, id, counts2);
      }
    }
  }

  /** Completing one appointment that was not completed adds its price to the revenue. */
  lemma {:induction false} CompleteAddsRevenue(appts: seq<AppointmentView>, i: nat)
    requires i < |appts|
    ensures var done := appts[i].(appointment := appts[i].appointment.(status := Completed));
      Revenue(appts[i := done]) == Revenue(appts) + (if IsCompleted(appts[i]) then 0 else appts[i].priceCents)
    decreases |appts|
  {
    var done := appts[i].(appointment := appts[i].appointment.(status := Completed));
    var after := appts[i := done];
    var n := |appts| - 1;
    if i < n {
      CompleteAddsRevenue(appts[..n], i);
      assert after[..n] == appts[..n][i := done];
    } else {
      assert after[..n] == appts[..n];
    }
  }

  /** Completing an appointment keeps every staff member's count. */
  lemma {:induction false} CompleteKeepsCounts(appts: seq<AppointmentView>, i: nat)
    requires i < |appts|
    ensures var done := appts[i].(appointment := appts[i].appointment.(status := Completed));
      StaffCounts(appts[i := done]) == StaffCounts(appts)
    decreases |appts|
  {
    var done := appts[i].(appointment := appts[i].appointment.(status := Completed));
    var after := appts[i := done];
    var n := |appts| - 1;
    if i < n {
      CompleteKeepsCounts(appts[..n], i);
      assert after[..n] == appts[..n][i := done];
    } else {
      assert after[..n] == appts[..n];
    }
  }

  /** getStatusBadgeClass: "badge-" and the status for the three statuses, '' for anything else. */
  function StatusBadgeClass(status: string): (r: string)
    ensures r == (if KnownStatus(status) then "badge-" + status else "")
  {
    match status
    case "confirmed" => "badge-confirmed"
    case "cancelled" => "badge-cancelled"
    case "completed" => "badge-completed"
    case _ => ""
  }

  /** Each status has its own badge, and an unknown status has none. */
  lemma StatusBadgeDistinguishes(a: string, b: string)
    requires StatusBadgeClass(a) == StatusBadgeClass(b)
    ensures KnownStatus(a) ==> a == b
  {
    if KnownStatus(a) {
      var s := StatusBadgeClass(a);
      assert s == "badge-" + a;
      assert |s| > 0;
      assert a == s[6..] && b == StatusBadgeClass(b)[6..];
    }
  }

  function StaffWithId(staffId: int): Staff -> bool { (s: Staff) => s.id == staffId }

  function ServiceWithId(serviceId: int): Service -> bool { (s: Service) => s.id == serviceId }

  const CancelPrompt: string := "Cancel this appointment?"

  class DashboardComponent {
    var appointments: seq<AppointmentView>
    var services: seq<Service>
    var staff: seq<Staff>
    var loading: bool
    var error: Option<string>
    var totalRevenue: int
    var appointmentsByStaff: map<int, int>

    constructor()
      ensures appointments == [] && services == [] && staff == []
      ensures !loading && error.None?
      ensures totalRevenue == 0 && appointmentsByStaff == map[]
    {
      appointments := [];
      services := [];
      staff := [];
      loading := false;
      error := None;
      totalRevenue := 0;
      appointmentsByStaff := map[];
    }

    /**
     * calculateStats: both stats are reset and then folded over the list,
     * so they depend on the list alone and a second call changes nothing.
     */
    method CalculateStats()
      modifies this
      ensures totalRevenue == Revenue(appointments)
      ensures appointmentsByStaff == StaffCounts(appointments)
      ensures appointments == old(appointments) && services == old(services) && staff == old(staff)
      ensures loading == old(loading) && error == old(error)
    {
      var appts := appointments;
      totalRevenue := 0;
      appointmentsByStaff := map[];
      for i := 0 to |appts|
        invariant appointments == appts && services == old(services) && staff == old(staff)
        invariant loading == old(loading) && error == old(error)
        invariant totalRevenue == Revenue(appts[..i])
        invariant appointmentsByStaff == StaffCounts(appts[..i])
      {
        var appt := appts[i];
        assert appts[..i + 1][..i] == appts[..i];
        if appt.appointment.status == Completed {
          totalRevenue := totalRevenue + appt.priceCents;
        }
        var currentCount := if appt.appointment.staffId in appointmentsByStaff
          then appointmentsByStaff[appt.appointment.staffId] else 0;
        appointmentsByStaff := appointmentsByStaff[appt.appointment.staffId := currentCount + 1];
      }
      assert appts[..|appts|] == appts;
    }

    /** getStaffName: the name of the first staff member with that id, 'Unknown' without one. */
    function GetStaffName(staffId: int): (r: string)
      reads this
      ensures (forall s :: s in staff ==> s.id != staffId) ==> r == "Unknown"
      ensures (exists s :: s in staff && s.id == staffId) ==>
        exists i :: 0 <= i < |staff| && staff[i].id == staffId && r == staff[i].name &&
                    forall j :: 0 <= j < i ==> staff[j].id != staffId
    {
      match Find(staff, StaffWithId(staffId))
      case Some(s) => s.name
      case None => "Unknown"
    }

    /** getServiceName: the name of the first service with that id, 'Unknown' without one. */
    function GetServiceName(serviceId: int): (r: string)
      reads this
      ensures (forall s :: s in services ==> s.id != serviceId) ==> r == "Unknown"
      ensures (exists s :: s in services && s.id == serviceId) ==>
        exists i :: 0 <= i < |services| && services[i].id == serviceId && r == services[i].name &&
                    forall j :: 0 <= j < i ==> services[j].id != serviceId
    {
      match Find(services, ServiceWithId(serviceId))
      case Some(s) => s.name
      case None => "Unknown"
    }

    /**
     * cancelAppointment: confirmed is the answer to the confirm() prompt and
     * succeeded says whether the cancel request succeeded. On success every
     * entry with that id leaves the list and the stats are recomputed;
     * otherwise nothing changes.
     */
    method CancelAppointment(appointmentId: int, confirmed: bool, succeeded: bool)
      modifies this
      ensures confirmed && succeeded ==>
        && appointments == Filter(old(appointments), NotId(appointmentId))
        && totalRevenue == Revenue(appointments)
        && appointmentsByStaff == StaffCounts(appointments)
      ensures !(confirmed && succeeded) ==>
        && appointments == old(appointments)
        && totalRevenue == old(totalRevenue)
        && appointmentsByStaff == old(appointmentsByStaff)
      ensures services == old(services) && staff == old(staff)
      ensures loading == old(loading) && error == old(error)
    {
      if !confirmed {
        return;
      }
      if succeeded {
        appointments := Filter(appointments, NotId(appointmentId));
        CalculateStats();
      }
    }

    /**
     * completeAppointment: on success the first entry with that id is
     * marked 'completed' in place and the stats are recomputed; without
     * such an entry, or on failure, nothing changes.
     */
    method CompleteAppointment(appointmentId: int, succeeded: bool)
      modifies this
      ensures var found := FirstIndex(old(appointments), HasId(appointmentId));
        if succeeded && found.Some? then
          var i := found.value;
          && appointments == old(appointments)[i := old(appointments)[i].(appointment := old(appointments)[i].appointment.(status := Completed))]
          && totalRevenue == Revenue(appointments)
          && appointmentsByStaff == StaffCounts(appointments)
        else
          && appointments == old(appointments)
          && totalRevenue == old(totalRevenue)
          && appointmentsByStaff == old(appointmentsByStaff)
      ensures services == old(services) && staff == old(staff)
      ensures loading == old(loading) && error == old(error)
    {
      if !succeeded {
        return;
      }
      var found := FirstIndex(appointments, HasId(appointmentId));
      if found.Some? {
        var i := found.value;
        var appt := appointments[i];
        appointments := appointments[i := appt.(appointment := appt.appointment.(status := Completed))];
        CalculateStats();
      }
    }
  }
}

=== FILE: engine_laws.dfy ===
/**
 * What the booking engine's decisions guarantee: every write it lets through
 * keeps the tables consistent, each check accepts exactly what it should,
 * and the appointment lifecycle moves only along the allowed transitions.
 */
module EngineLaws {
  import opened Wrappers
  import opened Models
  import opened Tables
  import opened Seqs
  import opened AppointmentStore
  import opened BookingRules
  import opened EngineState

  // ---------- Lookups ----------

  lemma ServiceFound(services: seq<Service>, id: int)
    ensures ServiceById(services, id).Some? <==> HasService(services, id)
    ensures ServiceById(services, id).Some? ==>
      ServiceById(services, id).value in services && ServiceById(services, id).value.id == id
  {
  }

  lemma StaffFound(staff: seq<Staff>, id: int)
    ensures StaffById(staff, id).Some? <==> HasStaff(staff, id)
    ensures StaffById(staff, id).Some? ==> StaffById(staff, id).value in staff && StaffById(staff, id).value.id == id
  {
  }

  lemma EmailFound(staff: seq<Staff>, email: string)
    ensures StaffByEmail(staff, email).None? <==> forall s :: s in staff ==> s.email != email
    ensures StaffByEmail(staff, email).Some? ==>
      StaffByEmail(staff, email).value in staff && StaffByEmail(staff, email).value.email == email
  {
  }

  /** Under a primary key, the lookup finds the one row with the id. */
  lemma AppointmentFound(rows: seq<Appointment>, id: int)
    requires DistinctKeys(rows, AppointmentKey)
    ensures AppointmentById(rows, id).Some? <==> exists a :: a in rows && a.id == id
    ensures forall a :: a in rows && a.id == id ==> AppointmentById(rows, id) == Some(a)
  {
    forall a | a in rows && a.id == id ensures AppointmentById(rows, id) == Some(a) {
      var r := AppointmentById(rows, id);
      var i :| 0 <= i < |rows| && rows[i] == r.value && rows[i].id == id;
      var k :| 0 <= k < |rows| && rows[k] == a;
      assert AppointmentKey(rows[i]) == AppointmentKey(rows[k]);
    }
  }

  /** The service list of a staff member holds a service exactly when the pair is stored and the service exists. */
  lemma OfferedExactly(db: Db, staffId: int, serviceId: int)
    ensures (exists s :: s in ServicesForStaff(db.staffServices, db.services, staffId) && s.id == serviceId)
        <==> StaffService(staffId, serviceId) in db.staffServices && HasService(db.services, serviceId)
  {
    var list := ServicesForStaff(db.staffServices, db.services, staffId);
    if exists s :: s in list && s.id == serviceId {
      var s :| s in list && s.id == serviceId;
      assert s in db.services;
    }
  }

  // ---------- Keeping the tables consistent ----------

  /** Deleting with the cascades keeps the SERIAL keys valid. */
  lemma WithoutServiceKeys(db: Db, id: int, nextId: int)
    requires KeysValid(db.services, ServiceKey, nextId)
    ensures KeysValid(WithoutService(db, id).services, ServiceKey, nextId)
  {
    FilterKeepsKeys(db.services, ServiceKey, nextId, (s: Service) => s.id != id);
  }

  lemma WithoutStaffKeys(db: Db, id: int, nextStaffId: int, nextScheduleId: int)
    requires KeysValid(db.staff, StaffKey, nextStaffId) && KeysValid(db.schedules, ScheduleKey, nextScheduleId)
    ensures KeysValid(WithoutStaff(db, id).staff, StaffKey, nextStaffId)
    ensures KeysValid(WithoutStaff(db, id).schedules, ScheduleKey, nextScheduleId)
  {
    FilterKeepsKeys(db.staff, StaffKey, nextStaffId, (s: Staff) => s.id != id);
    FilterKeepsKeys(db.schedules, ScheduleKey, nextScheduleId, (s: Schedule) => s.staffId != id);
  }

  /** A row with an id no row has keeps the key distinct. */
  lemma AppendDistinct<T>(rows: seq<T>, key: T -> int, x: T)
    requires DistinctKeys(rows, key)
    requires forall i :: 0 <= i < |rows| ==> key(rows[i]) != key(x)
    ensures DistinctKeys(rows + [x], key)
  {
  }

  lemma CreateServiceKeeps(db: Db, x: Service)
    requires Consistent(db)
    requires ServiceFieldsCheck(x.name, x.durationMin, x.priceCents) == None
    requires forall s :: s in db.services ==> s.id != x.id
    ensures Consistent(db.(services := db.services + [x]))
  {
    var services' := db.services + [x];
    RowsKeptKeepKeys(db.services, services', ServiceKey);
    AppendDistinct(db.services, ServiceKey, x);
  }

  lemma UpdateServiceKeeps(db: Db, id: int, x: Service)
    requires Consistent(db)
    requires ServiceFieldsCheck(x.name, x.durationMin, x.priceCents) == None
    requires x.id == id
    ensures Consistent(db.(services := ReplaceById(db.services, ServiceKey, id, x)))
  {
    ReplaceByIdKeepsKeys(db.services, ServiceKey, 0, id, x);
    var services' := ReplaceById(db.services, ServiceKey, id, x);
    forall s | s in services' ensures s.durationMin > 0 && s.priceCents >= 0 {
      var i :| 0 <= i < |services'| && services'[i] == s;
      assert s == x || s == db.services[i];
    }
  }

  /** What DeleteService lets through keeps every reference valid: the join rows go with the service. */
  lemma DeleteServiceKeeps(db: Db, id: int)
    requires Consistent(db)
    requires DeleteServiceCheck(db, id) == None
    ensures Consistent(WithoutService(db, id))
  {
    var db' := WithoutService(db, id);
    FilterKeepsDistinct(db.services, ServiceKey, (s: Service) => s.id != id);
    forall p ensures multiset(db'.staffServices)[p] <= 1 {
      FilterCount(db.staffServices, (p: StaffService) => p.serviceId != id, p);
    }
    forall k | HasService(db.services, k) && k != id ensures HasService(db'.services, k) {
      var s :| s in db.services && s.id == k;
      assert s in db'.services;
    }
  }

  lemma CreateStaffKeeps(db: Db, x: Staff)
    requires Consistent(db)
    requires CreateStaffCheck(db.staff, x.name, x.email, x.role) == None
    requires forall s :: s in db.staff ==> s.id != x.id
    ensures Consistent(db.(staff := db.staff + [x]))
  {
    var staff' := db.staff + [x];
    EmailFound(db.staff, x.email);
    RowsKeptKeepKeys(db.staff, staff', StaffKey);
    AppendDistinct(db.staff, StaffKey, x);
  }

  /** UpdateStaff keeps emails unique: the first row with the email is the edited one, so no other has it. */
  lemma UpdateStaffKeeps(db: Db, id: int, x: Staff)
    requires Consistent(db)
    requires UpdateStaffCheck(db.staff, id, x.name, x.email, x.role) == None
    requires x.id == id
    ensures Consistent(db.(staff := ReplaceById(db.staff, StaffKey, id, x)))
  {
    var staff' := ReplaceById(db.staff, StaffKey, id, x);
    ReplaceByIdKeepsKeys(db.staff, StaffKey, 0, id, x);
    EmailFound(db.staff, x.email);
    assert forall s :: s in staff' ==> s == x || (s in db.staff && s.id != id) by {
      forall s | s in staff' ensures s == x || (s in db.staff && s.id != id) {
        var i :| 0 <= i < |staff'| && staff'[i] == s;
      }
    }
    assert forall s :: s in db.staff && s.id != id ==> s.email != x.email;
  }

  /** DeleteStaff keeps references valid: the staff member's pairs and schedules go too, and no appointment names them. */
  lemma DeleteStaffKeeps(db: Db, id: int)
    requires Consistent(db)
    requires DeleteStaffCheck(db, id) == None
    ensures Consistent(WithoutStaff(db, id))
  {
    var db' := WithoutStaff(db, id);
    FilterKeepsDistinct(db.staff, StaffKey, (s: Staff) => s.id != id);
    FilterKeepsDistinct(db.schedules, ScheduleKey, (s: Schedule) => s.staffId != id);
    forall p ensures multiset(db'.staffServices)[p] <= 1 {
      FilterCount(db.staffServices, (p: StaffService) => p.staffId != id, p);
    }
    forall k | HasStaff(db.staff, k) && k != id ensures HasStaff(db'.staff, k) {
      var s :| s in db.staff && s.id == k;
      assert s in db'.staff;
    }
  }

  /** AssignServiceToStaff never inserts a pair that is already stored, so the primary key holds. */
  lemma AssignKeeps(db: Db, staffId: int, serviceId: int)
    requires Consistent(db)
    requires AssignCheck(db, staffId, serviceId) == None
    ensures StaffService(staffId, serviceId) !in db.staffServices
    ensures Consistent(db.(staffServices := db.staffServices + [StaffService(staffId, serviceId)]))
  {
    var p := StaffService(staffId, serviceId);
    StaffFound(db.staff, staffId);
    ServiceFound(db.services, serviceId);
    OfferedExactly(db, staffId, serviceId);
    var pairs' := db.staffServices + [p];
    assert multiset(pairs') == multiset(db.staffServices) + multiset{p};
  }

  lemma UnassignKeeps(db: Db, staffId: int, serviceId: int)
    requires Consistent(db)
    ensures Consistent(db.(staffServices :=
      Filter(db.staffServices, (p: StaffService) => !(p.staffId == staffId && p.serviceId == serviceId))))
  {
    var keep := (p: StaffService) => !(p.staffId == staffId && p.serviceId == serviceId);
    var pairs' := Filter(db.staffServices, keep);
    forall p ensures multiset(pairs')[p] <= 1 {
      FilterCount(db.staffServices, keep, p);
    }
  }

  /** A window CreateSchedule accepts belongs to an existing staff member, on a valid day, clashes with nothing and takes no slot. */
  lemma CreateScheduleAccepted(db: Db, staffId: int, dayOfWeek: int, startTime: string, endTime: string)
    requires CreateScheduleCheck(db, staffId, dayOfWeek, startTime, endTime) == None
    ensures ValidTimeFormat(startTime) && ValidTimeFormat(endTime)
    ensures HasStaff(db.staff, staffId) && 0 <= dayOfWeek <= 6
    ensures !Clashes(db.schedules, staffId, dayOfWeek, ParseHHMM(startTime), ParseHHMM(endTime), None)
    ensures !SlotTaken(db.schedules, staffId, dayOfWeek, ParseHHMM(startTime), ParseHHMM(endTime), None)
  {
    StaffFound(db.staff, staffId);
  }

  /** UpdateSchedule accepts only an existing window, and the edit clashes with none of the staff member's others. */
  lemma UpdateScheduleAccepted(db: Db, id: int, dayOfWeek: int, startTime: string, endTime: string)
    requires UpdateScheduleCheck(db, id, dayOfWeek, startTime, endTime) == None
    ensures ValidTimeFormat(startTime) && ValidTimeFormat(endTime) && 0 <= dayOfWeek <= 6
    ensures ScheduleById(db.schedules, id).Some?
    ensures ScheduleById(db.schedules, id).value in db.schedules && ScheduleById(db.schedules, id).value.id == id
    ensures var staffId := ScheduleById(db.schedules, id).value.staffId;
      && !Clashes(db.schedules, staffId, dayOfWeek, ParseHHMM(startTime), ParseHHMM(endTime), Some(id))
      && !SlotTaken(db.schedules, staffId, dayOfWeek, ParseHHMM(startTime), ParseHHMM(endTime), Some(id))
  {
  }

  /** A new window that clashes with none of its staff member's windows that day and takes no slot keeps the tables consistent. */
  lemma AddScheduleKeeps(db: Db, x: Schedule)
    requires Consistent(db)
    requires HasStaff(db.staff, x.staffId) && 0 <= x.dayOfWeek <= 6
    requires !Clashes(db.schedules, x.staffId, x.dayOfWeek, x.startTime, x.endTime, None)
    requires !SlotTaken(db.schedules, x.staffId, x.dayOfWeek, x.startTime, x.endTime, None)
    requires forall s :: s in db.schedules ==> s.id != x.id
    ensures Consistent(db.(schedules := db.schedules + [x]))
  {
    AppendDistinct(db.schedules, ScheduleKey, x);
  }

  /** An edited window that keeps its id and staff member and clashes with none of the others keeps the tables consistent. */
  lemma EditScheduleKeeps(db: Db, id: int, x: Schedule)
    requires Consistent(db)
    requires x.id == id && HasStaff(db.staff, x.staffId) && 0 <= x.dayOfWeek <= 6
    requires !Clashes(db.schedules, x.staffId, x.dayOfWeek, x.startTime, x.endTime, Some(id))
    requires !SlotTaken(db.schedules, x.staffId, x.dayOfWeek, x.startTime, x.endTime, Some(id))
    ensures Consistent(db.(schedules := ReplaceById(db.schedules, ScheduleKey, id, x)))
  {
    var r := ReplaceById(db.schedules, ScheduleKey, id, x);
    assert forall s :: s in r ==> s == x || (s in db.schedules && s.id != id) by {
      forall s | s in r ensures s == x || (s in db.schedules && s.id != id) {
        var i :| 0 <= i < |r| && r[i] == s;
      }
    }
    assert forall i :: 0 <= i < |r| ==> ScheduleKey(r[i]) == ScheduleKey(db.schedules[i]);
  }

  lemma DeleteScheduleKeeps(db: Db, id: int)
    requires Consistent(db)
    ensures Consistent(db.(schedules := Filter(db.schedules, (s: Schedule) => s.id != id)))
  {
    FilterKeepsDistinct(db.schedules, ScheduleKey, (s: Schedule) => s.id != id);
  }

  /**
   * BookingCheck accepts exactly the bookings whose fields are present, whose
   * staff member exists and offers the existing service, that fall in one of
   * the staff member's windows and that overlap none of their live appointments.
   */
  lemma BookingAccepted(db: Db, toLocal: int -> LocalTime, customerName: string, customerEmail: string,
                        staffId: int, serviceId: int, datetime: int)
    ensures var r := BookingCheck(db, toLocal, customerName, customerEmail, staffId, serviceId, datetime);
      r.Success? <==>
        && customerName != [] && customerEmail != [] && Contains(customerEmail, "@")
        && staffId > 0 && serviceId > 0
        && HasStaff(db.staff, staffId) && HasService(db.services, serviceId)
        && StaffService(staffId, serviceId) in db.staffServices
        && var service := ServiceById(db.services, serviceId).value;
           && WithinWorkingHours(db.schedules, staffId, toLocal(datetime), toLocal(datetime + service.durationMin))
           && !HasConflict(db.appointments, staffId, datetime, service.durationMin)
    ensures var r := BookingCheck(db, toLocal, customerName, customerEmail, staffId, serviceId, datetime);
      r.Success? ==> r.value in db.services && r.value.id == serviceId
  {
    EligibilityAccepted(db, customerName, customerEmail, staffId, serviceId);
  }

  /**
   * The field and lookup half of BookAppointment's checks passes exactly when
   * the fields are present, both rows exist and the staff member offers the
   * service; it then gives that service.
   */
  lemma EligibilityAccepted(db: Db, customerName: string, customerEmail: string, staffId: int, serviceId: int)
    ensures var r := BookingEligibility(db, customerName, customerEmail, staffId, serviceId);
      r.Success? <==>
        && customerName != [] && customerEmail != [] && Contains(customerEmail, "@")
        && staffId > 0 && serviceId > 0
        && HasStaff(db.staff, staffId) && HasService(db.services, serviceId)
        && StaffService(staffId, serviceId) in db.staffServices
    ensures var r := BookingEligibility(db, customerName, customerEmail, staffId, serviceId);
      r.Success? ==> r.value == ServiceById(db.services, serviceId).value && r.value in db.services && r.value.id == serviceId
  {
    StaffFound(db.staff, staffId);
    ServiceFound(db.services, serviceId);
    OfferedExactly(db, staffId, serviceId);
  }

  /** A confirmed appointment of an existing service and staff member that overlaps no live one of theirs keeps the tables consistent. */
  lemma AddAppointmentKeeps(db: Db, a: Appointment, service: Service)
    requires Consistent(db)
    requires HasStaff(db.staff, a.staffId) && service in db.services
    requires a.serviceId == service.id && a.durationMinutes == service.durationMin && a.status == Confirmed
    requires !HasConflict(db.appointments, a.staffId, a.appointmentDatetime, a.durationMinutes)
    requires forall b :: b in db.appointments ==> b.id != a.id
    ensures Consistent(db.(appointments := db.appointments + [a]))
  {
    AppendDistinct(db.appointments, AppointmentKey, a);
    forall b | b in db.appointments && b.staffId == a.staffId && b.status != Cancelled
      ensures !Overlaps(b, a.appointmentDatetime, a.durationMinutes)
      ensures !Overlaps(a, b.appointmentDatetime, b.durationMinutes)
    {
      assert !ConflictRow(b, a.staffId, a.appointmentDatetime, a.durationMinutes, None);
    }
  }

  /** Cancelling only turns a row cancelled, which no consistency rule forbids. */
  lemma CancelKeeps(db: Db, id: int)
    requires Consistent(db)
    ensures Consistent(db.(appointments := WithStatus(db.appointments, id, Cancelled)))
  {
    var r := WithStatus(db.appointments, id, Cancelled);
    assert forall i :: 0 <= i < |r| ==> AppointmentKey(r[i]) == AppointmentKey(db.appointments[i]);
    forall b | b in r
      ensures b in db.appointments || exists o :: o in db.appointments && b == o.(status := Cancelled)
    {
      var i :| 0 <= i < |r| && r[i] == b;
      assert db.appointments[i] in db.appointments;
    }
  }

  /** Completing a confirmed row keeps it live, with the same slot, so the booking rules still hold. */
  lemma CompleteKeeps(db: Db, id: int)
    requires Consistent(db)
    requires CompleteCheck(db.appointments, id) == None
    ensures Consistent(db.(appointments := WithStatus(db.appointments, id, Completed)))
  {
    var rows := db.appointments;
    var r := WithStatus(rows, id, Completed);
    CompletedRowsFrom(db, id);
    assert DistinctKeys(r, AppointmentKey);
    assert AppointmentsValid(r, db.staff, db.services) by {
      forall b | b in r
        ensures HasStaff(db.staff, b.staffId) && HasService(db.services, b.serviceId)
        ensures KnownStatus(b.status) && b.durationMinutes > 0
      {
        if b !in rows {
          assert b.(status := Confirmed) in rows;
        }
      }
    }
    assert NoDoubleBooking(r) by {
      forall a, b | a in r && b in r && a.id != b.id && a.staffId == b.staffId &&
                    a.status != Cancelled && b.status != Cancelled
        ensures !Overlaps(a, b.appointmentDatetime, b.durationMinutes)
      {
        var a0 := if a in rows then a else a.(status := Confirmed);
        var b0 := if b in rows then b else b.(status := Confirmed);
        assert a0 in rows && b0 in rows;
      }
    }
  }

  /** Every row after completing is a stored row, or a confirmed row now marked completed; keys stay in place. */
  lemma CompletedRowsFrom(db: Db, id: int)
    requires Consistent(db)
    requires CompleteCheck(db.appointments, id) == None
    ensures var r := WithStatus(db.appointments, id, Completed);
      forall i :: 0 <= i < |r| ==> AppointmentKey(r[i]) == AppointmentKey(db.appointments[i])
    ensures forall b :: b in WithStatus(db.appointments, id, Completed) ==>
      b in db.appointments || (b.status == Completed && b.(status := Confirmed) in db.appointments)
  {
    var r := WithStatus(db.appointments, id, Completed);
    AppointmentFound(db.appointments, id);
    forall b | b in r ensures b in db.appointments || (b.status == Completed && b.(status := Confirmed) in db.appointments)
    {
      var i :| 0 <= i < |r| && r[i] == b;
      var o := db.appointments[i];
      assert o in db.appointments;
      if o.id == id {
        assert AppointmentById(db.appointments, id) == Some(o);
        assert KnownStatus(o.status);
        assert o == b.(status := Confirmed);
      }
    }
  }

  // ---------- What each check admits ----------

  /** AssignServiceToStaff goes ahead exactly for an existing staff member and service that are not paired yet. */
  lemma AssignAllowedExactly(db: Db, staffId: int, serviceId: int)
    ensures AssignCheck(db, staffId, serviceId) == None <==>
      HasStaff(db.staff, staffId) && HasService(db.services, serviceId) &&
      StaffService(staffId, serviceId) !in db.staffServices
  {
    StaffFound(db.staff, staffId);
    ServiceFound(db.services, serviceId);
    OfferedExactly(db, staffId, serviceId);
  }

  /** DeleteService goes ahead exactly when no staff member offers the service and no appointment, whatever its status, names it. */
  lemma DeleteServiceAllowedExactly(db: Db, id: int)
    requires Consistent(db)
    ensures DeleteServiceCheck(db, id) == None <==>
      (forall p :: p in db.staffServices ==> p.serviceId != id) &&
      (forall a :: a in db.appointments ==> a.serviceId != id)
  {
    var list := StaffForService(db.staffServices, db.staff, id);
    if |list| > 0 {
      assert list[0] in list;
      assert StaffService(list[0].id, id) in db.staffServices;
    }
    if p :| p in db.staffServices && p.serviceId == id {
      assert HasStaff(db.staff, p.staffId);
      var s :| s in list && s.id == p.staffId;
    }
  }

  /** CancelAppointment goes ahead exactly for an appointment that is not cancelled yet, completed ones included. */
  lemma CancelAllowedExactly(rows: seq<Appointment>, id: int)
    requires DistinctKeys(rows, AppointmentKey)
    ensures CancelCheck(rows, id) == None <==> exists a :: a in rows && a.id == id && a.status != Cancelled
  {
    AppointmentFound(rows, id);
  }

  /** CompleteAppointment goes ahead exactly for a confirmed appointment. */
  lemma CompleteAllowedExactly(rows: seq<Appointment>, id: int)
    requires DistinctKeys(rows, AppointmentKey)
    requires forall a :: a in rows ==> KnownStatus(a.status)
    ensures CompleteCheck(rows, id) == None <==> exists a :: a in rows && a.id == id && a.status == Confirmed
  {
    AppointmentFound(rows, id);
  }

  /** After a status change the lookup finds the same row with the new status. */
  lemma WithStatusFound(rows: seq<Appointment>, id: int, status: string)
    requires DistinctKeys(rows, AppointmentKey)
    requires AppointmentById(rows, id).Some?
    ensures DistinctKeys(WithStatus(rows, id, status), AppointmentKey)
    ensures AppointmentById(WithStatus(rows, id, status), id) == Some(AppointmentById(rows, id).value.(status := status))
  {
    var w := WithStatus(rows, id, status);
    assert forall i :: 0 <= i < |w| ==> AppointmentKey(w[i]) == AppointmentKey(rows[i]);
    AppointmentFound(rows, id);
    var a := AppointmentById(rows, id).value;
    var i :| 0 <= i < |rows| && rows[i] == a;
    assert w[i] == a.(status := status) && w[i] in w;
    AppointmentFound(w, id);
  }

  /** Cancelled is final: a cancelled appointment can be neither cancelled again nor completed. */
  lemma CancelIsFinal(rows: seq<Appointment>, id: int)
    requires DistinctKeys(rows, AppointmentKey)
    requires CancelCheck(rows, id) == None
    ensures CancelCheck(WithStatus(rows, id, Cancelled), id) == Some(AlreadyCancelled)
    ensures CompleteCheck(WithStatus(rows, id, Cancelled), id) == Some(CannotCompleteCancelled)
  {
    WithStatusFound(rows, id, Cancelled);
  }

  /** A completed appointment cannot be completed again, but it can still be cancelled. */
  lemma CompletedCanStillBeCancelled(rows: seq<Appointment>, id: int)
    requires DistinctKeys(rows, AppointmentKey)
    requires CompleteCheck(rows, id) == None
    ensures CompleteCheck(WithStatus(rows, id, Completed), id) == Some(AlreadyCompleted)
    ensures CancelCheck(WithStatus(rows, id, Completed), id) == None
  {
    WithStatusFound(rows, id, Completed);
  }

  // ---------- Consequences of the source's choices ----------

  /** A staff member named Ann, with a stylist role, as used by the examples below. */
  function Ann(): Staff
  {
    Staff(1, "Ann", "ann@salon", "", "stylist")
  }

  /** UpdateStaff skips the '@' check CreateStaff makes, so an edit can store an email CreateStaff would refuse. */
  lemma UpdateStaffAcceptsEmailWithoutAt()
    ensures CreateStaffCheck([], "Ann", "ann", "stylist") == Some(InvalidEmailFormat)
    ensures UpdateStaffCheck([Ann()], 1, "Ann", "ann", "stylist") == None
  {
    assert !Contains("ann", "@") by {
      ContainsChar("ann", '@');
    }
  }

  /** Windows that only touch pass the same-day check: 09:00-12:00 and 12:00-17:00 may coexist. */
  lemma TouchingWindowsAdmitted()
    ensures CreateScheduleCheck(Db([], [Ann()], [], [Schedule(1, 1, 1, 540, 720)], []), 1, 1, "12:00", "17:00") == None
  {
    assert ParseHHMM("12:00") == 720 && ParseHHMM("17:00") == 1020;
  }

  /**
   * Nothing requires start before end: an inverted window 17:00-09:00 is
   * stored, and no appointment whose end is not before its start fits it.
   */
  lemma InvertedWindowAdmitsNothing(apptStart: int, apptEnd: int)
    ensures CreateScheduleCheck(Db([], [Ann()], [], [], []), 1, 1, "17:00", "09:00") == None
    ensures apptStart <= apptEnd ==> !IsTimeWithin(ParseHHMM("17:00"), ParseHHMM("09:00"), apptStart, apptEnd)
  {
    assert ParseHHMM("17:00") == 1020 && ParseHHMM("09:00") == 540;
  }

  /**
   * A zero-length window does not overlap its own copy, so the same-day
   * check lets a duplicate through and the UNIQUE constraint refuses it.
   */
  lemma DuplicateEmptyWindowHitsUnique()
    ensures !Clashes([Schedule(1, 1, 1, 600, 600)], 1, 1, 600, 600, None)
    ensures CreateScheduleCheck(Db([], [Ann()], [], [Schedule(1, 1, 1, 600, 600)], []), 1, 1, "10:00", "10:00")
            == Some(Storage(UniqueViolation))
  {
    assert ParseHHMM("10:00") == 600;
    assert SlotTaken([Schedule(1, 1, 1, 600, 600)], 1, 1, 600, 600, None) by {
      assert Schedule(1, 1, 1, 600, 600) in [Schedule(1, 1, 1, 600, 600)];
    }
  }

  /** A local clock for the examples: minute 0 is a Thursday (weekday 4) midnight, and there is no daylight saving. */
  function ExampleClock(t: int): LocalTime
  {
    LocalTime((t / 1440 + 4) % 7, t % 1440)
  }

  /**
   * The working-hours test compares times of day only, so an appointment
   * that starts at 23:30 inside a 22:00-23:59 window and runs 60 minutes is
   * accepted: its end wraps to 00:30 on the next day, which is "before"
   * the window's end.
   */
  lemma PastMidnightBookingAccepted()
    ensures ExampleClock(1410) == LocalTime(4, 1410) && ExampleClock(1470) == LocalTime(5, 30)
    ensures BookingCheck(
      Db([Service(1, "Cut", "", 60, 2500)], [Ann()], [StaffService(1, 1)], [Schedule(1, 1, 4, 1320, 1439)], []),
      ExampleClock, "Bo", "bo@home", 1, 1, 1410).Success?
  {
    var db := Db([Service(1, "Cut", "", 60, 2500)], [Ann()], [StaffService(1, 1)], [Schedule(1, 1, 4, 1320, 1439)], []);
    assert Contains("bo@home", "@") by {
      ContainsChar("bo@home", '@');
      assert "bo@home"[2] == '@';
    }
    BookingAccepted(db, ExampleClock, "Bo", "bo@home", 1, 1, 1410);
    assert Ann() in db.staff;
    assert Service(1, "Cut", "", 60, 2500) in db.services;
    assert Fits(Schedule(1, 1, 4, 1320, 1439), 1, ExampleClock(1410), ExampleClock(1470));
    assert Schedule(1, 1, 4, 1320, 1439) in db.schedules;
  }
}

=== FILE: engine_state.dfy ===
/**
 * The decisions of the booking engine
 * (backend/go/service/appt_booking/appt_booking_service.go) as functions of
 * the store contents: for each operation, which error it returns, checked
 * in the source's order, or that it may write. The engine class in
 * appt_booking_service.dfy is proved to follow these decisions.
 */
module EngineState {
  import opened Wrappers
  import opened Models
  import opened Tables
  import opened Seqs
  import opened AppointmentStore
  import opened BookingRules

  /**
   * The staff member's wall clock at an instant: Weekday() with Sunday = 0,
   * and Hour() * 60 + Minute(). The engine converts to America/Los_Angeles
   * with the tz database; here the conversion is a parameter.
   */
  datatype LocalTime = LocalTime(weekday: int, minuteOfDay: int)

  /** One constructor per error the engine returns; Message gives its text. */
  datatype Error =
    | ServiceNameRequired | DurationNotPositive | PriceNegative
    | StaffNameRequired | StaffEmailRequired | StaffRoleRequired | InvalidEmailFormat
    | StaffEmailExists | EmailUsedByAnother
    | ServiceAssignedToStaff | ServiceHasAppointments | StaffHasAppointments
    | StaffNotFound | ServiceNotFound | AlreadyAssigned
    | DayOutOfRange | TimesRequired | BadTimeFormat | ScheduleOverlap | ScheduleNotFound
    | CustomerNameRequired | CustomerEmailRequired | StaffIdRequired | ServiceIdRequired
    | ServiceNotOffered | OutsideWorkingHours | SchedulingConflict
    | AppointmentNotFound | AlreadyCancelled | AlreadyCompleted | CannotCompleteCancelled
    | Storage(cause: StoreError)

  function Message(e: Error): string
  {
    match e
    case ServiceNameRequired => "service name is required"
    case DurationNotPositive => "duration must be positive"
    case PriceNegative => "price cannot be negative"
    case StaffNameRequired => "staff name is required"
    case StaffEmailRequired => "staff email is required"
    case StaffRoleRequired => "staff role is required"
    case InvalidEmailFormat => "invalid email format"
    case StaffEmailExists => "staff with this email already exists"
    case EmailUsedByAnother => "email is already used by another staff member"
    case ServiceAssignedToStaff => "cannot delete service that is assigned to staff members"
    case ServiceHasAppointments => "cannot delete service that has existing appointments"
    case StaffHasAppointments => "cannot delete staff member with existing appointments"
    case StaffNotFound => "staff not found"
    case ServiceNotFound => "service not found"
    case AlreadyAssigned => "service is already assigned to this staff member"
    case DayOutOfRange => "day of week must be between 0 (Sunday) and 6 (Saturday)"
    case TimesRequired => "start time and end time are required"
    case BadTimeFormat => "time must be in HH:MM format"
    case ScheduleOverlap => "schedule overlaps with an existing schedule for this staff member on the same day"
    case ScheduleNotFound => "schedule not found"
    case CustomerNameRequired => "customer name is required"
    case CustomerEmailRequired => "customer email is required"
    case StaffIdRequired => "valid staff ID is required"
    case ServiceIdRequired => "valid service ID is required"
    case ServiceNotOffered => "staff member does not offer this service"
    case OutsideWorkingHours => "appointment time is outside staff member's working hours"
    case SchedulingConflict => "appointment time conflicts with an existing appointment"
    case AppointmentNotFound => "appointment not found"
    case AlreadyCancelled => "appointment is already cancelled"
    case AlreadyCompleted => "appointment is already completed"
    case CannotCompleteCancelled => "cannot complete a cancelled appointment"
    case Storage(NegativeLimit) => "LIMIT must not be negative"
    case Storage(UniqueViolation) => "duplicate key value violates unique constraint"
  }

  /** The contents of the five tables. */
  datatype Db = Db(
    services: seq<Service>,
    staff: seq<Staff>,
    staffServices: seq<StaffService>,
    schedules: seq<Schedule>,
    appointments: seq<Appointment>)

  // ---------- Lookups (SELECT ... WHERE key = $1, nil on no rows) ----------

  function ServiceById(services: seq<Service>, id: int): Option<Service>
  {
    Find(services, (s: Service) => s.id == id)
  }

  function StaffById(staff: seq<Staff>, id: int): Option<Staff>
  {
    Find(staff, (s: Staff) => s.id == id)
  }

  function StaffByEmail(staff: seq<Staff>, email: string): Option<Staff>
  {
    Find(staff, (s: Staff) => s.email == email)
  }

  function ScheduleById(schedules: seq<Schedule>, id: int): Option<Schedule>
  {
    Find(schedules, (s: Schedule) => s.id == id)
  }

  function AppointmentById(appointments: seq<Appointment>, id: int): Option<Appointment>
  {
    Find(appointments, (a: Appointment) => a.id == id)
  }

  predicate HasStaff(staff: seq<Staff>, id: int)
  {
    HasKey(staff, StaffKey, id)
  }

  predicate HasService(services: seq<Service>, id: int)
  {
    HasKey(services, ServiceKey, id)
  }

  /**
   * GetServicesForStaff: the services joined with the staff member's
   * staff_services rows (ORDER BY name is not modelled; the engine only
   * scans the result for an id).
   */
  function ServicesForStaff(pairs: seq<StaffService>, services: seq<Service>, staffId: int): (r: seq<Service>)
    ensures forall s :: s in r ==> s in services && StaffService(staffId, s.id) in pairs
    ensures forall p :: p in pairs && p.staffId == staffId && HasService(services, p.serviceId) ==>
      exists s :: s in r && s.id == p.serviceId
    decreases |pairs|
  {
    if pairs == [] then []
    else
      var rest := ServicesForStaff(pairs[1..], services, staffId);
      assert forall p :: p in pairs ==> p == pairs[0] || p in pairs[1..];
      if pairs[0].staffId == staffId then
        match ServiceById(services, pairs[0].serviceId)
        case Some(s) => [s] + rest
        case None => rest
      else rest
  }

  /** GetStaffForService: the staff joined with the service's staff_services rows. */
  function StaffForService(pairs: seq<StaffService>, staff: seq<Staff>, serviceId: int): (r: seq<Staff>)
    ensures forall s :: s in r ==> s in staff && StaffService(s.id, serviceId) in pairs
    ensures forall p :: p in pairs && p.serviceId == serviceId && HasStaff(staff, p.staffId) ==>
      exists s :: s in r && s.id == p.staffId
    decreases |pairs|
  {
    if pairs == [] then []
    else
      var rest := StaffForService(pairs[1..], staff, serviceId);
      assert forall p :: p in pairs ==> p == pairs[0] || p in pairs[1..];
      if pairs[0].serviceId == serviceId then
        match StaffById(staff, pairs[0].staffId)
        case Some(s) => [s] + rest
        case None => rest
      else rest
  }

  /** ScheduleRepository.GetByStaff (its ORDER BY day_of_week, start_time does not affect the engine's scans). */
  function SchedulesOf(schedules: seq<Schedule>, staffId: int): (r: seq<Schedule>)
    ensures forall s :: s in r <==> s in schedules && s.staffId == staffId
  {
    Filter(schedules, (s: Schedule) => s.staffId == staffId)
  }

  // ---------- Row updates ----------

  /** DELETE FROM services, with the ON DELETE CASCADE of staff_services. */
  function WithoutService(db: Db, id: int): Db
  {
    db.(services := Filter(db.services, (s: Service) => s.id != id),
        staffServices := Filter(db.staffServices, (p: StaffService) => p.serviceId != id))
  }

  /** DELETE FROM staff, with the ON DELETE CASCADE of staff_services and schedules. */
  function WithoutStaff(db: Db, id: int): Db
  {
    db.(staff := Filter(db.staff, (s: Staff) => s.id != id),
        staffServices := Filter(db.staffServices, (p: StaffService) => p.staffId != id),
        schedules := Filter(db.schedules, (s: Schedule) => s.staffId != id))
  }

  // ---------- What the store must keep true ----------

  /** CHECK (duration_minutes > 0) and CHECK (price_cents >= 0). */
  ghost predicate ServicesChecked(services: seq<Service>)
  {
    forall s :: s in services ==> s.durationMin > 0 && s.priceCents >= 0
  }

  /** staff.email UNIQUE. */
  ghost predicate EmailsUnique(staff: seq<Staff>)
  {
    forall a, b :: a in staff && b in staff && a.id != b.id ==> a.email != b.email
  }

  /** PRIMARY KEY (staff_id, service_id) and both REFERENCES. */
  ghost predicate PairsValid(pairs: seq<StaffService>, staff: seq<Staff>, services: seq<Service>)
  {
    && (forall p :: multiset(pairs)[p] <= 1)
    && (forall p :: p in pairs ==> HasStaff(staff, p.staffId) && HasService(services, p.serviceId))
  }

  /** schedules.staff_id REFERENCES staff and CHECK (day_of_week BETWEEN 0 AND 6). */
  ghost predicate SchedulesValid(schedules: seq<Schedule>, staff: seq<Staff>)
  {
    forall s :: s in schedules ==> HasStaff(staff, s.staffId) && 0 <= s.dayOfWeek <= 6
  }

  /** UNIQUE (staff_id, day_of_week, start_time, end_time). */
  ghost predicate SlotsUnique(schedules: seq<Schedule>)
  {
    forall a, b :: a in schedules && b in schedules && a.id != b.id ==>
      (a.staffId, a.dayOfWeek, a.startTime, a.endTime) != (b.staffId, b.dayOfWeek, b.startTime, b.endTime)
  }

  /** What the engine's same-day check keeps: no two windows of one staff member on one day overlap. */
  ghost predicate NoScheduleOverlap(schedules: seq<Schedule>)
  {
    forall a, b :: a in schedules && b in schedules && a.id != b.id &&
                   a.staffId == b.staffId && a.dayOfWeek == b.dayOfWeek ==>
      !TimesOverlap(a.startTime, a.endTime, b.startTime, b.endTime)
  }

  /** Both REFERENCES of appointments, a known status and a positive duration. */
  ghost predicate AppointmentsValid(appointments: seq<Appointment>, staff: seq<Staff>, services: seq<Service>)
  {
    forall a :: a in appointments ==>
      && HasStaff(staff, a.staffId)
      && HasService(services, a.serviceId)
      && KnownStatus(a.status)
      && a.durationMinutes > 0
  }

  /** What the engine's conflict check keeps: a staff member's live appointments never overlap. */
  ghost predicate NoDoubleBooking(appointments: seq<Appointment>)
  {
    forall a, b :: a in appointments && b in appointments && a.id != b.id && a.staffId == b.staffId &&
                   a.status != Cancelled && b.status != Cancelled ==>
      !Overlaps(a, b.appointmentDatetime, b.durationMinutes)
  }

  ghost predicate Consistent(db: Db)
  {
    && DistinctKeys(db.services, ServiceKey)
    && DistinctKeys(db.staff, StaffKey)
    && DistinctKeys(db.schedules, ScheduleKey)
    && DistinctKeys(db.appointments, AppointmentKey)
    && ServicesChecked(db.services)
    && EmailsUnique(db.staff)
    && PairsValid(db.staffServices, db.staff, db.services)
    && SchedulesValid(db.schedules, db.staff)
    && SlotsUnique(db.schedules)
    && NoScheduleOverlap(db.schedules)
    && AppointmentsValid(db.appointments, db.staff, db.services)
    && NoDoubleBooking(db.appointments)
  }

  // ---------- Decisions ----------

  /** CreateService / UpdateService validation, in order. */
  function ServiceFieldsCheck(name: string, durationMinutes: int, priceCents: int): Option<Error>
  {
    if name == [] then Some(ServiceNameRequired)
    else if durationMinutes <= 0 then Some(DurationNotPositive)
    else if priceCents < 0 then Some(PriceNegative)
    else None
  }

  /** The name, email and role checks both staff operations start with. */
  function StaffFieldsCheck(name: string, email: string, role: string): Option<Error>
  {
    if name == [] then Some(StaffNameRequired)
    else if email == [] then Some(StaffEmailRequired)
    else if role == [] then Some(StaffRoleRequired)
    else None
  }

  /** CreateStaff: the field checks, an '@' in the email, and an email no staff member has. */
  function CreateStaffCheck(staff: seq<Staff>, name: string, email: string, role: string): Option<Error>
  {
    if StaffFieldsCheck(name, email, role).Some? then StaffFieldsCheck(name, email, role)
    else if !Contains(email, "@") then Some(InvalidEmailFormat)
    else if StaffByEmail(staff, email).Some? then Some(StaffEmailExists)
    else None
  }

  /** UpdateStaff: the field checks and an email no other staff member has; no '@' check. */
  function UpdateStaffCheck(staff: seq<Staff>, id: int, name: string, email: string, role: string): Option<Error>
  {
    if StaffFieldsCheck(name, email, role).Some? then StaffFieldsCheck(name, email, role)
    else if StaffByEmail(staff, email).Some? && StaffByEmail(staff, email).value.id != id then Some(EmailUsedByAnother)
    else None
  }

  /** DeleteService: refused while a staff member offers it or any appointment, of any status, names it. */
  function DeleteServiceCheck(db: Db, id: int): Option<Error>
  {
    if |StaffForService(db.staffServices, db.staff, id)| > 0 then Some(ServiceAssignedToStaff)
    else if exists a :: a in db.appointments && a.serviceId == id then Some(ServiceHasAppointments)
    else None
  }

  /** DeleteStaff: refused while the staff member has any appointment. */
  function DeleteStaffCheck(db: Db, id: int): Option<Error>
  {
    if exists a :: a in db.appointments && a.staffId == id then Some(StaffHasAppointments)
    else None
  }

  /** AssignServiceToStaff: both must exist and the service must not be in the staff member's list yet. */
  function AssignCheck(db: Db, staffId: int, serviceId: int): Option<Error>
  {
    if StaffById(db.staff, staffId).None? then Some(StaffNotFound)
    else if ServiceById(db.services, serviceId).None? then Some(ServiceNotFound)
    else if Offers(db, staffId, serviceId) then Some(AlreadyAssigned)
    else None
  }

  /** The day, presence and HH:MM checks both schedule operations start with. */
  function ScheduleFieldsCheck(dayOfWeek: int, startTime: string, endTime: string): Option<Error>
  {
    if dayOfWeek < 0 || dayOfWeek > 6 then Some(DayOutOfRange)
    else if startTime == [] || endTime == [] then Some(TimesRequired)
    else if !ValidTimeFormat(startTime) || !ValidTimeFormat(endTime) then Some(BadTimeFormat)
    else None
  }

  /**
   * Some window of the staff member on that day, other than the one skipId
   * names, overlaps [start, end).
   */
  predicate Clashes(schedules: seq<Schedule>, staffId: int, dayOfWeek: int, start: int, end: int, skipId: Option<int>)
  {
    exists s :: s in schedules && s.staffId == staffId && s.dayOfWeek == dayOfWeek &&
                (skipId.Some? ==> s.id != skipId.value) && TimesOverlap(start, end, s.startTime, s.endTime)
  }

  /** Another row already holds this (staff_id, day_of_week, start_time, end_time). */
  predicate SlotTaken(schedules: seq<Schedule>, staffId: int, dayOfWeek: int, start: int, end: int, skipId: Option<int>)
  {
    exists s :: s in schedules && s.staffId == staffId && s.dayOfWeek == dayOfWeek &&
                s.startTime == start && s.endTime == end && (skipId.Some? ==> s.id != skipId.value)
  }

  /** CreateSchedule: fields, staff, same-day overlap, then the UNIQUE constraint of the insert. */
  function CreateScheduleCheck(db: Db, staffId: int, dayOfWeek: int, startTime: string, endTime: string): Option<Error>
  {
    if ScheduleFieldsCheck(dayOfWeek, startTime, endTime).Some? then ScheduleFieldsCheck(dayOfWeek, startTime, endTime)
    else if StaffById(db.staff, staffId).None? then Some(StaffNotFound)
    else if Clashes(db.schedules, staffId, dayOfWeek, ParseHHMM(startTime), ParseHHMM(endTime), None) then
      Some(ScheduleOverlap)
    else if SlotTaken(db.schedules, staffId, dayOfWeek, ParseHHMM(startTime), ParseHHMM(endTime), None) then
      Some(Storage(UniqueViolation))
    else None
  }

  /**
   * UpdateSchedule: fields, the schedule itself, overlap with the staff
   * member's other windows that day, then the UNIQUE constraint of the update.
   */
  function UpdateScheduleCheck(db: Db, id: int, dayOfWeek: int, startTime: string, endTime: string): Option<Error>
  {
    if ScheduleFieldsCheck(dayOfWeek, startTime, endTime).Some? then ScheduleFieldsCheck(dayOfWeek, startTime, endTime)
    else if ScheduleById(db.schedules, id).None? then Some(ScheduleNotFound)
    else
      var staffId := ScheduleById(db.schedules, id).value.staffId;
      if Clashes(db.schedules, staffId, dayOfWeek, ParseHHMM(startTime), ParseHHMM(endTime), Some(id)) then
        Some(ScheduleOverlap)
      else if SlotTaken(db.schedules, staffId, dayOfWeek, ParseHHMM(startTime), ParseHHMM(endTime), Some(id)) then
        Some(Storage(UniqueViolation))
      else None
  }

  /** A schedule window of the staff member on the local weekday of the start holds the appointment. */
  predicate Fits(s: Schedule, staffId: int, startLocal: LocalTime, endLocal: LocalTime)
  {
    && s.staffId == staffId
    && s.dayOfWeek == startLocal.weekday
    && IsTimeWithin(s.startTime, s.endTime, startLocal.minuteOfDay, endLocal.minuteOfDay)
  }

  predicate WithinWorkingHours(schedules: seq<Schedule>, staffId: int, startLocal: LocalTime, endLocal: LocalTime)
  {
    exists s :: s in schedules && Fits(s, staffId, startLocal, endLocal)
  }

  /** CheckConflict without an excluded id. */
  predicate HasConflict(appointments: seq<Appointment>, staffId: int, start: int, duration: int)
  {
    exists a :: a in appointments && ConflictRow(a, staffId, start, duration, None)
  }

  /** The staff member's service list holds the service. */
  predicate Offers(db: Db, staffId: int, serviceId: int)
  {
    exists s :: s in ServicesForStaff(db.staffServices, db.services, staffId) && s.id == serviceId
  }

  /**
   * The first half of BookAppointment's checks: the fields, both lookups
   * and the service list; the service on success.
   */
  function BookingEligibility(db: Db, customerName: string, customerEmail: string,
                              staffId: int, serviceId: int): Result<Service, Error>
  {
    if customerName == [] then Failure(CustomerNameRequired)
    else if customerEmail == [] then Failure(CustomerEmailRequired)
    else if !Contains(customerEmail, "@") then Failure(InvalidEmailFormat)
    else if staffId <= 0 then Failure(StaffIdRequired)
    else if serviceId <= 0 then Failure(ServiceIdRequired)
    else if StaffById(db.staff, staffId).None? then Failure(StaffNotFound)
    else if ServiceById(db.services, serviceId).None? then Failure(ServiceNotFound)
    else if !Offers(db, staffId, serviceId) then Failure(ServiceNotOffered)
    else Success(ServiceById(db.services, serviceId).value)
  }

  /**
   * BookAppointment: the first failing check, in the source's order, or the
   * service whose duration the new appointment takes. The working-hours
   * check reads the local clock at the start and at start + duration.
   */
  function BookingCheck(db: Db, toLocal: int -> LocalTime, customerName: string, customerEmail: string,
                        staffId: int, serviceId: int, datetime: int): Result<Service, Error>
  {
    match BookingEligibility(db, customerName, customerEmail, staffId, serviceId)
    case Failure(e) => Failure(e)
    case Success(service) =>
      if !WithinWorkingHours(db.schedules, staffId, toLocal(datetime), toLocal(datetime + service.durationMin)) then
        Failure(OutsideWorkingHours)
      else if HasConflict(db.appointments, staffId, datetime, service.durationMin) then
        Failure(SchedulingConflict)
      else Success(service)
  }

  /** CancelAppointment: the appointment must exist and not be cancelled yet; a completed one may be. */
  function CancelCheck(appointments: seq<Appointment>, id: int): Option<Error>
  {
    match AppointmentById(appointments, id)
    case None => Some(AppointmentNotFound)
    case Some(a) => if a.status == Cancelled then Some(AlreadyCancelled) else None
  }

  /** CompleteAppointment: the appointment must exist and be neither completed nor cancelled. */
  function CompleteCheck(appointments: seq<Appointment>, id: int): Option<Error>
  {
    match AppointmentById(appointments, id)
    case None => Some(AppointmentNotFound)
    case Some(a) =>
      if a.status == Completed then Some(AlreadyCompleted)
      else if a.status == Cancelled then Some(CannotCompleteCancelled)
      else None
  }
}

=== FILE: js_text.dfy ===
/**
 * The few JavaScript string and number built-ins the Angular code relies on,
 * restricted to integers: digit strings, Number.prototype.toString,
 * String.prototype.padStart, String.prototype.trim, parseInt, Number, the
 * remainder operator and the relational comparison of two strings.
 */
module JsText {
  import opened Wrappers

  predicate IsDigit(c: char) { '0' <= c <= '9' }

  function DigitValue(c: char): (d: nat)
    requires IsDigit(c)
    ensures d < 10
  {
    c as int - '0' as int
  }

  function DigitChar(d: nat): (c: char)
    requires d < 10
    ensures IsDigit(c) && DigitValue(c) == d
  {
    ('0' as int + d) as char
  }

  predicate AllDigits(s: string) { forall i :: 0 <= i < |s| ==> IsDigit(s[i]) }

  /** The value of a string of decimal digits ("" reads as 0). */
  function DigitsValue(s: string): nat
    requires AllDigits(s)
    decreases |s|
  {
    if s == [] then 0 else DigitsValue(s[..|s| - 1]) * 10 + DigitValue(s[|s| - 1])
  }

  /** Decimal rendering of a natural number, as (n).toString() gives it. */
  function NatToString(n: nat): (s: string)
    ensures |s| >= 1 && AllDigits(s)
    ensures n < 10 <==> |s| == 1
    decreases n
  {
    if n < 10 then [DigitChar(n)] else NatToString(n / 10) + [DigitChar(n % 10)]
  }

  /** Decimal rendering of an integer, with a leading '-' when negative. */
  function IntToString(i: int): string
  {
    if i < 0 then "-" + NatToString(-i) else NatToString(i)
  }

  /** Reading back the decimal rendering gives the number. */
  lemma {:induction false} NatToStringRoundTrip(n: nat)
    ensures DigitsValue(NatToString(n)) == n
    decreases n
  {
    var s := NatToString(n);
    if n >= 10 {
      NatToStringRoundTrip(n / 10);
      assert s[..|s| - 1] == NatToString(n / 10);
    }
  }

  /** The decimal rendering of n has two characters exactly when 10 <= n < 100. */
  lemma NatToStringTwoDigits(n: nat)
    requires 10 <= n < 100
    ensures NatToString(n) == [DigitChar(n / 10), DigitChar(n % 10)]
  {
  }

  /** s.padStart(2, '0'): prefix zeros until the string has two characters. */
  function PadStart2(s: string): (r: string)
    ensures |s| >= 2 ==> r == s
    ensures |s| < 2 ==> |r| == 2 && r[2 - |s|..] == s && forall i :: 0 <= i < 2 - |s| ==> r[i] == '0'
  {
    if |s| >= 2 then s else if |s| == 1 then ['0'] + s else "00"
  }

  /** The characters String.prototype.trim removes (WhiteSpace and LineTerminator of ECMAScript). */
  predicate IsWhitespace(c: char)
  {
    c == '\t' || c == '\n' || c == '\U{B}' || c == '\U{C}' || c == '\r' || c == ' ' ||
    c == '\U{A0}' || c == '\U{1680}' || ('\U{2000}' <= c <= '\U{200A}') ||
    c == '\U{2028}' || c == '\U{2029}' || c == '\U{202F}' || c == '\U{205F}' ||
    c == '\U{3000}' || c == '\U{FEFF}'
  }

  function TrimStart(s: string): (r: string)
    ensures |r| <= |s| && r == s[|s| - |r|..]
    ensures r != [] ==> !IsWhitespace(r[0])
    ensures forall i :: 0 <= i < |s| - |r| ==> IsWhitespace(s[i])
    decreases |s|
  {
    if s != [] && IsWhitespace(s[0]) then TrimStart(s[1..]) else s
  }

  function TrimEnd(s: string): (r: string)
    ensures |r| <= |s| && r == s[..|r|]
    ensures r != [] ==> !IsWhitespace(r[|r| - 1])
    ensures forall i :: |r| <= i < |s| ==> IsWhitespace(s[i])
    decreases |s|
  {
    if s != [] && IsWhitespace(s[|s| - 1]) then TrimEnd(s[..|s| - 1]) else s
  }

  /** String.prototype.trim. */
  function Trim(s: string): string
  {
    TrimEnd(TrimStart(s))
  }

  /** A trimmed string is empty exactly when every character of the original is white space. */
  lemma TrimEmpty(s: string)
    ensures Trim(s) == [] <==> forall i :: 0 <= i < |s| ==> IsWhitespace(s[i])
  {
    var t := TrimStart(s);
    if Trim(s) == [] {
      forall i | 0 <= i < |s| ensures IsWhitespace(s[i]) {
        if i >= |s| - |t| {
          assert s[i] == t[i - (|s| - |t|)];
        }
      }
    } else {
      var r := Trim(s);
      assert r == t[..|r|];
      assert !IsWhitespace(r[0]);
      assert s[|s| - |t|] == t[0] == r[0];
    }
  }

  /** The longest prefix of s made of decimal digits. */
  function DigitPrefix(s: string): (r: string)
    ensures |r| <= |s| && r == s[..|r|] && AllDigits(r)
    ensures |r| < |s| ==> !IsDigit(s[|r|])
    decreases |s|
  {
    if s != [] && IsDigit(s[0]) then [s[0]] + DigitPrefix(s[1..]) else []
  }

  /**
   * parseInt(s, 10): skip leading white space, read an optional sign and the
   * longest run of digits after it; None stands for NaN (no digit at all).
   */
  function ParseInt(s: string): (r: Option<int>)
    ensures r.None? <==> var t := TrimStart(s);
                          var body := if t != [] && (t[0] == '+' || t[0] == '-') then t[1..] else t;
                          body == [] || !IsDigit(body[0])
  {
    var t := TrimStart(s);
    var negative := t != [] && t[0] == '-';
    var body := if t != [] && (t[0] == '+' || t[0] == '-') then t[1..] else t;
    var digits := DigitPrefix(body);
    if digits == [] then None
    else
      var magnitude: int := DigitsValue(digits);
      Some(if negative then -magnitude else magnitude)
  }

  /** Number(s) for the empty string and for plain digit strings; None stands for NaN. */
  function JsNumber(s: string): (r: Option<nat>)
    ensures r.Some? <==> AllDigits(s)
  {
    if AllDigits(s) then Some(DigitsValue(s)) else None
  }

  /** Math.trunc(a / b): the quotient rounded toward zero. */
  function JsQuot(a: int, b: int): int
    requires b > 0
  {
    if a >= 0 then a / b else -((-a) / b)
  }

  /**
   * The JavaScript remainder a % b: truncating, it takes the sign of a, and
   * together with the quotient rounded toward zero it gives a back.
   */
  function JsRem(a: int, b: int): (r: int)
    requires b > 0
    ensures a >= 0 ==> 0 <= r < b
    ensures a < 0 ==> -b < r <= 0
    ensures a == JsQuot(a, b) * b + r
  {
    if a >= 0 then a % b
    else
      var n := -a;
      assert n == (n / b) * b + n % b;
      assert a == (-(n / b)) * b - n % b;
      -(n % b)
  }

  /** The JavaScript relational comparison a < b on strings: lexicographic by character. */
  predicate StrLt(a: string, b: string)
    decreases |a|
  {
    if a == [] then b != []
    else if b == [] then false
    else if a[0] != b[0] then a[0] < b[0]
    else StrLt(a[1..], b[1..])
  }

  predicate StrLe(a: string, b: string) { a == b || StrLt(a, b) }

  lemma {:induction false} StrLtIrreflexive(a: string)
    ensures !StrLt(a, a)
    decreases |a|
  {
    if a != [] { StrLtIrreflexive(a[1..]); }
  }

  lemma {:induction false} StrLtTransitive(a: string, b: string, c: string)
    requires StrLt(a, b) && StrLt(b, c)
    ensures StrLt(a, c)
    decreases |a|
  {
    if a != [] && b != [] && c != [] && a[0] == b[0] && b[0] == c[0] {
      StrLtTransitive(a[1..], b[1..], c[1..]);
    }
  }

  lemma {:induction false} StrLtTotal(a: string, b: string)
    ensures a == b || StrLt(a, b) || StrLt(b, a)
    decreases |a|
  {
    if a != [] && b != [] && a[0] == b[0] {
      StrLtTotal(a[1..], b[1..]);
      if a[1..] == b[1..] {
        assert a == [a[0]] + a[1..] && b == [b[0]] + b[1..];
      }
    }
  }

  lemma StrLtAsymmetric(a: string, b: string)
    requires StrLt(a, b)
    ensures !StrLt(b, a) && a != b
  {
    StrLtIrreflexive(a);
    if StrLt(b, a) { StrLtTransitive(a, b, a); }
  }
}

=== FILE: models.dfy ===
/**
 * The record shapes of the appointment-booking tables (the Go structs of
 * backend/go/db/appt_booking/models.go), without the created_at/updated_at
 * timestamps. Instants are whole minutes on one absolute time line; schedule
 * times are minutes since local midnight.
 */
module Models {

  datatype Service = Service(id: int, name: string, description: string, durationMin: int, priceCents: int)

  datatype Staff = Staff(id: int, name: string, email: string, phone: string, role: string)

  /** A row of the staff_services junction table. */
  datatype StaffService = StaffService(staffId: int, serviceId: int)

  /** A weekly availability window; dayOfWeek 0 is Sunday. */
  datatype Schedule = Schedule(id: int, staffId: int, dayOfWeek: int, startTime: int, endTime: int)

  datatype Appointment = Appointment(
    id: int,
    customerName: string,
    customerEmail: string,
    customerPhone: string,
    staffId: int,
    serviceId: int,
    appointmentDatetime: int,
    durationMinutes: int,
    status: string,
    notes: string)

  /** An appointment row joined with the price of its service. */
  datatype AppointmentWithService = AppointmentWithService(appointment: Appointment, priceCents: int)

  const Confirmed: string := "confirmed"
  const Cancelled: string := "cancelled"
  const Completed: string := "completed"

  predicate KnownStatus(status: string)
  {
    status == Confirmed || status == Cancelled || status == Completed
  }

  /** The primary key of each table. */
  function ServiceKey(s: Service): int { s.id }
  function StaffKey(s: Staff): int { s.id }
  function ScheduleKey(s: Schedule): int { s.id }
  function AppointmentKey(a: Appointment): int { a.id }
}

/** Row-store conventions shared by the in-memory tables. */
module Tables {
  import opened Seqs

  /**
   * The SERIAL primary key: every id is positive, below the next id the
   * table hands out, and no two rows share one.
   */
  ghost predicate KeysValid<T>(rows: seq<T>, key: T -> int, nextId: int)
  {
    && nextId >= 1
    && (forall i :: 0 <= i < |rows| ==> 1 <= key(rows[i]) < nextId)
    && DistinctKeys(rows, key)
  }

  ghost predicate DistinctKeys<T>(rows: seq<T>, key: T -> int)
  {
    forall i, j :: 0 <= i < j < |rows| ==> key(rows[i]) != key(rows[j])
  }

  /** A row appended with the next id keeps the keys valid. */
  lemma AppendFresh<T>(rows: seq<T>, key: T -> int, nextId: int, x: T)
    requires KeysValid(rows, key, nextId) && key(x) == nextId
    ensures KeysValid(rows + [x], key, nextId + 1)
  {
  }

  /** Deleting rows keeps the keys distinct. */
  lemma {:induction false} FilterKeepsDistinct<T(!new)>(rows: seq<T>, key: T -> int, p: T -> bool)
    requires DistinctKeys(rows, key)
    ensures DistinctKeys(Filter(rows, p), key)
    decreases |rows|
  {
    if rows != [] {
      var tail := rows[1..];
      assert DistinctKeys(tail, key) by {
        forall i, j | 0 <= i < j < |tail| ensures key(tail[i]) != key(tail[j]) {
          assert tail[i] == rows[i + 1] && tail[j] == rows[j + 1];
        }
      }
      FilterKeepsDistinct(tail, key, p);
      var rest := Filter(tail, p);
      if p(rows[0]) {
        var r := [rows[0]] + rest;
        assert r == Filter(rows, p);
        forall i, j | 0 <= i < j < |r| ensures key(r[i]) != key(r[j]) {
          assert r[j] == rest[j - 1];
          if i == 0 {
            assert rest[j - 1] in tail;
            var y :| 0 <= y < |tail| && tail[y] == rest[j - 1];
            assert rows[y + 1] == r[j];
          } else {
            assert r[i] == rest[i - 1];
          }
        }
      } else {
        assert rest == Filter(rows, p);
      }
    }
  }

  /** Deleting rows keeps the keys valid. */
  lemma FilterKeepsKeys<T(!new)>(rows: seq<T>, key: T -> int, nextId: int, p: T -> bool)
    requires KeysValid(rows, key, nextId)
    ensures KeysValid(Filter(rows, p), key, nextId)
  {
    FilterKeepsDistinct(rows, key, p);
    var r := Filter(rows, p);
    forall i | 0 <= i < |r| ensures 1 <= key(r[i]) < nextId {
      assert r[i] in rows;
    }
  }

  /** Some row carries the key id. */
  predicate HasKey<T(==)>(rows: seq<T>, key: T -> int, id: int)
  {
    exists s :: s in rows && key(s) == id
  }

  /** Rows kept in or added to a table keep every key present, so references into it stay valid. */
  lemma RowsKeptKeepKeys<T>(rows: seq<T>, rows': seq<T>, key: T -> int)
    requires forall s :: s in rows ==> s in rows'
    ensures forall id :: HasKey(rows, key, id) ==> HasKey(rows', key, id)
  {
    forall id | HasKey(rows, key, id) ensures HasKey(rows', key, id) {
      var s :| s in rows && key(s) == id;
      assert s in rows';
    }
  }

  /**
   * UPDATE ... WHERE id: the rows with the key become x and the others stay;
   * when x carries the key, every row keeps its key.
   */
  function ReplaceById<T>(rows: seq<T>, key: T -> int, id: int, x: T): (r: seq<T>)
    ensures |r| == |rows|
    ensures forall i :: 0 <= i < |r| && key(rows[i]) != id ==> r[i] == rows[i]
    ensures forall i :: 0 <= i < |r| && key(rows[i]) == id ==> r[i] == x
    ensures forall s :: s in r ==> s == x || (s in rows && key(s) != id)
    ensures key(x) == id ==> forall i :: 0 <= i < |r| ==> key(r[i]) == key(rows[i])
  {
    var r := seq(|rows|, i requires 0 <= i < |rows| => if key(rows[i]) == id then x else rows[i]);
    assert forall s :: s in r ==> s == x || (s in rows && key(s) != id) by {
      forall s | s in r ensures s == x || (s in rows && key(s) != id) {
        var i :| 0 <= i < |r| && r[i] == s;
      }
    }
    r
  }

  /** Replacing rows under their own key keeps every key present, the keys distinct and the SERIAL keys valid. */
  lemma ReplaceByIdKeepsKeys<T>(rows: seq<T>, key: T -> int, nextId: int, id: int, x: T)
    requires key(x) == id
    ensures forall k :: HasKey(rows, key, k) ==> HasKey(ReplaceById(rows, key, id, x), key, k)
    ensures DistinctKeys(rows, key) ==> DistinctKeys(ReplaceById(rows, key, id, x), key)
    ensures KeysValid(rows, key, nextId) ==> KeysValid(ReplaceById(rows, key, id, x), key, nextId)
  {
    var r := ReplaceById(rows, key, id, x);
    forall k | HasKey(rows, key, k) ensures HasKey(r, key, k) {
      var s :| s in rows && key(s) == k;
      var i :| 0 <= i < |rows| && rows[i] == s;
      assert r[i] in r && key(r[i]) == k;
    }
  }

  /** Errors a table raises by itself: PostgreSQL's answers to a bad LIMIT and to a duplicate key. */
  datatype StoreError = NegativeLimit | UniqueViolation
}

=== FILE: my_appointments_component.dfy ===
/**
 * The customer's "my appointments" page of the Angular client
 * (frontend/angular/src/app/appt-booking/features/my-appointments/my-appointments.component.ts):
 * the upcoming and past filters, the e-mail suggestions, the search guard
 * and the local list update after a cancel. The current instant, the
 * confirm() answer and the outcome of each request are parameters.
 */
module MyAppointments {
  import opened Wrappers
  import opened Seqs
  import opened Models
  import opened Sorting
  import opened JsText
  import opened ClientApi

  /** The upcoming test: confirmed and later than now. */
  predicate IsUpcoming(a: AppointmentView, now: int)
  {
    a.appointment.status == Confirmed && a.appointment.appointmentDatetime > now
  }

  /** The past test: completed, cancelled, or not later than now. */
  predicate IsPast(a: AppointmentView, now: int)
  {
    a.appointment.status == Completed || a.appointment.status == Cancelled || a.appointment.appointmentDatetime <= now
  }

  function UpcomingAt(now: int): AppointmentView -> bool { a => IsUpcoming(a, now) }

  function PastAt(now: int): AppointmentView -> bool { a => IsPast(a, now) }

  /**
   * With every status one of the three and a single now, an appointment is
   * upcoming or past and never both, so the two lists split the list.
   */
  lemma UpcomingPastPartition(appts: seq<AppointmentView>, now: int)
    requires forall a :: a in appts ==> KnownStatus(a.appointment.status)
    ensures forall a :: a in appts ==> (a in Filter(appts, UpcomingAt(now)) <==> a !in Filter(appts, PastAt(now)))
    ensures multiset(Filter(appts, UpcomingAt(now))) + multiset(Filter(appts, PastAt(now))) == multiset(appts)
    ensures |Filter(appts, UpcomingAt(now))| + |Filter(appts, PastAt(now))| == |appts|
  {
    FilterSplit(appts, UpcomingAt(now), PastAt(now));
  }

  /** An appointment with any other status that lies after now is in neither list. */
  lemma OtherStatusInNeither(appts: seq<AppointmentView>, now: int, a: AppointmentView)
    requires a in appts && !KnownStatus(a.appointment.status) && a.appointment.appointmentDatetime > now
    ensures a !in Filter(appts, UpcomingAt(now)) && a !in Filter(appts, PastAt(now))
  {
  }

  /** The non-empty customer e-mails of the list, each once, in order of first appearance (a JavaScript Set). */
  function DistinctEmails(appts: seq<AppointmentView>): (r: seq<string>)
    ensures forall e :: multiset(r)[e] <= 1
    ensures forall e :: e in r <==> e != "" && exists a :: a in appts && a.appointment.customerEmail == e
    decreases |appts|
  {
    if appts == [] then []
    else
      var init := appts[..|appts| - 1];
      var last := appts[|appts| - 1];
      var emails := DistinctEmails(init);
      var e := last.appointment.customerEmail;
      assert appts == init + [last];
      if e == "" || e in emails then emails else emails + [e]
  }

  /** The suggestion list: Array.from(emailSet).sort(). */
  function EmailSuggestions(appts: seq<AppointmentView>): seq<string>
  {
    SortStrings(DistinctEmails(appts))
  }

  /** The suggestions are sorted, repeat no address, and are exactly the non-empty customer e-mails. */
  lemma EmailSuggestionsExactly(appts: seq<AppointmentView>)
    ensures SortedStrings(EmailSuggestions(appts))
    ensures forall e :: multiset(EmailSuggestions(appts))[e] <= 1
    ensures forall e :: e in EmailSuggestions(appts) <==>
      e != "" && exists a :: a in appts && a.appointment.customerEmail == e
  {
    var d := DistinctEmails(appts);
    var r := EmailSuggestions(appts);
    assert multiset(r) == multiset(d);
    forall e ensures e in r <==> e in d {
      assert e in r <==> e in multiset(r);
      assert e in d <==> e in multiset(d);
    }
  }

  const EnterEmailMessage: string := "Please enter your email address"
  const LoadFailedMessage: string := "Failed to load appointments. Please try again."
  const CancelFailedMessage: string := "Failed to cancel appointment. Please try again."

  class MyAppointmentsComponent {
    var email: string
    var searchPerformed: bool
    var appointments: seq<AppointmentView>
    var loading: bool
    var error: Option<string>
    var upcomingOnly: bool
    var availableEmails: seq<string>

    constructor()
      ensures email == "" && !searchPerformed && appointments == [] && !loading && error.None?
      ensures upcomingOnly && availableEmails == []
    {
      email := "";
      searchPerformed := false;
      appointments := [];
      loading := false;
      error := None;
      upcomingOnly := true;
      availableEmails := [];
    }

    /** getUpcomingAppointments: the whole list unless upcomingOnly, else the upcoming entries in list order. */
    function GetUpcomingAppointments(now: int): (r: seq<AppointmentView>)
      reads this
      ensures !upcomingOnly ==> r == appointments
      ensures upcomingOnly ==> forall a :: a in r <==> a in appointments && IsUpcoming(a, now)
    {
      if !upcomingOnly then appointments else Filter(appointments, UpcomingAt(now))
    }

    /** getPastAppointments: the past entries in list order. */
    function GetPastAppointments(now: int): (r: seq<AppointmentView>)
      reads this
      ensures forall a :: a in r <==> a in appointments && IsPast(a, now)
    {
      Filter(appointments, PastAt(now))
    }

    /** loadEmailSuggestions; appts is what the request for all appointments delivers. */
    method LoadEmailSuggestions(appts: seq<AppointmentView>)
      modifies this
      ensures availableEmails == EmailSuggestions(appts)
      ensures email == old(email) && searchPerformed == old(searchPerformed) && appointments == old(appointments)
      ensures loading == old(loading) && error == old(error) && upcomingOnly == old(upcomingOnly)
    {
      var emailSet: seq<string> := [];
      for i := 0 to |appts|
        invariant emailSet == DistinctEmails(appts[..i])
      {
        var e := appts[i].appointment.customerEmail;
        assert appts[..i + 1][..i] == appts[..i];
        if e != "" && e !in emailSet {
          emailSet := emailSet + [e];
        }
      }
      assert appts[..|appts|] == appts;
      availableEmails := SortStrings(emailSet);
    }

    /**
     * searchAppointments; response is the outcome of the request for the
     * appointments of that e-mail (None: the request failed). With an empty
     * e-mail no request is made and only the error is set.
     */
    method SearchAppointments(response: Option<seq<AppointmentView>>) returns (requested: bool)
      modifies this
      ensures requested <==> old(email) != ""
      ensures !requested ==>
        && error == Some(EnterEmailMessage)
        && searchPerformed == old(searchPerformed) && appointments == old(appointments) && loading == old(loading)
      ensures requested ==>
        && searchPerformed && !loading
        && appointments == (if response.Some? then response.value else old(appointments))
        && error == (if response.Some? then None else Some(LoadFailedMessage))
      ensures email == old(email) && upcomingOnly == old(upcomingOnly) && availableEmails == old(availableEmails)
    {
      if email == "" {
        error := Some(EnterEmailMessage);
        return false;
      }
      loading := true;
      error := None;
      searchPerformed := true;
      requested := true;
      match response
      case Some(appts) =>
        appointments := appts;
        loading := false;
      case None =>
        error := Some(LoadFailedMessage);
        loading := false;
    }

    /**
     * cancelAppointment: confirmed is the answer to the confirm() prompt and
     * succeeded whether the cancel request succeeded. On success exactly the
     * entries with that id leave the list.
     */
    method CancelAppointment(appointmentId: int, confirmed: bool, succeeded: bool)
      modifies this
      ensures !confirmed ==> appointments == old(appointments) && loading == old(loading) && error == old(error)
      ensures confirmed ==> !loading
      ensures confirmed && succeeded ==> appointments == Filter(old(appointments), NotId(appointmentId)) && error == old(error)
      ensures confirmed && !succeeded ==> appointments == old(appointments) && error == Some(CancelFailedMessage)
      ensures email == old(email) && searchPerformed == old(searchPerformed)
      ensures upcomingOnly == old(upcomingOnly) && availableEmails == old(availableEmails)
    {
      if !confirmed {
        return;
      }
      loading := true;
      if succeeded {
        appointments := Filter(appointments, NotId(appointmentId));
        loading := false;
      } else {
        error := Some(CancelFailedMessage);
        loading := false;
      }
    }
  }

  /** After a successful cancel the list holds no entry with that id and keeps every other entry. */
  lemma CancelRemovesExactly(appts: seq<AppointmentView>, id: int)
    ensures forall a :: a in Filter(appts, NotId(id)) <==> a in appts && a.appointment.id != id
    ensures multiset(Filter(appts, NotId(id))) + multiset(Filter(appts, HasId(id))) == multiset(appts)
  {
    FilterSplit(appts, NotId(id), HasId(id));
  }
}

=== FILE: seed_data.dfy ===
/**
 * The tables SeedSampleData (backend/go/db/appt_booking/connection.go)
 * leaves in a fresh database, as values: three services, three staff
 * members, four staff-service pairs, eleven weekly windows and five
 * appointments on the five days after today. This is the state the
 * dependency container builds the engine over. The inserts themselves are
 * startup I/O; only their result is modelled. today is the instant of the
 * local midnight that starts the current day.
 */
module SeedData {
  import opened Models
  import opened Tables
  import opened AppointmentStore
  import opened EngineState

  const SeedServices: seq<Service> := [
    Service(1, "Haircut", "Classic haircut with styling", 30, 3500),
    Service(2, "Beard Trim", "Beard trimming and shaping", 15, 2000),
    Service(3, "Full Grooming", "Complete haircut and beard grooming", 60, 6000)
  ]

  const SeedStaff: seq<Staff> := [
    Staff(1, "John Smith", "john@example.com", "555-0101", "provider"),
    Staff(2, "Jane Doe", "jane@example.com", "555-0102", "provider"),
    Staff(3, "Admin User", "admin@example.com", "555-0100", "admin")
  ]

  /** John: Haircut and Beard Trim; Jane: Haircut and Full Grooming. */
  const SeedPairs: seq<StaffService> := [
    StaffService(1, 1), StaffService(1, 2), StaffService(2, 1), StaffService(2, 3)
  ]

  /** John: Monday to Friday 09:00-17:00 and Saturday 10:00-14:00; Jane: Monday to Friday 10:00-18:00. */
  const SeedSchedules: seq<Schedule> := [
    Schedule(1, 1, 1, 540, 1020), Schedule(2, 1, 2, 540, 1020), Schedule(3, 1, 3, 540, 1020),
    Schedule(4, 1, 4, 540, 1020), Schedule(5, 1, 5, 540, 1020), Schedule(6, 1, 6, 600, 840),
    Schedule(7, 2, 1, 600, 1080), Schedule(8, 2, 2, 600, 1080), Schedule(9, 2, 3, 600, 1080),
    Schedule(10, 2, 4, 600, 1080), Schedule(11, 2, 5, 600, 1080)
  ]

  /** One sample appointment: day days after today at minute minuteOfDay, with the given duration. */
  function SeedAppointment(id: int, staffId: int, serviceId: int, today: int, day: int, minuteOfDay: int,
                           duration: int, status: string): Appointment
  {
    Appointment(id, "Sample Customer", "customer@example.com", "555-1234", staffId, serviceId,
                today + day * 1440 + minuteOfDay, duration, status, "")
  }

  function SeedAppointments(today: int): seq<Appointment>
  {
    [
      SeedAppointment(1, 1, 1, today, 1, 570, 30, Confirmed),
      SeedAppointment(2, 1, 2, today, 2, 840, 15, Confirmed),
      SeedAppointment(3, 2, 3, today, 3, 660, 60, Confirmed),
      SeedAppointment(4, 2, 1, today, 4, 810, 30, Completed),
      SeedAppointment(5, 1, 1, today, 5, 600, 30, Confirmed)
    ]
  }

  function SeedDb(today: int): Db
  {
    Db(SeedServices, SeedStaff, SeedPairs, SeedSchedules, SeedAppointments(today))
  }

  /** The seeded services have ids 1..3, positive durations and non-negative prices. */
  lemma SeedServicesValid()
    ensures KeysValid(SeedServices, ServiceKey, 4) && ServicesChecked(SeedServices)
    ensures forall id :: 1 <= id <= 3 ==> HasService(SeedServices, id)
  {
    var s := SeedServices;
    assert s[0].id == 1 && s[1].id == 2 && s[2].id == 3;
    assert s[0] in s && s[1] in s && s[2] in s;
  }

  /** The seeded staff have ids 1..3 and three different e-mails. */
  lemma SeedStaffValid()
    ensures KeysValid(SeedStaff, StaffKey, 4) && EmailsUnique(SeedStaff)
    ensures forall id :: 1 <= id <= 3 ==> HasStaff(SeedStaff, id)
  {
    var s := SeedStaff;
    assert s[0].id == 1 && s[1].id == 2 && s[2].id == 3;
    assert s[0] in s && s[1] in s && s[2] in s;
    assert s[0].email[1] == 'o' && s[1].email[1] == 'a' && s[2].email[1] == 'd';
    forall a, b | a in s && b in s && a.id != b.id ensures a.email != b.email {
      var i :| 0 <= i < |s| && s[i] == a;
      var j :| 0 <= j < |s| && s[j] == b;
      assert a.email[1] != b.email[1];
    }
  }

  /** A sequence without repeated elements holds each element at most once. */
  lemma {:induction false} NoRepeatsCountsOne<T>(s: seq<T>)
    requires forall i, j :: 0 <= i < j < |s| ==> s[i] != s[j]
    ensures forall x :: multiset(s)[x] <= 1
  {
    if s != [] {
      NoRepeatsCountsOne(s[1..]);
      assert s == [s[0]] + s[1..];
      assert s[0] !in s[1..];
    }
  }

  /** The four seeded pairs are distinct and name existing staff and services. */
  lemma SeedPairsValid()
    ensures PairsValid(SeedPairs, SeedStaff, SeedServices)
  {
    SeedServicesValid();
    SeedStaffValid();
    var s := SeedPairs;
    assert forall i :: 0 <= i < |s| ==> 1 <= s[i].staffId <= 2 && 1 <= s[i].serviceId <= 3;
    NoRepeatsCountsOne(s);
  }

  /** The seeded windows in closed form: the first six are John's, Monday to Saturday; the other five Jane's. */
  lemma SeedSchedulesShape()
    ensures |SeedSchedules| == 11
    ensures forall i :: 0 <= i < 11 ==>
      && SeedSchedules[i].id == i + 1
      && SeedSchedules[i].staffId == (if i < 6 then 1 else 2)
      && SeedSchedules[i].dayOfWeek == (if i < 6 then i + 1 else i - 5)
  {
  }

  /** The seeded windows have existing staff, days in 0..6, distinct slots and no same-day overlap. */
  lemma SeedSchedulesValid()
    ensures KeysValid(SeedSchedules, ScheduleKey, 12)
    ensures SchedulesValid(SeedSchedules, SeedStaff) && SlotsUnique(SeedSchedules) && NoScheduleOverlap(SeedSchedules)
  {
    var s := SeedSchedules;
    SeedSchedulesShape();
    SeedStaffValid();
    forall a, b | a in s && b in s && a.id != b.id
      ensures a.staffId == b.staffId ==> a.dayOfWeek != b.dayOfWeek
    {
      var i :| 0 <= i < |s| && s[i] == a;
      var j :| 0 <= j < |s| && s[j] == b;
    }
  }

  /** The seeded appointments in closed form: ids 1..5, known statuses and positive durations. */
  lemma SeedAppointmentsShape(today: int)
    ensures |SeedAppointments(today)| == 5
    ensures forall i :: 0 <= i < 5 ==>
      && SeedAppointments(today)[i].id == i + 1
      && KnownStatus(SeedAppointments(today)[i].status)
      && 1 <= SeedAppointments(today)[i].staffId <= 2
      && 1 <= SeedAppointments(today)[i].serviceId <= 3
      && 0 < SeedAppointments(today)[i].durationMinutes <= 60
      && today + (i + 1) * 1440 <= SeedAppointments(today)[i].appointmentDatetime
      && SeedAppointments(today)[i].appointmentDatetime + SeedAppointments(today)[i].durationMinutes
         <= today + (i + 2) * 1440
  {
  }

  /** The seeded appointments have existing rows, known statuses, positive durations and no double booking. */
  lemma SeedAppointmentsValid(today: int)
    ensures KeysValid(SeedAppointments(today), AppointmentKey, 6)
    ensures AppointmentsValid(SeedAppointments(today), SeedStaff, SeedServices)
    ensures NoDoubleBooking(SeedAppointments(today))
  {
    var r := SeedAppointments(today);
    SeedAppointmentsShape(today);
    SeedServicesValid();
    SeedStaffValid();
    forall a, b | a in r && b in r && a.id != b.id
      ensures !Overlaps(a, b.appointmentDatetime, b.durationMinutes)
    {
      var i :| 0 <= i < |r| && r[i] == a;
      var j :| 0 <= j < |r| && r[j] == b;
    }
  }

  /**
   * The database SeedSampleData leaves meets every rule the engine keeps,
   * so the engine can be built over it.
   */
  lemma SeedDbConsistent(today: int)
    ensures Consistent(SeedDb(today))
    ensures KeysValid(SeedServices, ServiceKey, 4) && KeysValid(SeedStaff, StaffKey, 4)
    ensures KeysValid(SeedSchedules, ScheduleKey, 12) && KeysValid(SeedAppointments(today), AppointmentKey, 6)
  {
    SeedServicesValid();
    SeedStaffValid();
    SeedPairsValid();
    SeedSchedulesValid();
    SeedAppointmentsValid(today);
  }
}

=== FILE: seqs.dfy ===
/**
 * Scans over sequences: the row filters of the SQL queries (WHERE), the
 * filters and finds of the Angular components, and the early-exit scans of
 * the booking engine.
 */
module Seqs {
  import opened Wrappers

  /** The elements of s that satisfy p, in their original order. */
  function Filter<T(!new)>(s: seq<T>, p: T -> bool): (r: seq<T>)
    ensures |r| <= |s|
    ensures forall x :: x in r <==> x in s && p(x)
    decreases |s|
  {
    if s == [] then []
    else
      assert s == [s[0]] + s[1..];
      if p(s[0]) then [s[0]] + Filter(s[1..], p) else Filter(s[1..], p)
  }

  /** Nothing passes a filter that no element satisfies. */
  lemma {:induction false} FilterNone<T(!new)>(s: seq<T>, p: T -> bool)
    requires forall x :: x in s ==> !p(x)
    ensures Filter(s, p) == []
    decreases |s|
  {
    if s != [] {
      assert s[0] in s;
      FilterNone(s[1..], p);
    }
  }

  /**
   * Two filters whose tests are complementary on s split it: together they
   * hold every element of s as often as s does.
   */
  lemma FilterSplit<T(!new)>(s: seq<T>, p: T -> bool, q: T -> bool)
    requires forall x :: x in s ==> p(x) != q(x)
    ensures multiset(Filter(s, p)) + multiset(Filter(s, q)) == multiset(s)
    ensures |Filter(s, p)| + |Filter(s, q)| == |s|
  {
    forall x ensures (multiset(Filter(s, p)) + multiset(Filter(s, q)))[x] == multiset(s)[x] {
      FilterCount(s, p, x);
      FilterCount(s, q, x);
    }
    assert multiset(Filter(s, p)) + multiset(Filter(s, q)) == multiset(s);
    assert |multiset(Filter(s, p)) + multiset(Filter(s, q))| == |multiset(s)|;
  }

  /** The filter keeps every occurrence of a kept element and none of the others. */
  lemma {:induction false} FilterCount<T(!new)>(s: seq<T>, p: T -> bool, x: T)
    ensures multiset(Filter(s, p))[x] == if p(x) then multiset(s)[x] else 0
    decreases |s|
  {
    if s != [] {
      assert s == [s[0]] + s[1..];
      FilterCount(s[1..], p, x);
    }
  }

  /** Filtering distributes over concatenation: the filter keeps the order of the input. */
  lemma {:induction false} FilterConcat<T(!new)>(a: seq<T>, b: seq<T>, p: T -> bool)
    ensures Filter(a + b, p) == Filter(a, p) + Filter(b, p)
    decreases |a|
  {
    if a == [] {
      assert a + b == b;
    } else {
      assert (a + b)[0] == a[0];
      assert (a + b)[1..] == a[1..] + b;
      FilterConcat(a[1..], b, p);
    }
  }

  /** Filtering a prefix extended by one element. */
  lemma FilterSnoc<T(!new)>(a: seq<T>, x: T, p: T -> bool)
    ensures Filter(a + [x], p) == Filter(a, p) + (if p(x) then [x] else [])
  {
    FilterConcat(a, [x], p);
    assert Filter([x], p) == (if p(x) then [x] else []) by {
      assert [x][1..] == [];
    }
  }

  /** The index of the first element that satisfies p, if any. */
  function FirstIndex<T>(s: seq<T>, p: T -> bool): (r: Option<nat>)
    ensures r.Some? ==> r.value < |s| && p(s[r.value])
    ensures r.Some? ==> forall j :: 0 <= j < r.value ==> !p(s[j])
    ensures r.None? <==> forall j :: 0 <= j < |s| ==> !p(s[j])
    decreases |s|
  {
    if s == [] then None
    else if p(s[0]) then Some(0)
    else
      match FirstIndex(s[1..], p)
      case None => None
      case Some(i) => Some(i + 1)
  }

  /** The first element that satisfies p (Array.prototype.find, or a scan that returns on the first hit). */
  function Find<T(!new)>(s: seq<T>, p: T -> bool): (r: Option<T>)
    ensures r.None? <==> forall x :: x in s ==> !p(x)
    ensures r.Some? ==> exists i :: 0 <= i < |s| && s[i] == r.value && p(s[i]) &&
                                    forall j :: 0 <= j < i ==> !p(s[j])
  {
    match FirstIndex(s, p)
    case None => None
    case Some(i) => Some(s[i])
  }

  /** Sequences that are permutations of each other have the same elements. */
  lemma SameElements<T>(a: seq<T>, b: seq<T>)
    requires multiset(a) == multiset(b)
    ensures forall x :: x in a <==> x in b
  {
    forall x ensures x in a <==> x in b {
      assert x in a <==> x in multiset(a);
      assert x in b <==> x in multiset(b);
    }
  }
}

=== FILE: sorting.dfy ===
/**
 * Orderings the queries and components promise: ORDER BY on an integer
 * column (ties in any order) and Array.prototype.sort on strings.
 */
module Sorting {
  import opened JsText

  predicate SortedBy<T>(s: seq<T>, key: T -> int)
  {
    forall i, j :: 0 <= i < j < |s| ==> key(s[i]) <= key(s[j])
  }

  function InsertBy<T>(x: T, s: seq<T>, key: T -> int): (r: seq<T>)
    requires SortedBy(s, key)
    ensures SortedBy(r, key)
    ensures multiset(r) == multiset(s) + multiset{x}
    decreases |s|
  {
    if s == [] then [x]
    else if key(x) <= key(s[0]) then [x] + s
    else
      var rest := InsertBy(x, s[1..], key);
      assert s == [s[0]] + s[1..];
      assert forall k :: 0 <= k < |rest| ==> key(s[0]) <= key(rest[k]) by {
        forall k | 0 <= k < |rest| ensures key(s[0]) <= key(rest[k]) {
          assert rest[k] in multiset(rest);
          assert rest[k] in multiset(s[1..]) || rest[k] == x;
        }
      }
      [s[0]] + rest
  }

  /**
   * The first n elements of a sorted sequence are its n least: everything
   * after them has a key no smaller than theirs (ORDER BY ... LIMIT n).
   */
  lemma SortedPrefixLeast<T>(s: seq<T>, key: T -> int, n: nat)
    requires n <= |s| && SortedBy(s, key)
    ensures multiset(s) == multiset(s[..n]) + multiset(s[n..])
    ensures forall a, b :: a in s[..n] && b in s[n..] ==> key(a) <= key(b)
  {
    assert s == s[..n] + s[n..];
    forall a, b | a in s[..n] && b in s[n..] ensures key(a) <= key(b) {
      var i :| 0 <= i < n && s[i] == a;
      var j :| n <= j < |s| && s[j] == b;
    }
  }

  /**
   * ORDER BY key LIMIT n over s: the first n of a sorted permutation of s
   * are drawn from s, and every element of s left out has a key no smaller
   * than any kept one.
   */
  lemma TakeLeast<T>(s: seq<T>, sorted: seq<T>, key: T -> int, n: nat)
    requires multiset(sorted) == multiset(s) && SortedBy(sorted, key) && n <= |sorted|
    ensures multiset(sorted[..n]) <= multiset(s)
    ensures forall a, b :: a in sorted[..n] && b in multiset(s) - multiset(sorted[..n]) ==> key(a) <= key(b)
  {
    SortedPrefixLeast(sorted, key, n);
    forall b | b in multiset(s) - multiset(sorted[..n]) ensures b in sorted[n..] {
      assert b in multiset(sorted[n..]);
    }
  }

  /** ORDER BY key LIMIT n: the n elements of s with the least keys, ascending. */
  function TakeLeastBy<T>(s: seq<T>, key: T -> int, n: nat): (r: seq<T>)
    ensures |r| == if n < |s| then n else |s|
    ensures multiset(r) <= multiset(s)
    ensures SortedBy(r, key)
    ensures forall a, b :: a in r && b in multiset(s) - multiset(r) ==> key(a) <= key(b)
  {
    var sorted := SortBy(s, key);
    var m := if n < |sorted| then n else |sorted|;
    TakeLeast(s, sorted, key, m);
    sorted[..m]
  }

  /** Ascending by key; a permutation of the input. */
  function SortBy<T>(s: seq<T>, key: T -> int): (r: seq<T>)
    ensures SortedBy(r, key)
    ensures multiset(r) == multiset(s)
    decreases |s|
  {
    if s == [] then []
    else
      assert s == [s[0]] + s[1..];
      InsertBy(s[0], SortBy(s[1..], key), key)
  }

  predicate SortedStrings(s: seq<string>)
  {
    forall i, j :: 0 <= i < j < |s| ==> StrLe(s[i], s[j])
  }

  function InsertString(x: string, s: seq<string>): (r: seq<string>)
    requires SortedStrings(s)
    ensures SortedStrings(r)
    ensures multiset(r) == multiset(s) + multiset{x}
    decreases |s|
  {
    if s == [] then [x]
    else if StrLe(x, s[0]) then
      assert forall k :: 0 <= k < |s| ==> StrLe(x, s[k]) by {
        forall k | 0 <= k < |s| ensures StrLe(x, s[k]) {
          if x != s[0] && s[0] != s[k] { StrLtTransitive(x, s[0], s[k]); }
        }
      }
      [x] + s
    else
      var rest := InsertString(x, s[1..]);
      assert s == [s[0]] + s[1..];
      StrLtTotal(x, s[0]);
      assert forall k :: 0 <= k < |rest| ==> StrLe(s[0], rest[k]) by {
        forall k | 0 <= k < |rest| ensures StrLe(s[0], rest[k]) {
          assert rest[k] in multiset(rest);
          assert rest[k] in multiset(s[1..]) || rest[k] == x;
        }
      }
      [s[0]] + rest
  }

  /** Array.prototype.sort() on strings: ascending, a permutation of the input. */
  function SortStrings(s: seq<string>): (r: seq<string>)
    ensures SortedStrings(r)
    ensures multiset(r) == multiset(s)
    decreases |s|
  {
    if s == [] then []
    else
      assert s == [s[0]] + s[1..];
      InsertString(s[0], SortStrings(s[1..]))
  }

  /** Sorted strings without repetitions are strictly increasing. */
  lemma SortedDistinctIsStrict(s: seq<string>)
    requires SortedStrings(s)
    requires forall i, j :: 0 <= i < j < |s| ==> s[i] != s[j]
    ensures forall i, j :: 0 <= i < j < |s| ==> StrLt(s[i], s[j])
  {
  }
}

=== FILE: wrappers.dfy ===
/** Optional values and results with an error, used throughout the model. */
module Wrappers {

  datatype Option<+T> = None | Some(value: T)

  datatype Result<+T, +E> = Success(value: T) | Failure(error: E)
}
